=== FILE: README.md ===
# File organizer, conversation export and agent helpers: a Dafny model

This project models the file organizer command-line tool of the repository and
three small pure helpers that live beside it.

The file organizer runs one pipeline over a root directory:

1. It sets up a report log named `cleanup_report_<timestamp>.log`.
2. It loads the self-healing learning store.
3. It removes empty directories, deepest first.
4. It scans the remaining regular files. The staging directory and the
   tool's own outputs are skipped.
5. It processes each file: MIME type, metadata, filename consistency,
   labels and a confidence score. The learning store can add suggestions.
6. It organizes the files. A file with errors or a confidence below the
   threshold goes to the staging directory `_UNKNOWN_NEEDS_REVIEW`. Every
   other file goes to a category directory such as `Media/Photos`,
   `Code/Scripts` or `Documents/<Label>`.
7. It records the primary label of every file routed to a category, then
   saves the store once.

The helpers are:

- the ChatGPT-export converter: `slugify`, `extract_messages`, the
  Markdown rendering and the output file name;
- the contextualizer's `compress`, which keeps the longest run of leading
  contexts that fits a token limit;
- the security-alert triage agent's deterministic parts: the keyword
  priority classifier, the IP-shape test of the mock threat lookup, and the
  "N/A" defaults of the triage prompt.

The file tree is a sequence of entries, each a path and a kind. Paths are
sequences of parts, with an anchor part for "/". Python dictionaries are
insertion-ordered association lists, because the sorts the code relies on
are stable. Confidence scores are reals. Everything the code cannot decide
by itself is a parameter of the model:

- the clock;
- path resolution;
- the MIME detector and the extraction backend;
- which directories refuse removal;
- whether each `shutil.move` succeeds;
- the content of the learning-state file;
- date formatting.

Modules:

| file | module | models |
|---|---|---|
| wrappers.dfy | Wrappers | `Option` and `Result`, for `None` and uncaught exceptions |
| text.dfy | Text | the `str` methods the code uses |
| dicts.dfy | Dicts | insertion-ordered dictionaries, counters |
| sorting.dfy | Sorting | Python's stable `sorted` by a key |
| ranking.dfy | Ranking | `sorted(d, key=d.get, reverse=True)[:limit]` |
| paths.dfy | Paths | `pathlib` names, suffixes, stems, joins, parents |
| filesystem.dfy | FileSystems | the directory tree and `mkdir`, `rmdir`, `move`, `write_text` |
| models.dfy | Models | `FileObject` |
| learning.dfy | Learning | `LearningStore` |
| metadata_processor.dfy | MetadataProcessor | `MetadataProcessor` |
| organization_engine.dfy | OrganizationEngine | `OrganizationEngine` |
| cleanup_engine.dfy | CleanupEngine | `CleanupEngine` |
| file_scanner.dfy | FileScanner | `FileScanner` |
| pipeline.dfy | Pipeline | `main.py`: configuration, commands, `run_pipeline` |
| integration.dfy | Integration | the routing the integration test expects for its three files (a text note, a photo, an empty file of unknown type), the removal of its empty directory by the cleanup stage, and the staging of a file whose extraction failed |
| chat_markdown.dfy | ChatMarkdown | `scripts/json_to_markdown.py` |
| contextualizer.dfy | Contextualizer | `Contextualizer.compress` |
| triage.dfy | Triage | the triage agent's priority, IP test and prompt defaults |

Behaviour of the code that the model keeps as written:

- A label the store has recorded is not always suggested. Suggestions are
  the top three by combined count, so three labels with higher counts push
  it out (`Learning.RecordedLabelCanBeOutranked`).
- The store learns only from files routed to a category. A file that is
  staged teaches nothing, even when it has labels.
- A MIME detection failure is not caught by `process_file`, so it ends the
  run. An extraction failure is recorded in `errors` and the file is staged.
- The scan excludes the staging directory by comparing resolved parents. The
  report log and learning state are skipped by name wherever they are.
- In the triage IP test, the "contains a dot" half never decides anything:
  four dot-separated fields already need three dots.
- `compress` with a negative token limit reports compression applied with
  nothing kept, and with zero kept tokens, which is above the limit.

## Model

| member | source | states |
|---|---|---|
| FileSystems.MakeDirs | file_organizer/engines/organization_engine.py:73-74 | `mkdir(parents=True, exist_ok=True)` fails exactly when the directory or one of its ancestors is a file; otherwise it adds exactly the missing ancestors and leaves the files alone |
| FileSystems.Move | file_organizer/engines/organization_engine.py:92 | after a move the destination is a file, the source is gone, and no other path changes |
| FileSystems.RemoveDir | file_organizer/engines/cleanup_engine.py:38-39 | `rmdir` removes exactly that one directory entry |
| FileSystems.WriteText | file_organizer/core/learning.py:50 | writing text fails on a directory; otherwise the path becomes a file and the directories are unchanged |
| Paths.Stem | file_organizer/engines/metadata_processor.py:134 | the stem followed by the suffix is the file name |
| Paths.Suffix | file_organizer/core/learning.py:87 | the suffix runs from the name's last dot to its end when that dot is neither the first nor the last character, and is empty otherwise (so "a.b." and ".bashrc" have none) |
| Paths.SuffixOfDottedName | file_organizer/engines/organization_engine.py:45 | a final part built as stem, dot and dot-free extension has that extension, with its dot, as suffix and that stem as stem, even when the stem holds dots |
| Paths.TrailingDotNoSuffix | file_organizer/engines/organization_engine.py:45 | a final part that ends in a dot has no suffix, even when it holds other dots, and is its own stem |
| Paths.JoinName | file_organizer/engines/organization_engine.py:87 | joining a plain file name appends exactly one part |
| Sorting.SortSorts | file_organizer/core/learning.py:74 | the sort returns a permutation of its input, ordered by the key |
| Sorting.SortIsStable | file_organizer/core/learning.py:74 | elements with equal keys keep their input order |
| Sorting.StableSortTies | file_organizer/core/learning.py:74 | of two distinct elements with equal keys, the one that comes first in the input comes first in the output |
| Ranking.TopKeysAreTopK | file_organizer/core/learning.py:74-76 | the first `limit` keys by descending count are distinct keys of the dictionary, there are `min(limit, len)` of them, their counts do not increase, and no key left out has a larger count than one kept |
| Ranking.TopKeysTieBreak | file_organizer/core/learning.py:74-76 | among chosen keys with equal counts the one listed first in the dictionary is ranked first, and a key left out with the same count as a chosen key is listed after it |
| Ranking.OutrankedNotInTop | file_organizer/core/learning.py:74-76 | a key that `limit` other keys each outrank is not among the top `limit` |
| Dicts.PutGet | file_organizer/core/learning.py:91-99 | after `d[k] = v`, `d.get(k)` is `v` and every other key reads as before |
| Dicts.TallyCounts | file_organizer/engines/metadata_processor.py:175-177 | the frequency dictionary counts each word as often as it occurs |
| Dicts.DedupOrder | file_organizer/engines/metadata_processor.py:175-177 | the frequency dictionary lists the words in the order of their first occurrences |
| Learning.LoadSave | file_organizer/core/learning.py:20-50 | a saved store loads back unchanged; with the JSON encoding abstracted to a snapshot of both tables, this is a fact of that abstraction |
| Learning.Load | file_organizer/core/learning.py:30-36 | a missing file gives the empty store; a missing table key gives an empty table |
| Learning.Candidates | file_organizer/core/learning.py:63-69 | each candidate's count is its extension count plus its MIME count, and the candidates are exactly the labels of either table |
| Learning.SuggestLabels | file_organizer/core/learning.py:52-76 | no history gives no labels and no boost; otherwise exactly `min(limit, n)` distinct labels from the two tables, where `n` is the number of candidates (one per label either table knows), in descending combined count, none outranked by a label left out, with a boost of twice the highest count capped at 20 |
| Learning.Boost | file_organizer/core/learning.py:75 | the boost lies between 0 and 20 |
| Learning.Update | file_organizer/core/learning.py:78-99 | a file without labels changes nothing; otherwise its lower-cased primary label gains one under its extension and one under its MIME type, and no other count changes |
| Learning.UpdateCombined | file_organizer/core/learning.py:78-99 | recording a file raises its primary label's combined count for the same kind of file by two and no other label's |
| Learning.UpdateTeaches | file_organizer/core/learning.py:52-99 | once a labelled file is recorded, a file of the same extension and MIME type gets at least one suggestion and a boost of at least 4 |
| Learning.RecordedLabelCanBeOutranked | file_organizer/core/learning.py:74-76 | a recorded label is not suggested when enough other labels have higher counts |
| Learning.SuggestionsDependOnKind | file_organizer/core/learning.py:64-65 | suggestions depend only on the file's extension and MIME type |
| MetadataProcessor.ValidateFilename | file_organizer/engines/metadata_processor.py:131-133 | a missing or empty title is always consistent |
| MetadataProcessor.TitleMatchingStemIsConsistent | file_organizer/engines/metadata_processor.py:134-136 | a title equal to the stem, ignoring case, is consistent |
| MetadataProcessor.ValidationIgnoresCase | file_organizer/engines/metadata_processor.py:134-136 | the consistency check ignores the title's letter case |
| MetadataProcessor.MismatchIsInconsistent | file_organizer/engines/metadata_processor.py:131-136 | for a non-empty title and a stem without surrounding whitespace, the file is consistent exactly when they are equal up to letter case, so any other title is a mismatch |
| MetadataProcessor.ValidationIgnoresPadding | file_organizer/engines/metadata_processor.py:134-136 | whitespace around a non-empty title never changes the verdict |
| MetadataProcessor.MetadataLabelsSpec | file_organizer/engines/metadata_processor.py:152-156 | the metadata labels are exactly the lower-cased non-empty values of the title, author and created keys |
| MetadataProcessor.MetadataLabelsAppend | file_organizer/engines/metadata_processor.py:152-156 | the labels of two runs of metadata items are the labels of the first followed by those of the second |
| MetadataProcessor.MetadataLabelsOfItem | file_organizer/engines/metadata_processor.py:152-156 | one item contributes its lower-cased value when its key is essential and its value non-empty, and nothing otherwise |
| MetadataProcessor.KeptWordsSpec | file_organizer/engines/metadata_processor.py:173-174 | the counted words are exactly the cleaned words longer than three characters |
| MetadataProcessor.GenerateLabels | file_organizer/engines/metadata_processor.py:149-181 | metadata labels win, at most five, with confidence 90; otherwise the frequent-word labels with 50 plus 10 per label; no labels means confidence 0 |
| MetadataProcessor.FrequencyLabelsAreTopWords | file_organizer/engines/metadata_processor.py:173-178 | the frequency labels are the up to five most frequent distinct words, in descending frequency, none outranked by a word left out |
| MetadataProcessor.FrequencyLabelsTieBreak | file_organizer/engines/metadata_processor.py:175-178 | of two equally frequent labels the one met first in the sample is listed first, and a word left out with the same count as a label is met after it |
| MetadataProcessor.SampleOfNothing | file_organizer/engines/metadata_processor.py:162-164 | an empty sample yields no frequency labels |
| MetadataProcessor.MediaDefaults | file_organizer/engines/metadata_processor.py:206-216 | images get at least "photo" and confidence at least 85; unlabelled video and audio get "video" or "audio" at 85; other files are unchanged |
| MetadataProcessor.WithSuggestions | file_organizer/engines/metadata_processor.py:217-222 | suggestions replace missing or placeholder labels and add the boost, capped at 100; no suggestions change nothing |
| MetadataProcessor.ProcessFile | file_organizer/engines/metadata_processor.py:193-238 | a detection failure propagates; an extraction failure gives the new record with that one error; otherwise no errors, the extracted metadata, the filename check, the labels and confidence of the labelling step (generation, media defaults, then the store), a confidence in [0, 100], and images labelled with confidence at least 85 |
| MetadataProcessor.LabelledWithStore | file_organizer/engines/metadata_processor.py:217-222 | with a store, the media-type defaults are completed by the store's top three suggestions and their boost |
| MetadataProcessor.LearningNeverLowersConfidence | file_organizer/engines/metadata_processor.py:217-222 | consulting the store never lowers the confidence |
| MetadataProcessor.RecordedKindIsLabelled | file_organizer/engines/metadata_processor.py:217-221 | once a labelled file is recorded, any file of the same kind is labelled |
| MetadataProcessor.SuggestedIsLabelled | file_organizer/engines/metadata_processor.py:219-221 | a file with suggestions ends up labelled |
| OrganizationEngine.DetermineCategory | file_organizer/engines/organization_engine.py:43-59 | the first rule that applies decides: image, video and audio types go to Media/Photos, Media/Videos and Media/Audio, a PDF to Documents/PDFs, a code extension to Code/Scripts, other text to Documents/Text, and anything else under Documents by its title-cased first label, Documents/Uncategorized when it has none |
| OrganizationEngine.PlainLabelCategory | file_organizer/engines/organization_engine.py:44-59 | a file no earlier rule routes, whose first label names one directory, goes to exactly Documents/<Label> |
| OrganizationEngine.CountStaged | file_organizer/engines/organization_engine.py:77-79 | the staged count is at most the number of files |
| OrganizationEngine.OrganizeOne | file_organizer/engines/organization_engine.py:77-98 | one file's turn fails exactly when its destination directory cannot be made; otherwise only its target path changes, to the destination when it moved |
| OrganizationEngine.OrganizeOneTree | file_organizer/engines/organization_engine.py:86-92 | a moved file leaves its source for its destination; a skipped or refused move leaves the files alone; the destination directory then exists |
| OrganizationEngine.OrganizeFiles | file_organizer/engines/organization_engine.py:72-99 | a staging directory that cannot be made fails the call; otherwise one record per file, `staged` counts the staged files and `moved` all the others |
| OrganizationEngine.OrganizedObjects | file_organizer/engines/organization_engine.py:76-93 | each returned record is its input with the target path of its own move |
| OrganizationEngine.StagingExists | file_organizer/engines/organization_engine.py:73-74 | the staging directory exists after organizing |
| CleanupEngine.CandidatesFacts | file_organizer/engines/cleanup_engine.py:30-34 | the sweep visits each directory strictly below the root once, deepest first |
| CleanupEngine.RemoveEmptyDirectories | file_organizer/engines/cleanup_engine.py:20-45 | files are untouched; only empty directories below the root that do not refuse are removed; the count is the number removed; every remaining unrefused directory below the root has an entry; no removed directory held a file |
| CleanupEngine.SweepExample | tests/test_cleanup_engine.py:10-31 | on the test's tree three directories are removed and only the root and the non-empty directory remain |
| CleanupEngine.ExampleOutcome | tests/test_cleanup_engine.py:27-31 | any sweep result of the test's tree removes three directories and keeps the root and the non-empty directory |
| FileScanner.ScanIsClean | file_organizer/file_scanner.py:22-33 | everything returned is a regular file strictly below the root, outside every excluded directory, and not a report log or learning state |
| FileScanner.ScanIsComplete | file_organizer/file_scanner.py:22-33 | every regular file below the root that passes those filters is returned |
| FileScanner.ScanEntriesAppend | file_organizer/file_scanner.py:24-33 | the scan filters the walk piecewise, so it keeps the walk's order |
| Pipeline.Configure | file_organizer/main.py:186-199 | the root is resolved; the threshold, staging name, log directory and state path take their defaults when not given |
| Pipeline.SetupLogger | file_organizer/core/logger.py:24-26 | the log directory is made and the report log exists afterwards |
| Pipeline.LoadState | file_organizer/core/learning.py:20-36 | loading fails exactly on a directory, gives the empty store for a missing file, and the file's content otherwise |
| Pipeline.SaveState | file_organizer/core/learning.py:38-50 | after saving, the state file exists and no file was lost |
| Pipeline.ProcessAll | file_organizer/main.py:79-83 | the run fails exactly when some file's detection fails; otherwise one record per scanned path, each the processed record of its path |
| Pipeline.LearnCounts | file_organizer/main.py:99-104 | after the learning loop each count is the loaded count plus the votes of the routed, labelled records |
| Pipeline.StagedTeachNothing | file_organizer/main.py:99-103 | a run in which every file is staged leaves the store as loaded |
| Pipeline.RunPipeline | file_organizer/main.py:145-183 | the run fails exactly when setting up the log, loading the state, detecting a scanned file's type, making a directory while organizing, or saving fails; on success the logger's tree and the loaded store are recorded, the cleaned tree is scanned with the staging directory excluded, every scanned path is processed with the loaded store, those records are organized in the cleaned tree, and the store learned from the organized records is saved; the report log exists; the cleanup keeps its promises; the scan stays below the root and out of the staging directory; one record per scanned file with moved plus staged equal to their number; the saved state records exactly the routed votes and loads back as the learned store |
| Pipeline.OwnOutputsNotScanned | file_organizer/file_scanner.py:29-32 | the run never processes its own report log, nor the learning state under its default name |
| Integration.PhotoGoesToPhotos | tests/test_integration_pipeline.py:39-43 | a photo is routed to Media/Photos under any threshold up to 85 |
| Integration.TextNoteGoesToText | tests/test_integration_pipeline.py:40-44 | a text note with at least two frequent words is routed to Documents/Text under any threshold up to 70 |
| Integration.EmptyUnknownIsStaged | tests/test_integration_pipeline.py:35-37 | an empty file of unknown type with no history gets no label and confidence 0, and is staged |
| Integration.EmptyDirectoryIsRemoved | tests/test_integration_pipeline.py:13 | an empty, unlocked directory strictly below the root (the test's `empty_dir`) is gone after the cleanup stage, which then counts at least one removal |
| Integration.FailedExtractionIsStaged | file_organizer/engines/metadata_processor.py:232-237 | a file whose extraction failed carries the error and is staged |
| ChatMarkdown.SlugifyShape | scripts/json_to_markdown.py:8-11 | a slug has only lower-case letters, digits and single inner dashes, and keeps every letter and digit of the lower-cased input in order |
| ChatMarkdown.SlugifyIdempotent | scripts/json_to_markdown.py:8-11 | slugifying a slug changes nothing |
| ChatMarkdown.ExtractMessagesSorted | scripts/json_to_markdown.py:27 | the messages are sorted by time, a missing time counting as 0, are a permutation of those collected, and equal times keep the mapping's order |
| ChatMarkdown.ExtractMessagesKept | scripts/json_to_markdown.py:17-26 | the messages are exactly those of the nodes that have a non-system message |
| ChatMarkdown.MarkdownLines | scripts/json_to_markdown.py:31-44 | a title line, a date line when there is a date, then one line per message in order |
| ChatMarkdown.MarkdownFacts | scripts/json_to_markdown.py:39-45 | the document starts with the title heading, and a message line says "User" exactly when the author is the user |
| ChatMarkdown.FileNameShape | scripts/json_to_markdown.py:48-57 | the file name is a non-empty slug with ".md", after "<date>-" exactly when there is a date; the slug is the title's when the title has a letter or digit, and "conversation" otherwise |
| ChatMarkdown.SlugifyEmpty | scripts/json_to_markdown.py:8-11 | `slugify` returns "" exactly when the lower-cased value has no letter or digit |
| Contextualizer.Compress | context-engineering-agent/src/contextualizer/contextualizer.py:171-199 | compression is applied exactly when the total exceeds the limit; then the result is the longest leading run that fits, its token count is at most a non-negative limit, and the ratio is below 1 |
| Contextualizer.KeepLeading | context-engineering-agent/src/contextualizer/contextualizer.py:182-192 | the loop keeps a leading run whose count is within the limit, and every longer leading run would overflow |
| Contextualizer.CompressTwice | context-engineering-agent/src/contextualizer/contextualizer.py:171-199 | compressing a compressed result under the same limit changes nothing |
| Triage.ExtractPriority | deploy/phase2/deploy_triage_agent.py:277-288 | the priority is always one of critical, high, medium and low |
| Triage.PriorityIsMostSevereMention | deploy/phase2/deploy_triage_agent.py:279-288 | the priority is the most severe keyword the answer mentions, and "low" exactly when it mentions none |
| Triage.CriticalWins | deploy/phase2/deploy_triage_agent.py:281-282 | "critical" anywhere wins whatever else the answer says |
| Triage.PriorityIgnoresCase | deploy/phase2/deploy_triage_agent.py:279 | the classification ignores letter case |
| Triage.IpShapeIsThreeDots | deploy/phase2/deploy_triage_agent.py:145-159 | an indicator is treated as an IP, with score 65, exactly when it has three dots; otherwise its score is 0 |
| Triage.LookupThreatIntel | deploy/phase2/deploy_triage_agent.py:145-159 | the record names the indicator, and its reputation is "suspicious" exactly when the indicator has the IP shape and "unknown" otherwise |
| Triage.DetailsShowValueOrDefault | deploy/phase2/deploy_triage_agent.py:247-275 | each alert detail line shows the value under its key, and "N/A" when the key is missing |

## Left out

- The TF-IDF branch of `generate_labels` (scikit-learn), python-magic, `mimetypes` and Apache Tika are foreign code. The MIME detector and the extraction backend are parameters. Only the word-frequency fallback is modelled.
- JSON parsing and formatting of the learning state is not modelled. A snapshot stands for the parsed file. A malformed file, whose exception the code does not catch, is not modelled either. The loaded tables are assumed to have distinct keys, as parsed JSON objects do.
- Real file-system behaviour is not modelled. The tree is a sequence of entries with distinct paths. Symbolic links are reduced to the path-resolution parameter. What `shutil.move` does on a name collision is out of scope: a move either succeeds as a plain rename or is refused, as the move parameter says.
- `rglob` raising `PermissionError` during the walk is not modelled. Refused directory removals are modelled as the set of locked directories.
- Logging, `argparse` and the console are left out. The timestamp and date formatting are parameters, since they come from the clock.
- A JSON `null` title, or a mapping that is not an object, in the conversation export is not modelled. A missing title is.
- Letter case is ASCII only. Python's Unicode `lower()`, `title()` and whitespace are not modelled.
- A run that fails part-way is not modelled beyond its error and the tree after the cleanup stage. Moves already made by `organize_files`, the staging directory and the log file are real on disk when the exception escapes, but `RunPipeline` does not describe the tree reached at the failure.
- Integration.TextNoteGoesToText: the hypothesis that the sample yields at least two frequent words is not discharged for the test's own note, "Project notes about quarterly planning and finance."; the lemma covers every note that meets it.
- Contextualizer.Compress: the ratio is an exact quotient, where Python computes a float.
- The contextualizer's other operations, the knowledge-graph and LLM layers, and the triage agent's LLM calls, SIEM, user and asset lookups and audit writes are not modelled. They are I/O or foreign code.
- Triage.AlertDetails: only the nine alert-detail lines of the prompt are modelled, not the fixed text around them. Each alert value is given as the text `str.format` would render for it.
- The scraping stack (spiders, pipelines, database schema) and the fleet manager are outside the modelled core. They are network, subprocess and database code.

=== FILE: chat_markdown.dfy ===
/** The ChatGPT-export converter: slugs for file names, the message list of
    one conversation (system messages and empty nodes dropped, sorted by
    time), the Markdown document and the output file name. Turning a
    timestamp into a date is the clock's business and comes in as a
    function. */
module ChatMarkdown {
  import opened Wrappers
  import opened Text
  import opened Sorting

  // ---------------------------------------------------------------------
  // slugify

  /** The characters `[a-z0-9]` */
  predicate IsSlugChar(c: char) {
    'a' <= c <= 'z' || '0' <= c <= '9'
  }

  predicate IsDash(c: char) {
    c == '-'
  }

  /** The slug characters of `s`, in order. */
  function SlugChars(s: string): (r: string)
    ensures forall i :: 0 <= i < |r| ==> IsSlugChar(r[i])
  {
    if |s| == 0 then ""
    else (if IsSlugChar(s[0]) then [s[0]] else "") + SlugChars(s[1..])
  }

  /** The leading run that `[^a-z0-9]+` would match, dropped. */
  function SkipRun(s: string): (r: string)
    ensures |r| <= |s| && r == s[|s| - |r|..]
    ensures |s| > 0 && !IsSlugChar(s[0]) ==> |r| < |s|
    ensures |r| > 0 ==> IsSlugChar(r[0])
  {
    if |s| > 0 && !IsSlugChar(s[0]) then SkipRun(s[1..]) else s
  }

  /** `re.sub(r"[^a-z0-9]+", "-", s)`: every maximal run of other characters
      becomes one dash. */
  function Substitute(s: string): (r: string)
    ensures |s| > 0 && IsSlugChar(s[0]) ==> |r| > 0 && r[0] == s[0]
    decreases |s|
  {
    if |s| == 0 then ""
    else if IsSlugChar(s[0]) then [s[0]] + Substitute(s[1..])
    else "-" + Substitute(SkipRun(s))
  }

  /** `slugify(value)` */
  function Slugify(value: string): string {
    StripWith(Substitute(Lower(value)), IsDash)
  }

  /** Slug characters and single dashes, no dash at either end. */
  predicate IsSlug(t: string) {
    && (forall i :: 0 <= i < |t| ==> IsSlugChar(t[i]) || IsDash(t[i]))
    && (|t| > 0 ==> !IsDash(t[0]) && !IsDash(t[|t| - 1]))
    && NoDoubleDash(t)
  }

  predicate NoDoubleDash(t: string) {
    forall i :: 0 <= i < |t| - 1 ==> !(IsDash(t[i]) && IsDash(t[i + 1]))
  }

  lemma {:induction false} SlugCharsAppend(a: string, b: string)
    ensures SlugChars(a + b) == SlugChars(a) + SlugChars(b)
    decreases |a|
  {
    if |a| > 0 {
      assert (a + b)[1..] == a[1..] + b;
      SlugCharsAppend(a[1..], b);
    } else {
      assert a + b == b;
    }
  }

  /** Skipping a run keeps every slug character. */
  lemma {:induction false} SkipRunKeeps(s: string)
    ensures SlugChars(SkipRun(s)) == SlugChars(s)
    decreases |s|
  {
    if |s| > 0 && !IsSlugChar(s[0]) {
      SkipRunKeeps(s[1..]);
    }
  }

  /** The substitution yields slug characters and dashes only. */
  lemma {:induction false} SubstituteChars(s: string)
    ensures forall i :: 0 <= i < |Substitute(s)| ==> IsSlugChar(Substitute(s)[i]) || IsDash(Substitute(s)[i])
    decreases |s|
  {
    if |s| > 0 {
      if IsSlugChar(s[0]) {
        SubstituteChars(s[1..]);
      } else {
        SubstituteChars(SkipRun(s));
      }
    }
  }

  /** The substitution never yields two dashes in a row. */
  lemma {:induction false} SubstituteSingleDashes(s: string)
    ensures NoDoubleDash(Substitute(s))
    decreases |s|
  {
    if |s| > 0 {
      var r := Substitute(s);
      if IsSlugChar(s[0]) {
        var rest := Substitute(s[1..]);
        SubstituteSingleDashes(s[1..]);
        assert r == [s[0]] + rest;
        forall i | 1 <= i < |r| - 1 ensures !(IsDash(r[i]) && IsDash(r[i + 1])) {
          assert r[i] == rest[i - 1] && r[i + 1] == rest[i];
        }
      } else {
        var rest := Substitute(SkipRun(s));
        SubstituteSingleDashes(SkipRun(s));
        assert r == "-" + rest;
        forall i | 1 <= i < |r| - 1 ensures !(IsDash(r[i]) && IsDash(r[i + 1])) {
          assert r[i] == rest[i - 1] && r[i + 1] == rest[i];
        }
      }
    }
  }

  /** The substitution keeps every slug character, in order. */
  lemma {:induction false} SubstituteKeeps(s: string)
    ensures SlugChars(Substitute(s)) == SlugChars(s)
    decreases |s|
  {
    if |s| > 0 {
      if IsSlugChar(s[0]) {
        SubstituteKeeps(s[1..]);
        SlugCharsAppend([s[0]], Substitute(s[1..]));
      } else {
        var t := SkipRun(s);
        SubstituteKeeps(t);
        SkipRunKeeps(s);
        SlugCharsAppend("-", Substitute(t));
      }
    }
  }

  /** Leading dashes carry no slug character. */
  lemma {:induction false} StripLeftKeeps(s: string)
    ensures SlugChars(StripLeft(s, IsDash)) == SlugChars(s)
    decreases |s|
  {
    if |s| > 0 && IsDash(s[0]) {
      StripLeftKeeps(s[1..]);
    }
  }

  /** Trailing dashes carry no slug character. */
  lemma {:induction false} StripRightKeeps(s: string)
    ensures SlugChars(StripRight(s, IsDash)) == SlugChars(s)
    decreases |s|
  {
    if |s| > 0 && IsDash(s[|s| - 1]) {
      var init := s[..|s| - 1];
      StripRightKeeps(init);
      assert s == init + [s[|s| - 1]];
      SlugCharsAppend(init, [s[|s| - 1]]);
    }
  }

  /** Where the stripped string starts. */
  function DashLead(s: string): nat {
    |s| - |StripLeft(s, IsDash)|
  }

  /** Stripping dashes leaves a slice of the string. */
  lemma StripDashesSlice(s: string)
    ensures DashLead(s) + |StripWith(s, IsDash)| <= |s|
    ensures StripWith(s, IsDash) == s[DashLead(s)..DashLead(s) + |StripWith(s, IsDash)|]
  {
  }

  /** Stripping dashes keeps every slug character. */
  lemma StripDashesKeeps(s: string)
    ensures SlugChars(StripWith(s, IsDash)) == SlugChars(s)
  {
    StripLeftKeeps(s);
    StripRightKeeps(StripLeft(s, IsDash));
  }

  /** A slug contains only `[a-z0-9]` and single dashes, neither starts nor
      ends with a dash, and keeps every letter and digit of the lower-cased
      value, in order. */
  lemma SlugifyShape(value: string)
    ensures IsSlug(Slugify(value))
    ensures SlugChars(Slugify(value)) == SlugChars(Lower(value))
  {
    SlugifyIsSlug(value);
    var low := Lower(value);
    SubstituteKeeps(low);
    StripDashesKeeps(Substitute(low));
  }

  lemma SlugifyIsSlug(value: string)
    ensures IsSlug(Slugify(value))
  {
    SubstituteChars(Lower(value));
    SubstituteSingleDashes(Lower(value));
    StripShape(Substitute(Lower(value)));
  }

  /** Stripping the dashes off a string of slug characters and single
      dashes leaves a slug. */
  lemma StripShape(s: string)
    requires forall i :: 0 <= i < |s| ==> IsSlugChar(s[i]) || IsDash(s[i])
    requires NoDoubleDash(s)
    ensures IsSlug(StripWith(s, IsDash))
  {
    StripDashesSlice(s);
    var r := StripWith(s, IsDash);
    SliceShape(s, DashLead(s), DashLead(s) + |r|);
  }

  /** A slice of a string of slug characters and single dashes is one too. */
  lemma SliceShape(s: string, a: nat, b: nat)
    requires a <= b <= |s|
    requires forall i :: 0 <= i < |s| ==> IsSlugChar(s[i]) || IsDash(s[i])
    requires NoDoubleDash(s)
    ensures forall i :: 0 <= i < b - a ==> IsSlugChar(s[a..b][i]) || IsDash(s[a..b][i])
    ensures NoDoubleDash(s[a..b])
  {
    var r := s[a..b];
    forall i | 0 <= i < |r| - 1 ensures !(IsDash(r[i]) && IsDash(r[i + 1])) {
      assert r[i] == s[a + i] && r[i + 1] == s[a + i + 1];
    }
  }

  /** A dash-separated run of slug characters, possibly led by one dash. */
  predicate DashedRun(t: string) {
    && (forall i :: 0 <= i < |t| ==> IsSlugChar(t[i]) || IsDash(t[i]))
    && (|t| > 0 ==> !IsDash(t[|t| - 1]))
    && NoDoubleDash(t)
  }

  lemma DashedRunTail(t: string)
    requires DashedRun(t) && |t| > 0
    ensures DashedRun(t[1..])
    ensures !IsSlugChar(t[0]) ==> |t| > 1 && IsSlugChar(t[1])
  {
    assert forall i :: 0 <= i < |t[1..]| ==> t[1..][i] == t[i + 1];
  }

  /** A slug is a fixed point of the substitution. */
  lemma {:induction false} SubstituteSlug(t: string)
    requires DashedRun(t)
    ensures Substitute(t) == t
    decreases |t|
  {
    if |t| > 0 {
      DashedRunTail(t);
      if !IsSlugChar(t[0]) {
        assert SkipRun(t) == t[1..];
      }
      SubstituteSlug(t[1..]);
    }
  }

  /** `slugify` leaves a slug unchanged. */
  lemma SlugifySlug(t: string)
    requires IsSlug(t)
    ensures Slugify(t) == t
  {
    assert Lower(t) == t;
    SubstituteSlug(t);
    assert StripLeft(t, IsDash) == t;
    assert StripRight(t, IsDash) == t;
  }

  /** `slugify` is idempotent. */
  lemma SlugifyIdempotent(value: string)
    ensures Slugify(Slugify(value)) == Slugify(value)
  {
    SlugifyShape(value);
    SlugifySlug(Slugify(value));
  }

  // ---------------------------------------------------------------------
  // The conversation document

  /** A message of the export: `author.role`, `content.parts` and
      `create_time`, each absent when missing. */
  datatype Message = Message(role: Option<string>, parts: seq<string>, time: Option<real>)

  /** A node of the conversation's `mapping`; `None` when the node has no
      message (missing, null or empty). */
  datatype Node = Node(message: Option<Message>)

  /** A conversation: its title and creation time, when present, and its
      mapping's nodes in the JSON object's order. */
  datatype Conversation = Conversation(title: Option<string>, createTime: Option<real>, mapping: seq<Node>)

  /** An extracted message. */
  datatype Entry = Entry(author: Option<string>, content: string, time: Option<real>)

  /** A node `extract_messages` keeps: it has a message, not from the system. */
  predicate Keeps(n: Node) {
    n.message.Some? && n.message.value.role != Some("system")
  }

  function ToEntry(m: Message): Entry {
    Entry(m.role, Text.Join("\n", m.parts), m.time)
  }

  /** The loop of `extract_messages`, before the sort. */
  function Collect(nodes: seq<Node>): (r: seq<Entry>)
    ensures |r| <= |nodes|
  {
    if |nodes| == 0 then []
    else (if Keeps(nodes[0]) then [ToEntry(nodes[0].message.value)] else []) + Collect(nodes[1..])
  }

  /** `m.get("time") or 0` */
  function TimeKey(e: Entry): real {
    e.time.GetOr(0.0)
  }

  /** `extract_messages(conversation)` */
  function ExtractMessages(c: Conversation): seq<Entry> {
    StableSort(Collect(c.mapping), TimeKey)
  }

  /** The entries collected are exactly those of the kept nodes. */
  lemma {:induction false} CollectMembers(nodes: seq<Node>)
    ensures forall e :: e in Collect(nodes) <==>
      exists n :: n in nodes && Keeps(n) && e == ToEntry(n.message.value)
    decreases |nodes|
  {
    if |nodes| > 0 {
      CollectMembers(nodes[1..]);
      assert nodes == [nodes[0]] + nodes[1..];
    }
  }

  /** The messages come out sorted by time, a missing time counting as 0,
      and are the collected messages, each once; messages with equal times
      keep the mapping's order. */
  lemma ExtractMessagesSorted(c: Conversation)
    ensures SortedBy(ExtractMessages(c), TimeKey)
    ensures multiset(ExtractMessages(c)) == multiset(Collect(c.mapping))
    ensures forall t :: KeyFilter(ExtractMessages(c), TimeKey, t) == KeyFilter(Collect(c.mapping), TimeKey, t)
  {
    var collected := Collect(c.mapping);
    SortSorts(collected, TimeKey);
    forall t ensures KeyFilter(ExtractMessages(c), TimeKey, t) == KeyFilter(collected, TimeKey, t) {
      SortIsStable(collected, TimeKey, t);
    }
  }

  /** The messages are exactly those of the nodes that have one and are not
      from the system. */
  lemma ExtractMessagesKept(c: Conversation)
    ensures forall e :: e in ExtractMessages(c) <==>
      exists n :: n in c.mapping && Keeps(n) && e == ToEntry(n.message.value)
    ensures forall e :: e in ExtractMessages(c) ==> e.author != Some("system")
  {
    var collected := Collect(c.mapping);
    SortSorts(collected, TimeKey);
    CollectMembers(c.mapping);
    forall e ensures e in ExtractMessages(c) <==> e in collected {
      assert e in ExtractMessages(c) <==> e in multiset(ExtractMessages(c));
      assert e in collected <==> e in multiset(collected);
    }
  }

  /** `if create_time`: a missing or zero time gives no date. */
  function DateOf(createTime: Option<real>, formatDate: real -> string): string {
    if createTime.Some? && createTime.value != 0.0 then formatDate(createTime.value) else ""
  }

  /** `"User" if msg["author"] == "user" else "ChatGPT"` */
  function RoleName(e: Entry): string {
    if e.author == Some("user") then "User" else "ChatGPT"
  }

  function MessageLine(e: Entry): string {
    "**" + RoleName(e) + ":** " + e.content + "\n"
  }

  /** The lines `conversation_to_markdown` joins. */
  function MarkdownLines(c: Conversation, formatDate: real -> string): (lines: seq<string>)
    ensures var date := DateOf(c.createTime, formatDate);
      var header := if date != "" then 2 else 1;
      && |lines| == header + |ExtractMessages(c)|
      && lines[0] == "# " + c.title.GetOr("Conversation")
      && (date != "" ==> lines[1] == "_Date: " + date + "_\n")
      && forall i :: 0 <= i < |ExtractMessages(c)| ==> lines[header + i] == MessageLine(ExtractMessages(c)[i])
  {
    var date := DateOf(c.createTime, formatDate);
    var msgs := ExtractMessages(c);
    ["# " + c.title.GetOr("Conversation")]
    + (if date != "" then ["_Date: " + date + "_\n"] else [])
    + seq(|msgs|, i requires 0 <= i < |msgs| => MessageLine(msgs[i]))
  }

  /** `conversation_to_markdown(conversation)` */
  function ConversationToMarkdown(c: Conversation, formatDate: real -> string): string {
    Text.Join("\n", MarkdownLines(c, formatDate))
  }

  /** A joined list starts with its first element. */
  lemma JoinStartsWithFirst(sep: string, ws: seq<string>)
    requires |ws| > 0
    ensures StartsWith(Text.Join(sep, ws), ws[0])
  {
    if |ws| > 1 {
      assert Text.Join(sep, ws) == ws[0] + (sep + Text.Join(sep, ws[1..]));
    }
  }

  /** The document opens with the title heading, and a message line says
      "User" exactly when the author is the user. */
  lemma MarkdownFacts(c: Conversation, formatDate: real -> string)
    ensures StartsWith(ConversationToMarkdown(c, formatDate), "# " + c.title.GetOr("Conversation"))
    ensures forall e :: StartsWith(MessageLine(e), "**User:**") <==> e.author == Some("user")
  {
    JoinStartsWithFirst("\n", MarkdownLines(c, formatDate));
    forall e ensures StartsWith(MessageLine(e), "**User:**") <==> e.author == Some("user") {
      if e.author != Some("user") {
        assert MessageLine(e)[2] == 'C';
      } else {
        assert MessageLine(e)[..9] == "**User:**";
      }
    }
  }

  /** The file name `write_conversation_md` chooses: the slug of the title
      (or "conversation" when it is empty), prefixed with the date when the
      conversation has one. */
  function FileName(c: Conversation, formatDate: real -> string): string {
    var date := DateOf(c.createTime, formatDate);
    var slug := Slugify(c.title.GetOr("conversation"));
    var name := if slug == "" then "conversation" else slug;
    if date != "" then date + "-" + name + ".md" else name + ".md"
  }

  /** The file name is a non-empty slug with ".md" appended, after
      "<date>-" exactly when the conversation has a date. The slug is the
      title's (the missing title counting as "conversation") when the title
      has a letter or digit, and "conversation" when it has none. */
  lemma FileNameShape(c: Conversation, formatDate: real -> string)
    ensures var date := DateOf(c.createTime, formatDate);
      exists slug ::
        && slug != "" && IsSlug(slug)
        && FileName(c, formatDate) == (if date != "" then date + "-" else "") + slug + ".md"
    ensures var date := DateOf(c.createTime, formatDate);
      var title := c.title.GetOr("conversation");
      SlugChars(Lower(title)) != "" ==>
        FileName(c, formatDate) == (if date != "" then date + "-" else "") + Slugify(title) + ".md"
    ensures var date := DateOf(c.createTime, formatDate);
      SlugChars(Lower(c.title.GetOr("conversation"))) == "" ==>
        FileName(c, formatDate) == (if date != "" then date + "-" else "") + "conversation.md"
  {
    var slug := Slugify(c.title.GetOr("conversation"));
    SlugifyIsSlug(c.title.GetOr("conversation"));
    SlugifyEmpty(c.title.GetOr("conversation"));
    ConversationIsSlug();
    var name := if slug == "" then "conversation" else slug;
    DatedName(DateOf(c.createTime, formatDate), name);
  }

  /** `slugify` returns "" exactly when the lower-cased value has no letter
      or digit. */
  lemma SlugifyEmpty(value: string)
    ensures Slugify(value) == "" <==> SlugChars(Lower(value)) == ""
  {
    SlugifyShape(value);
    var t := Slugify(value);
    if t != "" {
      assert SlugChars(t) == [t[0]] + SlugChars(t[1..]);
    }
  }

  lemma ConversationIsSlug()
    ensures IsSlug("conversation")
  {
    assert forall i :: 0 <= i < |"conversation"| ==> IsSlugChar("conversation"[i]);
  }

  /** The two spellings of an optionally dated name agree. */
  lemma DatedName(date: string, name: string)
    ensures (if date != "" then date + "-" + name + ".md" else name + ".md")
         == (if date != "" then date + "-" else "") + name + ".md"
  {
    if date == "" {
      assert "" + name == name;
    }
  }
}

=== FILE: cleanup_engine.dfy ===
/** The cleanup engine: removes the empty directories below a root, deepest
    first, so that a directory emptied by the removal of its last empty
    subdirectory goes in the same sweep. A directory whose listing or removal
    raises `PermissionError` is skipped. */
module CleanupEngine {
  import opened Paths
  import opened FileSystems
  import opened Sorting

  /** `[p for p in root.rglob("*") if p.is_dir()]`, in walk order. */
  function DirsBelow(entries: seq<Entry>, root: Path): (r: seq<Path>)
    ensures forall p :: p in r ==> StrictlyBelow(root, p)
    ensures forall p :: p in r ==> exists e :: e in entries && e.kind == Directory && e.path == p
    ensures forall e :: e in entries && e.kind == Directory && StrictlyBelow(root, e.path) ==> e.path in r
  {
    if |entries| == 0 then []
    else
      var e := entries[0];
      (if e.kind == Directory && StrictlyBelow(root, e.path) then [e.path] else [])
      + DirsBelow(entries[1..], root)
  }

  /** The sort key of `key=lambda p: len(p.parts), reverse=True`. */
  function Shallowness(p: Path): real {
    -(|p| as real)
  }

  /** The sweep order: the directories below the root, deepest first, ties in
      walk order. */
  function Candidates(fs: FileSystem, root: Path): seq<Path> {
    StableSort(DirsBelow(fs.entries, root), Shallowness)
  }

  /** What the candidate list guarantees the sweep. */
  ghost predicate SweepOrder(fs: FileSystem, root: Path, ds: seq<Path>) {
    && (forall p :: p in ds <==> p in Dirs(fs) && StrictlyBelow(root, p))
    && (forall i, j :: 0 <= i < j < |ds| ==> ds[i] != ds[j])
    && (forall i, j :: 0 <= i < j < |ds| ==> |ds[j]| <= |ds[i]|)
  }

  /** The candidates are exactly the directories strictly below the root,
      each once, none after a shallower one. */
  lemma CandidatesFacts(fs: FileSystem, root: Path)
    requires UniquePaths(fs)
    ensures SweepOrder(fs, root, Candidates(fs, root))
  {
    var below := DirsBelow(fs.entries, root);
    SortSorts(below, Shallowness);
    DirsBelowDistinct(fs.entries, root);
    SortKeepsInjective(below, Shallowness, (p: Path) => p);
    var ds := Candidates(fs, root);
    forall p ensures p in ds <==> p in below {
      assert p in ds <==> p in multiset(ds);
    }
  }

  lemma {:induction false} DirsBelowDistinct(entries: seq<Entry>, root: Path)
    requires UniquePaths(FileSystem(entries))
    ensures Injective(DirsBelow(entries, root), (p: Path) => p)
  {
    if |entries| > 0 {
      TailUnique(entries);
      DirsBelowDistinct(entries[1..], root);
      var rest := DirsBelow(entries[1..], root);
      var e := entries[0];
      if e.kind == Directory && StrictlyBelow(root, e.path) {
        forall f | f in entries[1..] ensures f.path != e.path {
          var k :| 0 <= k < |entries[1..]| && entries[1..][k] == f;
          assert entries[k + 1] == f;
        }
        var r := [e.path] + rest;
        forall i, j | 0 <= i < j < |r| ensures r[i] != r[j] {
          assert r[j] == rest[j - 1];
          if i == 0 {
            assert rest[j - 1] in rest;
          } else {
            assert r[i] == rest[i - 1];
          }
        }
      }
    }
  }

  /** The sweep after visiting `ds[..i]`, having removed the directories
      `gone` from `fs` to reach `cur`: every visited directory is removed,
      refused or non-empty, and a removed one held no file. */
  ghost predicate Swept(fs: FileSystem, root: Path, locked: set<Path>, ds: seq<Path>, i: nat,
                        cur: FileSystem, gone: set<Path>) {
    && i <= |ds|
    && UniquePaths(cur)
    && (forall e :: e in cur.entries ==> e in fs.entries)
    && Files(cur) == Files(fs)
    && gone <= Dirs(fs) && Dirs(cur) == Dirs(fs) - gone
    && (forall d :: d in gone ==> d in ds[..i] && d !in locked)
    && (forall j :: 0 <= j < i ==> ds[j] in gone || ds[j] in locked || HasEntries(cur, ds[j]))
    && (Rooted(fs, root) ==> Rooted(cur, root))
    && (Rooted(fs, root) ==> forall d, f :: d in gone && f in Files(fs) ==> !StrictlyBelow(d, f))
  }

  /** The outcome of the sweep: files untouched and no entry added; the
      removed directories, `removed` of them, all unrefused and below the
      root; every remaining unrefused directory below the root non-empty;
      and, in a rooted tree, the tree stays rooted and no directory that
      held a file at any depth was removed. */
  ghost predicate Cleaned(fs: FileSystem, root: Path, locked: set<Path>, fs': FileSystem, removed: nat) {
    && Files(fs') == Files(fs)
    && Dirs(fs') <= Dirs(fs)
    && (forall e :: e in fs'.entries ==> e in fs.entries)
    && removed == |Dirs(fs) - Dirs(fs')|
    && (forall d :: d in Dirs(fs) - Dirs(fs') ==> StrictlyBelow(root, d) && d !in locked)
    && (forall d :: d in Dirs(fs') && StrictlyBelow(root, d) && d !in locked ==> HasEntries(fs', d))
    && (Rooted(fs, root) ==> Rooted(fs', root))
    && (Rooted(fs, root) ==>
         forall d, f :: d in Dirs(fs) - Dirs(fs') && f in Files(fs) ==> !StrictlyBelow(d, f))
  }

  /** `remove_empty_directories(root)`: visits the candidates deepest first
      and removes each that is empty, unless the attempt is refused (the
      `locked` directories, whose `PermissionError` is logged and skipped).
      Returns the tree after the sweep and the number of directories removed. */
  method RemoveEmptyDirectories(fs: FileSystem, root: Path, locked: set<Path>)
    returns (fs': FileSystem, removed: nat)
    requires UniquePaths(fs)
    ensures Cleaned(fs, root, locked, fs', removed)
  {
    var ds := Candidates(fs, root);
    CandidatesFacts(fs, root);
    fs' := fs;
    removed := 0;
    ghost var gone: set<Path> := {};
    var i := 0;
    SweepStarts(fs, root, locked, ds);
    while i < |ds|
      invariant Swept(fs, root, locked, ds, i, fs', gone)
      invariant removed == |gone|
    {
      var d := ds[i];
      if d !in locked && !HasEntries(fs', d) {
        RemoveStep(fs, root, locked, ds, i, fs', gone);
        fs' := RemoveDir(fs', d);
        gone := gone + {d};
        removed := removed + 1;
      } else {
        SkipStep(fs, root, locked, ds, i, fs', gone);
      }
      i := i + 1;
    }
    SweptAll(fs, root, locked, ds, fs', gone);
  }

  lemma SweepStarts(fs: FileSystem, root: Path, locked: set<Path>, ds: seq<Path>)
    requires UniquePaths(fs)
    ensures Swept(fs, root, locked, ds, 0, fs, {})
  {
  }

  /** Removing the visited empty directory keeps the sweep's invariant. */
  lemma RemoveStep(fs: FileSystem, root: Path, locked: set<Path>, ds: seq<Path>, i: nat,
                   cur: FileSystem, gone: set<Path>)
    requires SweepOrder(fs, root, ds) && Swept(fs, root, locked, ds, i, cur, gone)
    requires i < |ds| && ds[i] !in locked && !HasEntries(cur, ds[i])
    ensures ds[i] !in gone
    ensures Swept(fs, root, locked, ds, i + 1, RemoveDir(cur, ds[i]), gone + {ds[i]})
  {
    var d := ds[i];
    assert d !in gone by {
      forall j | 0 <= j < i ensures ds[j] != d { }
    }
    OneKind(cur, d);
    WithoutUnique(cur.entries, {d});
    VisitedStayNonEmpty(cur, ds, i, gone, locked);
    assert ds[..i + 1] == ds[..i] + [d];
    if Rooted(fs, root) {
      RemovalKeepsRooted(cur, root, d);
      forall f | f in Files(cur) ensures StrictlyBelow(d, f) ==> HasEntries(cur, d) {
        FileMakesNonEmpty(cur, root, d, f);
      }
    }
  }

  /** Passing over a refused or non-empty directory keeps the invariant. */
  lemma SkipStep(fs: FileSystem, root: Path, locked: set<Path>, ds: seq<Path>, i: nat,
                 cur: FileSystem, gone: set<Path>)
    requires Swept(fs, root, locked, ds, i, cur, gone)
    requires i < |ds| && (ds[i] in locked || HasEntries(cur, ds[i]))
    ensures Swept(fs, root, locked, ds, i + 1, cur, gone)
  {
    assert ds[..i + 1] == ds[..i] + [ds[i]];
  }

  /** At the end of the sweep every candidate has been visited. */
  lemma SweptAll(fs: FileSystem, root: Path, locked: set<Path>, ds: seq<Path>,
                 cur: FileSystem, gone: set<Path>)
    requires SweepOrder(fs, root, ds) && Swept(fs, root, locked, ds, |ds|, cur, gone)
    ensures Cleaned(fs, root, locked, cur, |gone|)
  {
    forall d | d in Dirs(cur) && StrictlyBelow(root, d) && d !in locked
      ensures HasEntries(cur, d)
    {
      var j :| 0 <= j < |ds| && ds[j] == d;
    }
    assert Dirs(fs) - Dirs(cur) == gone;
  }

  /** Removing the empty `ds[i]` leaves every earlier, non-empty candidate
      non-empty: its children are deeper than `ds[i]`. */
  lemma VisitedStayNonEmpty(fs: FileSystem, ds: seq<Path>, i: nat, gone: set<Path>, locked: set<Path>)
    requires i < |ds|
    requires forall a, b :: 0 <= a < b < |ds| ==> |ds[b]| <= |ds[a]|
    requires forall j :: 0 <= j < i ==> ds[j] in gone || ds[j] in locked || HasEntries(fs, ds[j])
    ensures var fs' := RemoveDir(fs, ds[i]);
      forall j :: 0 <= j < i ==> ds[j] in gone || ds[j] in locked || HasEntries(fs', ds[j])
  {
    var fs' := RemoveDir(fs, ds[i]);
    forall j | 0 <= j < i && HasEntries(fs, ds[j]) ensures HasEntries(fs', ds[j]) {
      var c :| c in fs.entries && IsChild(ds[j], c.path);
      assert c in fs'.entries;
    }
  }

  /** An entry makes its parent directory non-empty. */
  lemma ChildMakesNonEmpty(fs: FileSystem, p: Path)
    requires |p| > 0 && (p in Dirs(fs) || p in Files(fs))
    ensures HasEntries(fs, Parent(p))
  {
    var e :| e in fs.entries && e.path == p;
    assert IsChild(Parent(p), e.path);
  }

  /** An empty directory's removal leaves every other entry's parent in place. */
  lemma RemovalKeepsRooted(fs: FileSystem, root: Path, d: Path)
    requires Rooted(fs, root) && !HasEntries(fs, d)
    ensures Rooted(RemoveDir(fs, d), root)
  {
    var fs' := RemoveDir(fs, d);
    forall e | e in fs'.entries && StrictlyBelow(root, e.path) ensures Parent(e.path) in Dirs(fs') {
      assert e in fs.entries;
      ChildMakesNonEmpty(fs, e.path);
    }
  }

  /** In a rooted tree a directory below the root with a file at any depth
      below it is not empty. */
  lemma FileMakesNonEmpty(fs: FileSystem, root: Path, d: Path, f: Path)
    requires Rooted(fs, root) && StrictlyBelow(root, d) && f in Files(fs)
    ensures StrictlyBelow(d, f) ==> HasEntries(fs, d)
  {
    if StrictlyBelow(d, f) {
      var c := f[..|d| + 1];
      assert f[..|root|] == root;
      if |f| == |d| + 1 {
        assert c == f;
      } else {
        AncestorsPresent(fs, root, f, |d| + 1);
      }
      assert Parent(c) == d;
      ChildMakesNonEmpty(fs, c);
    }
  }

  /** The tree `./{empty/, nested/empty/, non_empty/file}` as the walk from
      the current directory lists it (`Path(".").parts` is empty). */
  function ExampleTree(empty: string, nested: string, nonEmpty: string, file: string): FileSystem {
    FileSystem([Entry([], Directory), Entry([empty], Directory), Entry([nested], Directory),
                Entry([nested, empty], Directory), Entry([nonEmpty], Directory),
                Entry([nonEmpty, file], RegularFile)])
  }

  lemma ExampleTreeKinds(empty: string, nested: string, nonEmpty: string, file: string)
    ensures var fs := ExampleTree(empty, nested, nonEmpty, file);
      && Dirs(fs) == {[], [empty], [nested], [nested, empty], [nonEmpty]}
      && Files(fs) == {[nonEmpty, file]}
  {
    var fs := ExampleTree(empty, nested, nonEmpty, file);
    assert fs.entries[0].path == [] && fs.entries[1].path == [empty] && fs.entries[2].path == [nested];
    assert fs.entries[3].path == [nested, empty] && fs.entries[4].path == [nonEmpty];
    assert fs.entries[5].path == [nonEmpty, file];
  }

  lemma ExampleTreeUnique(empty: string, nested: string, nonEmpty: string, file: string)
    requires empty != nested && empty != nonEmpty && nested != nonEmpty
    ensures UniquePaths(ExampleTree(empty, nested, nonEmpty, file))
  {
  }

  lemma ExampleTreeRooted(empty: string, nested: string, nonEmpty: string, file: string)
    ensures Rooted(ExampleTree(empty, nested, nonEmpty, file), [])
  {
    ExampleTreeKinds(empty, nested, nonEmpty, file);
    assert Parent([nested, empty]) == [nested];
    assert Parent([nonEmpty, file]) == [nonEmpty];
  }

  /** A directory of the tree before the sweep either survives it or was
      removable: unrefused, below the root and, in a rooted tree, holding no
      file. */
  lemma CleanedKeeps(fs: FileSystem, root: Path, locked: set<Path>, fs': FileSystem, removed: nat,
                      d: Path, f: Path)
    requires Cleaned(fs, root, locked, fs', removed) && d in Dirs(fs)
    ensures d in Dirs(fs') || (StrictlyBelow(root, d) && d !in locked)
    ensures d !in Dirs(fs') && Rooted(fs, root) && f in Files(fs) ==> !StrictlyBelow(d, f)
  {
  }

  /** A surviving unrefused directory below the root is not empty. */
  lemma CleanedSettles(fs: FileSystem, root: Path, locked: set<Path>, fs': FileSystem, removed: nat, d: Path)
    requires Cleaned(fs, root, locked, fs', removed)
    ensures d in Dirs(fs') && StrictlyBelow(root, d) && d !in locked ==> HasEntries(fs', d)
  {
  }

  /** The sweep on the example tree with nothing refused: `empty`,
      `nested/empty` and then `nested` go, and `non_empty` stays. */
  method SweepExample(empty: string, nested: string, nonEmpty: string, file: string)
    returns (removed: nat, kept: set<Path>)
    requires empty != nested && empty != nonEmpty && nested != nonEmpty
    ensures removed == 3
    ensures kept == {[], [nonEmpty]}
  {
    ExampleTreeUnique(empty, nested, nonEmpty, file);
    var fs';
    fs', removed := RemoveEmptyDirectories(ExampleTree(empty, nested, nonEmpty, file), [], {});
    kept := Dirs(fs');
    ExampleOutcome(empty, nested, nonEmpty, file, fs', removed);
  }

  lemma ExampleOutcome(empty: string, nested: string, nonEmpty: string, file: string,
                       fs': FileSystem, removed: nat)
    requires empty != nested && empty != nonEmpty && nested != nonEmpty
    requires Cleaned(ExampleTree(empty, nested, nonEmpty, file), [], {}, fs', removed)
    ensures removed == 3 && Dirs(fs') == {[], [nonEmpty]}
  {
    var fs := ExampleTree(empty, nested, nonEmpty, file);
    ExampleTreeKinds(empty, nested, nonEmpty, file);
    ExampleSurvivors(empty, nested, nonEmpty, file, fs', removed);
    ExampleRemoved(empty, nested, nonEmpty, file, fs', removed);
    assert [empty][0] != [nested][0];
    SweptSets(Dirs(fs), Dirs(fs'), [], [nonEmpty], [empty], [nested], [nested, empty]);
  }

  /** Five directories of which two survive and three go. */
  lemma SweptSets<T>(before: set<T>, after: set<T>, x: T, y: T, a: T, b: T, c: T)
    requires before == {x, y, a, b, c} && after <= before
    requires x in after && y in after && a !in after && b !in after && c !in after
    requires a != b && b != c && a != c
    ensures after == {x, y} && |before - after| == 3
  {
    assert before - after == {a, b, c};
  }

  lemma ExampleSurvivors(empty: string, nested: string, nonEmpty: string, file: string,
                         fs': FileSystem, removed: nat)
    requires empty != nested && empty != nonEmpty && nested != nonEmpty
    requires Cleaned(ExampleTree(empty, nested, nonEmpty, file), [], {}, fs', removed)
    ensures [] in Dirs(fs') && [nonEmpty] in Dirs(fs')
  {
    var fs := ExampleTree(empty, nested, nonEmpty, file);
    assert fs.entries[0] in fs.entries && fs.entries[0] == Entry([], Directory);
    CleanedKeeps(fs, [], {}, fs', removed, [], []);
    ExampleHolderSurvives(empty, nested, nonEmpty, file, fs', removed);
  }

  lemma ExampleHolderSurvives(empty: string, nested: string, nonEmpty: string, file: string,
                              fs': FileSystem, removed: nat)
    requires Cleaned(ExampleTree(empty, nested, nonEmpty, file), [], {}, fs', removed)
    ensures [nonEmpty] in Dirs(fs')
  {
    var fs := ExampleTree(empty, nested, nonEmpty, file);
    ExampleTreeRooted(empty, nested, nonEmpty, file);
    var d, f := [nonEmpty], [nonEmpty, file];
    assert fs.entries[4] in fs.entries && fs.entries[4] == Entry(d, Directory);
    assert fs.entries[5] in fs.entries && fs.entries[5] == Entry(f, RegularFile);
    BelowChild(d, file);
    assert d + [file] == f;
    CleanedKeeps(fs, [], {}, fs', removed, d, f);
  }

  lemma BelowChild(d: Path, name: string)
    ensures StrictlyBelow(d, d + [name])
  {
  }

  lemma ExampleRemoved(empty: string, nested: string, nonEmpty: string, file: string,
                       fs': FileSystem, removed: nat)
    requires empty != nested && empty != nonEmpty && nested != nonEmpty
    requires Cleaned(ExampleTree(empty, nested, nonEmpty, file), [], {}, fs', removed)
    ensures [empty] !in Dirs(fs') && [nested, empty] !in Dirs(fs') && [nested] !in Dirs(fs')
  {
    var fs := ExampleTree(empty, nested, nonEmpty, file);
    ExampleChildren(empty, nested, nonEmpty, file, fs');
    CleanedSettles(fs, [], {}, fs', removed, [empty]);
    CleanedSettles(fs, [], {}, fs', removed, [nested, empty]);
    CleanedSettles(fs, [], {}, fs', removed, [nested]);
  }

  /** What is left of the example tree has nothing in `empty` or
      `nested/empty`, and in `nested` at most the directory `nested/empty`. */
  lemma ExampleChildren(empty: string, nested: string, nonEmpty: string, file: string, fs': FileSystem)
    requires empty != nested && empty != nonEmpty && nested != nonEmpty
    requires forall e :: e in fs'.entries ==> e in ExampleTree(empty, nested, nonEmpty, file).entries
    ensures !HasEntries(fs', [empty]) && !HasEntries(fs', [nested, empty])
    ensures HasEntries(fs', [nested]) ==> [nested, empty] in Dirs(fs')
  {
    forall e | e in fs'.entries
      ensures !IsChild([empty], e.path) && !IsChild([nested, empty], e.path)
      ensures IsChild([nested], e.path) ==> e == Entry([nested, empty], Directory)
    {
      var entries := ExampleTree(empty, nested, nonEmpty, file).entries;
      var k :| 0 <= k < |entries| && entries[k] == e;
      assert [nested, empty][..1] == [nested] && [nonEmpty, file][..1] == [nonEmpty];
    }
  }
}

=== FILE: contextualizer.dfy ===
/** The contextualizer's `compress`: counts whitespace-separated tokens and,
    when the contexts exceed the limit, keeps the longest run of leading
    contexts that fits. */
module Contextualizer {
  import opened Wrappers
  import opened Text

  /** A context dictionary; only its optional "content" key is read, the
      other keys travel with it untouched. */
  datatype Context = Context(content: Option<string>)

  /** What `compress` returns. The ratio is exact here, a float in Python. */
  datatype Compression = Compression(
    contexts: seq<Context>,
    compressionApplied: bool,
    originalTokens: nat,
    compressedTokens: nat,
    compressionRatio: real)

  /** `len(c.get('content', '').split())` */
  function Tokens(c: Context): nat {
    |Words(c.content.GetOr(""))|
  }

  /** The token count of a run of contexts, summed from the front. */
  function TotalTokens(cs: seq<Context>): nat {
    if |cs| == 0 then 0 else TotalTokens(cs[..|cs| - 1]) + Tokens(cs[|cs| - 1])
  }

  /** A longer leading run never has fewer tokens. */
  lemma {:induction false} PrefixTotalsGrow(cs: seq<Context>, i: nat, j: nat)
    requires i <= j <= |cs|
    ensures TotalTokens(cs[..i]) <= TotalTokens(cs[..j])
    decreases j - i
  {
    if i < j {
      PrefixTotalsGrow(cs, i, j - 1);
      assert cs[..j][..j - 1] == cs[..j - 1];
    }
  }

  /** The loop of `compress`: leading contexts are kept while the running
      count stays within the limit, and the first that would overflow ends it. */
  method KeepLeading(contexts: seq<Context>, tokenLimit: int) returns (kept: seq<Context>, running: nat)
    ensures |kept| <= |contexts| && kept == contexts[..|kept|]
    ensures running == TotalTokens(kept)
    ensures kept != [] ==> running <= tokenLimit
    ensures forall j :: |kept| < j <= |contexts| ==> TotalTokens(contexts[..j]) > tokenLimit
  {
    kept := [];
    running := 0;
    var i := 0;
    while i < |contexts| && running + Tokens(contexts[i]) <= tokenLimit
      invariant 0 <= i <= |contexts|
      invariant kept == contexts[..i]
      invariant running == TotalTokens(kept)
      invariant i > 0 ==> running <= tokenLimit
    {
      assert contexts[..i + 1][..i] == contexts[..i];
      kept := kept + [contexts[i]];
      running := running + Tokens(contexts[i]);
      i := i + 1;
    }
    if i < |contexts| {
      assert contexts[..i + 1][..i] == contexts[..i];
      forall j | i < j <= |contexts| ensures TotalTokens(contexts[..j]) > tokenLimit {
        PrefixTotalsGrow(contexts, i + 1, j);
      }
    }
  }

  /** The share of the tokens kept, as `compress` reports it after compressing. */
  function Ratio(kept: nat, total: nat): (q: real)
    requires kept <= total
    ensures 0.0 <= q <= 1.0
    ensures kept < total ==> q < 1.0
  {
    if total > 0 then QuotientBounds(kept as real, total as real); kept as real / total as real else 0.0
  }

  lemma QuotientBounds(a: real, b: real)
    requires 0.0 <= a <= b && b > 0.0
    ensures 0.0 <= a / b <= 1.0
    ensures a < b ==> a / b < 1.0
  {
    assert a / b * b == a;
  }

  /** `compress(contexts, token_limit)`. The compression method argument is
      ignored by the code and so is absent here. */
  method Compress(contexts: seq<Context>, tokenLimit: int) returns (r: Compression)
    ensures r.originalTokens == TotalTokens(contexts)
    ensures r.compressionApplied <==> TotalTokens(contexts) > tokenLimit
    ensures !r.compressionApplied ==> r.contexts == contexts && r.compressedTokens == r.originalTokens
    ensures |r.contexts| <= |contexts| && r.contexts == contexts[..|r.contexts|]
    ensures r.compressedTokens == TotalTokens(r.contexts)
    ensures r.contexts != [] ==> r.compressedTokens <= tokenLimit
    ensures tokenLimit >= 0 ==> r.compressedTokens <= tokenLimit
    ensures forall j :: |r.contexts| < j <= |contexts| ==> TotalTokens(contexts[..j]) > tokenLimit
    ensures 0.0 <= r.compressionRatio <= 1.0
    ensures r.compressionApplied ==> r.compressionRatio < 1.0
  {
    var total := TotalTokens(contexts);
    assert contexts[..|contexts|] == contexts;
    if total <= tokenLimit {
      return Compression(contexts, false, total, total, 1.0);
    }
    var kept, running := KeepLeading(contexts, tokenLimit);
    PrefixTotalsGrow(contexts, |kept|, |contexts|);
    r := Compression(kept, true, total, running, Ratio(running, total));
  }

  /** Compression is idempotent: what it kept fits, so compressing it again
      under the same limit changes nothing. */
  method CompressTwice(contexts: seq<Context>, tokenLimit: int) returns (once: Compression, twice: Compression)
    requires tokenLimit >= 0
    ensures !twice.compressionApplied
    ensures twice.contexts == once.contexts && twice.compressedTokens == once.compressedTokens
  {
    once := Compress(contexts, tokenLimit);
    twice := Compress(once.contexts, tokenLimit);
  }
}

=== FILE: dicts.dfy ===
/** Insertion-ordered dictionaries, as Python's `dict` is: a dictionary is
    the sequence of its items, a new key is appended at the end and an update
    of an existing key keeps its position. Iteration order matters to the
    modelled code because its sorts are stable. */
module Dicts {
  import opened Wrappers
  import Sorting

  type Dict<K, V> = seq<(K, V)>

  predicate Distinct<T(==)>(s: seq<T>) {
    forall i, j :: 0 <= i < j < |s| ==> s[i] != s[j]
  }

  /** The keys, in iteration order. */
  function Keys<K, V>(d: Dict<K, V>): (ks: seq<K>)
    ensures |ks| == |d|
    ensures forall i :: 0 <= i < |d| ==> ks[i] == d[i].0
  {
    if |d| == 0 then [] else [d[0].0] + Keys(d[1..])
  }

  predicate DistinctKeys<K(==), V>(d: Dict<K, V>) {
    Distinct(Keys(d))
  }

  /** `d.get(k)` */
  function Get<K(==), V>(d: Dict<K, V>, k: K): (r: Option<V>)
    ensures r.None? <==> k !in Keys(d)
  {
    if |d| == 0 then None
    else if d[0].0 == k then Some(d[0].1)
    else Get(d[1..], k)
  }

  /** A value found under `k` is an item of the dictionary. */
  lemma {:induction false} GetIsItem<K, V>(d: Dict<K, V>, k: K)
    requires Get(d, k).Some?
    ensures (k, Get(d, k).value) in d
  {
    if d[0].0 != k {
      GetIsItem(d[1..], k);
    }
  }

  lemma {:induction false} GetItem<K, V>(d: Dict<K, V>, i: nat)
    requires DistinctKeys(d) && i < |d|
    ensures Get(d, d[i].0) == Some(d[i].1)
  {
    if i > 0 {
      assert d[0].0 != d[i].0 by { assert Keys(d)[0] != Keys(d)[i]; }
      assert DistinctKeys(d[1..]) by {
        forall a, b | 0 <= a < b < |d[1..]| ensures Keys(d[1..])[a] != Keys(d[1..])[b] {
          assert Keys(d)[a + 1] != Keys(d)[b + 1];
        }
      }
      GetItem(d[1..], i - 1);
    }
  }

  lemma ItemGet<K, V>(d: Dict<K, V>, k: K, v: V)
    requires DistinctKeys(d) && (k, v) in d
    ensures Get(d, k) == Some(v)
  {
    var i :| 0 <= i < |d| && d[i] == (k, v);
    GetItem(d, i);
  }

  /** `d[k] = v` */
  function Put<K(==), V>(d: Dict<K, V>, k: K, v: V): (r: Dict<K, V>)
    ensures |r| == if k in Keys(d) then |d| else |d| + 1
  {
    if |d| == 0 then [(k, v)]
    else if d[0].0 == k then [(k, v)] + d[1..]
    else [d[0]] + Put(d[1..], k, v)
  }

  /** An update keeps the key order and appends a new key at the end. */
  lemma {:induction false} PutKeys<K(!new), V>(d: Dict<K, V>, k: K, v: V)
    ensures Keys(Put(d, k, v)) == if k in Keys(d) then Keys(d) else Keys(d) + [k]
  {
    if |d| > 0 {
      var r := Put(d, k, v);
      assert Keys(d) == [d[0].0] + Keys(d[1..]);
      if d[0].0 == k {
        assert r[1..] == d[1..];
      } else {
        var rest := Put(d[1..], k, v);
        PutKeys(d[1..], k, v);
        assert r[1..] == rest;
        assert k in Keys(d) <==> k in Keys(d[1..]);
        if k !in Keys(d[1..]) {
          assert Keys(r) == [d[0].0] + (Keys(d[1..]) + [k]) == Keys(d) + [k];
        }
      }
    }
  }

  /** An update changes the value at `k` and no other. */
  lemma {:induction false} PutGet<K(!new), V>(d: Dict<K, V>, k: K, v: V)
    ensures Get(Put(d, k, v), k) == Some(v)
    ensures forall k' :: k' != k ==> Get(Put(d, k, v), k') == Get(d, k')
  {
    if |d| > 0 {
      var r := Put(d, k, v);
      if d[0].0 == k {
        assert r[1..] == d[1..];
      } else {
        PutGet(d[1..], k, v);
        assert r[1..] == Put(d[1..], k, v);
      }
    }
  }

  lemma PutKeepsDistinct<K(!new), V>(d: Dict<K, V>, k: K, v: V)
    requires DistinctKeys(d)
    ensures DistinctKeys(Put(d, k, v))
  {
    PutKeys(d, k, v);
  }

  /** `d.get(k, 0)` for a table of counts. */
  function Count<K(==)>(d: Dict<K, nat>, k: K): nat {
    Get(d, k).GetOr(0)
  }

  /** `d[k] = d.get(k, 0) + n` */
  function Add<K(==,!new)>(d: Dict<K, nat>, k: K, n: nat): (r: Dict<K, nat>)
    ensures Count(r, k) == Count(d, k) + n
    ensures forall k' :: k' != k ==> Count(r, k') == Count(d, k')
    ensures Keys(r) == if k in Keys(d) then Keys(d) else Keys(d) + [k]
    ensures forall k' :: k' in Keys(r) <==> k' == k || k' in Keys(d)
    ensures DistinctKeys(d) ==> DistinctKeys(r)
  {
    var v: nat := Count(d, k) + n;
    AddSpec(d, k, v);
    Put(d, k, v)
  }

  lemma AddSpec<K(!new)>(d: Dict<K, nat>, k: K, v: nat)
    ensures Keys(Put(d, k, v)) == if k in Keys(d) then Keys(d) else Keys(d) + [k]
    ensures Count(Put(d, k, v), k) == v
    ensures forall k' :: k' != k ==> Count(Put(d, k, v), k') == Count(d, k')
    ensures forall k' :: k' in Keys(Put(d, k, v)) <==> k' == k || k' in Keys(d)
    ensures DistinctKeys(d) ==> DistinctKeys(Put(d, k, v))
  {
    PutKeys(d, k, v);
    PutGet(d, k, v);
    if DistinctKeys(d) {
      PutKeepsDistinct(d, k, v);
    }
  }

  /** `for k, n in t.items(): acc[k] = acc.get(k, 0) + n` */
  function AddAll<K(==,!new)>(acc: Dict<K, nat>, t: Dict<K, nat>): (r: Dict<K, nat>)
    requires DistinctKeys(acc) && DistinctKeys(t)
    ensures DistinctKeys(r)
    ensures forall k :: Count(r, k) == Count(acc, k) + Count(t, k)
    ensures forall k :: k in Keys(r) <==> k in Keys(acc) || k in Keys(t)
    decreases |t|
  {
    if |t| == 0 then acc
    else
      var acc' := Add(acc, t[0].0, t[0].1);
      assert Keys(t) == [t[0].0] + Keys(t[1..]);
      assert DistinctKeys(t[1..]) by {
        forall a, b | 0 <= a < b < |t[1..]| ensures Keys(t[1..])[a] != Keys(t[1..])[b] {
          assert Keys(t)[a + 1] != Keys(t)[b + 1];
        }
      }
      assert t[0].0 !in Keys(t[1..]);
      AddAll(acc', t[1..])
  }

  /** The distinct elements of `s` in order of first occurrence. */
  function Dedup<T(==,!new)>(s: seq<T>): (r: seq<T>)
    ensures Distinct(r)
    ensures forall x :: x in r <==> x in s
  {
    if |s| == 0 then []
    else
      var r := Dedup(s[..|s| - 1]);
      assert s == s[..|s| - 1] + [s[|s| - 1]];
      if s[|s| - 1] in r then r else r + [s[|s| - 1]]
  }

  /** Occurrence counts in first-occurrence order:
      `for w in s: d[w] = d.get(w, 0) + 1`. */
  function Tally<T(==,!new)>(s: seq<T>): (d: Dict<T, nat>)
    ensures DistinctKeys(d)
  {
    if |s| == 0 then [] else Add(Tally(s[..|s| - 1]), s[|s| - 1], 1)
  }

  /** The tally has one key per distinct element, in order of first
      occurrence. */
  lemma {:induction false} TallyKeys<T(!new)>(s: seq<T>)
    ensures Keys(Tally(s)) == Dedup(s)
  {
    if |s| > 0 {
      var init := s[..|s| - 1];
      TallyKeys(init);
      assert s[|s| - 1] in Keys(Tally(init)) <==> s[|s| - 1] in Dedup(init);
    }
  }

  /** The tally counts each element's occurrences. */
  lemma {:induction false} TallyCounts<T(!new)>(s: seq<T>)
    ensures forall x :: Count(Tally(s), x) == multiset(s)[x]
  {
    if |s| > 0 {
      var init := s[..|s| - 1];
      TallyCounts(init);
      assert s == init + [s[|s| - 1]];
      assert multiset(s) == multiset(init) + multiset{s[|s| - 1]};
    }
  }

  /** Deduplication keeps the order of first occurrences. */
  lemma {:induction false} DedupOrder<T(!new)>(s: seq<T>, a: T, b: T)
    requires a in s && b in s
    ensures a in Dedup(s) && b in Dedup(s)
    ensures Sorting.IndexOf(Dedup(s), a) < Sorting.IndexOf(Dedup(s), b)
        <==> Sorting.IndexOf(s, a) < Sorting.IndexOf(s, b)
  {
    var init := s[..|s| - 1];
    var z := s[|s| - 1];
    var r := Dedup(init);
    assert s == init + [z];
    assert Dedup(s) == if z in r then r else r + [z];
    if a in init && b in init {
      DedupOrder(init, a, b);
      Sorting.IndexOfPrefix(init, [z], a);
      Sorting.IndexOfPrefix(init, [z], b);
      Sorting.IndexOfPrefix(r, [z], a);
      Sorting.IndexOfPrefix(r, [z], b);
    } else if a in init {
      assert b == z && z !in r;
      Sorting.IndexOfPrefix(init, [z], a);
      Sorting.IndexOfPrefix(r, [z], a);
      Sorting.IndexOfLast(init, z);
      Sorting.IndexOfLast(r, z);
    } else if b in init {
      assert a == z && z !in r;
      Sorting.IndexOfPrefix(init, [z], b);
      Sorting.IndexOfPrefix(r, [z], b);
      Sorting.IndexOfLast(init, z);
      Sorting.IndexOfLast(r, z);
    } else {
      assert a == z && b == z;
    }
  }
}

=== FILE: file_scanner.dfy ===
/** The file scanner: the regular files below a root, in walk order, minus
    those inside an excluded directory and the tool's own report logs and
    learning state. Symbolic links are resolved by an oracle. */
module FileScanner {
  import opened Text
  import opened Paths
  import opened FileSystems

  const ReportPrefix := "cleanup_report_"
  const LearningStateName := ".file_organizer_learning.json"

  /** `path.resolve()` for the tree being scanned. */
  type Resolver = Path -> Path

  /** Some entry of `path.parents` resolves to an excluded directory. */
  predicate InExcluded(p: Path, excluded: set<Path>, resolve: Resolver) {
    exists k :: ParentsFrom(p) <= k < |p| && resolve(p[..k]) in excluded
  }

  /** The scanner's own outputs, skipped by name. */
  predicate OwnOutput(p: Path) {
    || (StartsWith(Name(p), ReportPrefix) && Suffix(p) == ".log")
    || Name(p) == LearningStateName
  }

  /** A walked entry that `scan` returns. */
  predicate Kept(e: Entry, excluded: set<Path>, resolve: Resolver) {
    && e.kind == RegularFile
    && !InExcluded(e.path, excluded, resolve)
    && !OwnOutput(e.path)
  }

  /** The loop of `scan` over the entries `root.rglob("*")` yields. */
  function ScanEntries(entries: seq<Entry>, root: Path, excluded: set<Path>, resolve: Resolver): (r: seq<Path>)
    ensures |r| <= |entries|
  {
    if |entries| == 0 then []
    else
      var e := entries[0];
      (if StrictlyBelow(root, e.path) && Kept(e, excluded, resolve) then [e.path] else [])
      + ScanEntries(entries[1..], root, excluded, resolve)
  }

  /** `scan(root, exclude_dirs)`: the excluded directories are compared
      after resolution. */
  function Scan(fs: FileSystem, root: Path, excludeDirs: seq<Path>, resolve: Resolver): (r: seq<Path>)
    ensures |r| <= |fs.entries|
  {
    var excluded := set d | d in excludeDirs :: resolve(d);
    ScanEntries(fs.entries, root, excluded, resolve)
  }

  /** A path is returned exactly when a walked regular file below the root
      has it and passes every filter. */
  lemma {:induction false} ScanEntriesMembers(entries: seq<Entry>, root: Path, excluded: set<Path>,
                                              resolve: Resolver)
    ensures forall p :: p in ScanEntries(entries, root, excluded, resolve) <==>
      exists e :: e in entries && e.path == p && StrictlyBelow(root, p) && Kept(e, excluded, resolve)
  {
    if |entries| > 0 {
      ScanEntriesMembers(entries[1..], root, excluded, resolve);
      assert entries == [entries[0]] + entries[1..];
    }
  }

  /** The walk is filtered piecewise: scanning two runs of entries is
      scanning each and concatenating, so the scan keeps the walk's order. */
  lemma {:induction false} ScanEntriesAppend(a: seq<Entry>, b: seq<Entry>, root: Path, excluded: set<Path>,
                                             resolve: Resolver)
    ensures ScanEntries(a + b, root, excluded, resolve)
         == ScanEntries(a, root, excluded, resolve) + ScanEntries(b, root, excluded, resolve)
  {
    if |a| > 0 {
      var e := a[0];
      var head := if StrictlyBelow(root, e.path) && Kept(e, excluded, resolve) then [e.path] else [];
      assert (a + b)[0] == e && (a + b)[1..] == a[1..] + b;
      assert ScanEntries(a + b, root, excluded, resolve) == head + ScanEntries(a[1..] + b, root, excluded, resolve);
      assert ScanEntries(a, root, excluded, resolve) == head + ScanEntries(a[1..], root, excluded, resolve);
      ScanEntriesAppend(a[1..], b, root, excluded, resolve);
    } else {
      assert a + b == b;
    }
  }

  /** Nothing returned lies inside an excluded directory or is one of the
      tool's own report logs or learning state, and everything returned is a
      regular file strictly below the root. */
  lemma ScanIsClean(fs: FileSystem, root: Path, excludeDirs: seq<Path>, resolve: Resolver)
    ensures forall p :: p in Scan(fs, root, excludeDirs, resolve) ==>
      && p in Files(fs) && StrictlyBelow(root, p) && !OwnOutput(p)
      && forall d, k :: d in excludeDirs && ParentsFrom(p) <= k < |p| ==> resolve(p[..k]) != resolve(d)
  {
    var excluded := set d | d in excludeDirs :: resolve(d);
    ScanEntriesMembers(fs.entries, root, excluded, resolve);
    forall p | p in Scan(fs, root, excludeDirs, resolve)
      ensures p in Files(fs)
      ensures forall d, k :: d in excludeDirs && ParentsFrom(p) <= k < |p| ==> resolve(p[..k]) != resolve(d)
    {
      var e :| e in fs.entries && e.path == p && StrictlyBelow(root, p) && Kept(e, excluded, resolve);
      forall d, k | d in excludeDirs && ParentsFrom(p) <= k < |p| ensures resolve(p[..k]) != resolve(d) {
        assert resolve(d) in excluded;
      }
    }
  }

  /** Conversely, every regular file below the root that is neither inside
      an excluded directory nor one of the tool's own outputs is returned. */
  lemma ScanIsComplete(fs: FileSystem, root: Path, excludeDirs: seq<Path>, resolve: Resolver, p: Path)
    requires p in Files(fs) && StrictlyBelow(root, p) && !OwnOutput(p)
    requires forall d, k :: d in excludeDirs && ParentsFrom(p) <= k < |p| ==> resolve(p[..k]) != resolve(d)
    ensures p in Scan(fs, root, excludeDirs, resolve)
  {
    var excluded := set d | d in excludeDirs :: resolve(d);
    ScanEntriesMembers(fs.entries, root, excluded, resolve);
    var e :| e in fs.entries && e.kind == RegularFile && e.path == p;
    assert !InExcluded(p, excluded, resolve);
  }
}

=== FILE: filesystem.dfy ===
/** An abstract directory tree: its entries, each a directory or a regular
    file, listed in the order a recursive walk (`rglob("*")`) visits them. */
module FileSystems {
  import opened Wrappers
  import opened Paths

  datatype Kind = Directory | RegularFile

  datatype Entry = Entry(path: Path, kind: Kind)

  datatype FileSystem = FileSystem(entries: seq<Entry>)

  function Dirs(fs: FileSystem): set<Path> {
    set e | e in fs.entries && e.kind == Directory :: e.path
  }

  function Files(fs: FileSystem): set<Path> {
    set e | e in fs.entries && e.kind == RegularFile :: e.path
  }

  /** No path is listed twice. */
  predicate UniquePaths(fs: FileSystem) {
    forall i, j :: 0 <= i < j < |fs.entries| ==> fs.entries[i].path != fs.entries[j].path
  }

  /** `d.iterdir()` yields something. */
  predicate HasEntries(fs: FileSystem, d: Path) {
    exists e :: e in fs.entries && IsChild(d, e.path)
  }

  /** Every path strictly below `root` sits in a directory that exists. */
  predicate Rooted(fs: FileSystem, root: Path) {
    forall e :: e in fs.entries && StrictlyBelow(root, e.path) ==> Parent(e.path) in Dirs(fs)
  }

  /** The entries whose paths are not in `gone`, in their order. */
  function Without(entries: seq<Entry>, gone: set<Path>): (r: seq<Entry>)
    ensures forall e :: e in r <==> e in entries && e.path !in gone
    ensures |r| <= |entries|
  {
    if |entries| == 0 then []
    else (if entries[0].path in gone then [] else [entries[0]]) + Without(entries[1..], gone)
  }

  /** The non-empty prefixes of `d`: the directories `mkdir(parents=True)`
      must find or create. */
  function Prefixes(d: Path): set<Path> {
    set k | 1 <= k <= |d| :: d[..k]
  }

  /** `d.mkdir(parents=True, exist_ok=True)`: creates the missing directories
      on the way to `d`, and raises when `d` or one of its ancestors exists as
      a file. */
  function MakeDirs(fs: FileSystem, d: Path): (r: Result<FileSystem>)
    ensures r.Success? <==> Prefixes(d) !! Files(fs)
    ensures r.Success? ==> Files(r.value) == Files(fs)
    ensures r.Success? ==> Dirs(r.value) == Dirs(fs) + Prefixes(d)
    decreases |d|
  {
    if |d| == 0 then Success(fs)
    else
      PrefixesStep(d);
      match MakeDirs(fs, d[..|d| - 1])
      case Failure(e) => Failure(e)
      case Success(fs1) =>
        if d in Files(fs1) then Failure("File exists")
        else if d in Dirs(fs1) then Success(fs1)
        else
          var fs2 := FileSystem(fs1.entries + [Entry(d, Directory)]);
          assert Dirs(fs2) == Dirs(fs1) + {d};
          assert Files(fs2) == Files(fs1);
          Success(fs2)
  }

  lemma PrefixesStep(d: Path)
    requires |d| > 0
    ensures Prefixes(d) == Prefixes(d[..|d| - 1]) + {d}
  {
    var init := d[..|d| - 1];
    forall x | x in Prefixes(d) ensures x in Prefixes(init) + {d} {
      var k :| 1 <= k <= |d| && x == d[..k];
      if k < |d| {
        assert init[..k] == x;
        assert x in Prefixes(init);
      } else {
        assert x == d;
      }
    }
    forall x | x in Prefixes(init) + {d} ensures x in Prefixes(d) {
      if x == d {
        assert d[..|d|] == d;
      } else {
        var k :| 1 <= k <= |init| && x == init[..k];
        assert d[..k] == x;
      }
    }
  }

  /** `shutil.move(src, dst)` that succeeded, with `dst` a new file name:
      `src` disappears and `dst` appears as a file. */
  function Move(fs: FileSystem, src: Path, dst: Path): (r: FileSystem)
    ensures Files(r) == Files(fs) - {src, dst} + {dst}
    ensures Dirs(r) == Dirs(fs) - {src, dst}
  {
    FileSystem(Without(fs.entries, {src, dst}) + [Entry(dst, RegularFile)])
  }

  /** Writing the file `p` (`write_text`, a log handler): `p` becomes a file. */
  function WriteFile(fs: FileSystem, p: Path): (r: FileSystem)
    ensures Files(r) == Files(fs) + {p}
    ensures Dirs(r) == Dirs(fs) - {p}
  {
    FileSystem(Without(fs.entries, {p}) + [Entry(p, RegularFile)])
  }

  /** `d.rmdir()` that succeeded: `d` disappears and nothing else changes. */
  function RemoveDir(fs: FileSystem, d: Path): (r: FileSystem)
    ensures forall e :: e in r.entries <==> e in fs.entries && e.path != d
    ensures Files(r) == Files(fs) - {d}
    ensures Dirs(r) == Dirs(fs) - {d}
  {
    FileSystem(Without(fs.entries, {d}))
  }

  /** A path listed once is not both a directory and a file. */
  lemma OneKind(fs: FileSystem, p: Path)
    requires UniquePaths(fs)
    ensures !(p in Dirs(fs) && p in Files(fs))
  {
    if p in Dirs(fs) && p in Files(fs) {
      var d :| d in fs.entries && d.kind == Directory && d.path == p;
      var f :| f in fs.entries && f.kind == RegularFile && f.path == p;
      var i :| 0 <= i < |fs.entries| && fs.entries[i] == d;
      var j :| 0 <= j < |fs.entries| && fs.entries[j] == f;
      assert false;
    }
  }

  /** Dropping entries keeps every remaining path listed once. */
  lemma {:induction false} WithoutUnique(entries: seq<Entry>, gone: set<Path>)
    requires UniquePaths(FileSystem(entries))
    ensures UniquePaths(FileSystem(Without(entries, gone)))
  {
    if |entries| > 0 {
      var tail := entries[1..];
      TailUnique(entries);
      WithoutUnique(tail, gone);
      var rest := Without(tail, gone);
      if entries[0].path !in gone {
        forall e | e in rest ensures e.path != entries[0].path {
          var k :| 0 <= k < |tail| && tail[k] == e;
          assert e == entries[k + 1];
        }
        ConsUnique(entries[0], rest);
      }
    }
  }

  lemma TailUnique(entries: seq<Entry>)
    requires |entries| > 0 && UniquePaths(FileSystem(entries))
    ensures UniquePaths(FileSystem(entries[1..]))
  {
    var tail := entries[1..];
    forall i, j | 0 <= i < j < |tail| ensures tail[i].path != tail[j].path {
      assert tail[i] == entries[i + 1] && tail[j] == entries[j + 1];
    }
  }

  lemma ConsUnique(x: Entry, rest: seq<Entry>)
    requires UniquePaths(FileSystem(rest))
    requires forall e :: e in rest ==> e.path != x.path
    ensures UniquePaths(FileSystem([x] + rest))
  {
    var r := [x] + rest;
    forall i, j | 0 <= i < j < |r| ensures r[i].path != r[j].path {
      assert r[j] == rest[j - 1];
      if i > 0 {
        assert r[i] == rest[i - 1];
      } else {
        assert r[j] in rest;
      }
    }
  }

  /** In a rooted tree every ancestor of an entry, down from below the root,
      exists as a directory. */
  lemma {:induction false} AncestorsPresent(fs: FileSystem, root: Path, p: Path, k: nat)
    requires Rooted(fs, root)
    requires p in Dirs(fs) || p in Files(fs)
    requires StrictlyBelow(root, p) && |root| < k < |p|
    ensures p[..k] in Dirs(fs)
    decreases |p|
  {
    var e :| e in fs.entries && e.path == p;
    var q := Parent(p);
    assert q in Dirs(fs);
    if k < |q| {
      assert q[..|root|] == root;
      AncestorsPresent(fs, root, q, k);
      assert q[..k] == p[..k];
    } else {
      assert q == p[..k];
    }
  }

  /** `p.write_text(...)` or opening `p` for logging: raises when `p` is a
      directory, and otherwise makes `p` a file. */
  function WriteText(fs: FileSystem, p: Path): (r: Result<FileSystem>)
    ensures r.Failure? <==> p in Dirs(fs)
    ensures r.Success? ==> Files(r.value) == Files(fs) + {p} && Dirs(r.value) == Dirs(fs)
  {
    if p in Dirs(fs) then Failure("Is a directory") else Success(WriteFile(fs, p))
  }

  /** Appending an entry for a path not yet listed keeps paths unique. */
  lemma AppendUnique(fs: FileSystem, e: Entry)
    requires UniquePaths(fs) && e.path !in Dirs(fs) && e.path !in Files(fs)
    ensures UniquePaths(FileSystem(fs.entries + [e]))
  {
    var es := fs.entries + [e];
    forall i, j | 0 <= i < j < |es| ensures es[i].path != es[j].path {
      assert es[i] == fs.entries[i] && es[i] in fs.entries;
      if j < |fs.entries| {
        assert es[j] == fs.entries[j];
      }
    }
  }

  lemma {:induction false} MakeDirsUnique(fs: FileSystem, d: Path)
    requires UniquePaths(fs) && MakeDirs(fs, d).Success?
    ensures UniquePaths(MakeDirs(fs, d).value)
    decreases |d|
  {
    if |d| > 0 {
      MakeDirsUnique(fs, d[..|d| - 1]);
      var fs1 := MakeDirs(fs, d[..|d| - 1]).value;
      if d !in Dirs(fs1) && d !in Files(fs1) {
        AppendUnique(fs1, Entry(d, Directory));
      }
    }
  }

  lemma WriteTextUnique(fs: FileSystem, p: Path)
    requires UniquePaths(fs) && WriteText(fs, p).Success?
    ensures UniquePaths(WriteText(fs, p).value)
  {
    var rest := FileSystem(Without(fs.entries, {p}));
    WithoutUnique(fs.entries, {p});
    AppendUnique(rest, Entry(p, RegularFile));
  }
}

=== FILE: integration.dfy ===
/** Where the pipeline sends the kinds of file its integration scenario uses:
    a photo, a text note, an empty file of unknown type, and a file whose
    text could not be extracted, and an empty directory. Each file lemma
    follows one file through `process_file` and the routing of
    `organize_files`; the directory lemma follows the cleanup stage. */
module Integration {
  import opened Wrappers
  import opened Text
  import opened Paths
  import opened Dicts
  import opened Models
  import Learning
  import MetadataProcessor
  import OrganizationEngine
  import opened FileSystems
  import CleanupEngine

  /** The record `process_file` produces for a detected, extracted file. */
  function Processed(p: Path, mimeType: string, ex: MetadataProcessor.Extracted, store: Learning.Store): (fo: FileObject)
    requires Learning.Valid(store)
    ensures fo.path == p && fo.mimeType == mimeType && fo.errors == []
  {
    MetadataProcessor.ProcessFile(p, Success(mimeType), Success(ex), Some(store)).value
  }

  /** A photo is labelled with confidence at least 85, so under any threshold
      up to 85 it goes to Media/Photos below the root. */
  lemma PhotoGoesToPhotos(p: Path, mimeType: string, ex: MetadataProcessor.Extracted, store: Learning.Store,
                          threshold: real, root: Path, stagingRoot: Path)
    requires Learning.Valid(store)
    requires StartsWith(mimeType, "image/") && threshold <= 85.0
    ensures var fo := Processed(p, mimeType, ex, store);
      && !OrganizationEngine.Staged(fo, threshold)
      && OrganizationEngine.DestinationDir(root, stagingRoot, threshold, fo) == root + ["Media", "Photos"]
  {
  }

  /** A file whose extraction failed carries the error and is staged,
      whatever the threshold. */
  lemma FailedExtractionIsStaged(p: Path, mimeType: string, e: string, store: Learning.Store,
                                 threshold: real, root: Path, stagingRoot: Path)
    requires Learning.Valid(store)
    ensures var fo := MetadataProcessor.ProcessFile(p, Success(mimeType), Failure(e), Some(store)).value;
      && fo.errors == [e]
      && OrganizationEngine.Staged(fo, threshold)
      && OrganizationEngine.DestinationDir(root, stagingRoot, threshold, fo) == stagingRoot
  {
  }

  /** An empty file that is not media, has no metadata labels and whose kind
      the store has never seen gets no label and confidence 0, so it is staged
      under any positive threshold. */
  lemma EmptyUnknownIsStaged(p: Path, mimeType: string, ex: MetadataProcessor.Extracted, store: Learning.Store,
                             threshold: real, root: Path, stagingRoot: Path)
    requires Learning.Valid(store)
    requires ex.content == "" && MetadataProcessor.MetadataLabels(ex.metadata) == []
    requires !MetadataProcessor.IsImage(p, mimeType)
    requires !StartsWith(mimeType, "video/") && !StartsWith(mimeType, "audio/")
    requires !Learning.HasHistory(store, NewFileObject(p, mimeType))
    requires threshold > 0.0
    ensures var fo := Processed(p, mimeType, ex, store);
      && fo.labels == [] && fo.confidence == 0.0
      && OrganizationEngine.Staged(fo, threshold)
      && OrganizationEngine.DestinationDir(root, stagingRoot, threshold, fo) == stagingRoot
  {
    assert Prefix(ex.content, 500) == "";
    assert MetadataProcessor.SampleText("") == "" by {
      assert Words("") == [];
      assert Text.Join(" ", []) == "";
    }
    MetadataProcessor.SampleOfNothing("");
  }

  /** A text file whose sample yields at least two frequent words, with no
      metadata labels and an extension that is neither code nor image, gets
      confidence at least 70, so under any threshold up to 70 it goes to
      Documents/Text below the root. The hypothesis on the frequency labels
      is not discharged for the test's own note ("Project notes about
      quarterly planning and finance."): the lemma covers every note that
      meets it. */
  lemma TextNoteGoesToText(p: Path, mimeType: string, ex: MetadataProcessor.Extracted, store: Learning.Store,
                           threshold: real, root: Path, stagingRoot: Path)
    requires Learning.Valid(store)
    requires StartsWith(mimeType, "text/")
    requires Extension(p) !in OrganizationEngine.CodeExtensions
    requires Extension(p) !in MetadataProcessor.ImageExtensions
    requires MetadataProcessor.MetadataLabels(ex.metadata) == []
    requires |MetadataProcessor.FrequencyLabels(Prefix(ex.content, 500))| >= 2
    requires threshold <= 70.0
    ensures var fo := Processed(p, mimeType, ex, store);
      && fo.confidence >= 70.0
      && !OrganizationEngine.Staged(fo, threshold)
      && OrganizationEngine.DestinationDir(root, stagingRoot, threshold, fo) == root + ["Documents", "Text"]
  {
    var fo := Processed(p, mimeType, ex, store);
    TextConfidence(p, mimeType, ex, store);
    TextCategory(fo);
    Routed(fo, threshold, root, stagingRoot);
    assert !Paths.IsAbsolute(["Documents", "Text"]);
  }

  /** A record without errors whose confidence reaches the threshold goes to
      its category below the root. */
  lemma Routed(fo: FileObject, threshold: real, root: Path, stagingRoot: Path)
    requires fo.errors == [] && fo.confidence >= threshold
    ensures !OrganizationEngine.Staged(fo, threshold)
    ensures OrganizationEngine.DestinationDir(root, stagingRoot, threshold, fo)
         == Paths.Join(root, OrganizationEngine.DetermineCategory(fo))
  {
  }

  /** The confidence half of the text-note scenario. */
  lemma TextConfidence(p: Path, mimeType: string, ex: MetadataProcessor.Extracted, store: Learning.Store)
    requires Learning.Valid(store)
    requires StartsWith(mimeType, "text/")
    requires Extension(p) !in MetadataProcessor.ImageExtensions
    requires MetadataProcessor.MetadataLabels(ex.metadata) == []
    requires |MetadataProcessor.FrequencyLabels(Prefix(ex.content, 500))| >= 2
    ensures Processed(p, mimeType, ex, store).confidence >= 70.0
  {
    var fo0 := NewFileObject(p, mimeType);
    TextIsNotMedia(mimeType);
    var g := MetadataProcessor.GenerateLabels(Prefix(ex.content, 500), ex.metadata);
    assert g.1 >= 70.0;
    assert MetadataProcessor.Labelled(fo0, ex, None).1 == g.1;
    MetadataProcessor.LearningNeverLowersConfidence(fo0, ex, store);
  }

  /** A text file with a non-code extension is filed under Documents/Text. */
  lemma TextCategory(fo: FileObject)
    requires StartsWith(fo.mimeType, "text/")
    requires Extension(fo.path) !in OrganizationEngine.CodeExtensions
    ensures OrganizationEngine.DetermineCategory(fo) == ["Documents", "Text"]
  {
    TextIsNotMedia(fo.mimeType);
  }

  /** A "text/" MIME type is none of the media or PDF types. */
  lemma TextIsNotMedia(m: string)
    requires StartsWith(m, "text/")
    ensures !StartsWith(m, "image/") && !StartsWith(m, "video/") && !StartsWith(m, "audio/")
    ensures m != "application/pdf"
  {
    assert m[0] == "text/"[0] == 't';
  }

  /** An empty directory strictly below the root that the cleanup stage may
      remove is gone after it, whatever else the tree holds. */
  lemma EmptyDirectoryIsRemoved(fs: FileSystem, root: Path, locked: set<Path>,
                                fs': FileSystem, removed: nat, d: Path)
    requires CleanupEngine.Cleaned(fs, root, locked, fs', removed)
    requires d in Dirs(fs) && StrictlyBelow(root, d) && d !in locked && !HasEntries(fs, d)
    ensures d !in Dirs(fs') && removed >= 1
  {
  }
}

=== FILE: learning.dfy ===
/** The learning store: label occurrence counts per file extension and per
    MIME type, consulted to suggest labels and updated with the primary label
    of each file the run organizes into a category. */
module Learning {
  import opened Wrappers
  import opened Text
  import opened Dicts
  import opened Ranking
  import opened Models

  /** label -> occurrence count, in insertion order */
  type Counts = Dict<string, nat>

  datatype Store = Store(extensionLabels: map<string, Counts>, mimeLabels: map<string, Counts>)

  /** Each inner table is a dictionary: no label appears twice. */
  predicate Valid(s: Store) {
    && (forall k :: k in s.extensionLabels ==> DistinctKeys(s.extensionLabels[k]))
    && (forall k :: k in s.mimeLabels ==> DistinctKeys(s.mimeLabels[k]))
  }

  /** `table.get(key, {})` */
  function Table(m: map<string, Counts>, key: string): Counts {
    if key in m then m[key] else []
  }

  const EmptyStore := Store(map[], map[])

  /** The persisted JSON document; a top-level field absent from it is `None`. */
  datatype Snapshot = Snapshot(
    extensionLabels: Option<map<string, Counts>>,
    mimeLabels: Option<map<string, Counts>>)

  /** `LearningStore.load`: a missing file (`None`) gives the empty store, and
      a missing field an empty table. */
  function Load(file: Option<Snapshot>): (s: Store)
    ensures file.None? ==> s == EmptyStore
    ensures file.Some? ==> s.extensionLabels == file.value.extensionLabels.GetOr(map[])
    ensures file.Some? ==> s.mimeLabels == file.value.mimeLabels.GetOr(map[])
  {
    match file
    case None => EmptyStore
    case Some(snap) => Store(snap.extensionLabels.GetOr(map[]), snap.mimeLabels.GetOr(map[]))
  }

  /** `LearningStore.save`: both tables are written. */
  function Save(s: Store): Snapshot {
    Snapshot(Some(s.extensionLabels), Some(s.mimeLabels))
  }

  /** What is saved is loaded back unchanged. The file's JSON encoding is not
      modelled, so this is a fact about the snapshot abstraction: both tables
      are written whole and read back whole. */
  lemma LoadSave(s: Store)
    ensures Load(Some(Save(s))) == s
  {
  }

  function ExtensionTable(s: Store, fo: FileObject): Counts {
    Table(s.extensionLabels, Extension(fo.path))
  }

  function MimeTable(s: Store, fo: FileObject): Counts {
    Table(s.mimeLabels, fo.mimeType)
  }

  /** A label's combined count for this file: its extension-table count plus
      its MIME-table count. */
  function Combined(s: Store, fo: FileObject, l: string): nat {
    Count(ExtensionTable(s, fo), l) + Count(MimeTable(s, fo), l)
  }

  /** The `candidates` dictionary: the extension table's counts, then the
      MIME table's added to them. */
  function Candidates(s: Store, fo: FileObject): (c: Counts)
    requires Valid(s)
    ensures DistinctKeys(c)
    ensures forall l :: Count(c, l) == Combined(s, fo, l)
    ensures forall l :: l in Keys(c) <==> l in Keys(ExtensionTable(s, fo)) || l in Keys(MimeTable(s, fo))
  {
    var e := ExtensionTable(s, fo);
    var m := MimeTable(s, fo);
    assert DistinctKeys(e) && DistinctKeys(m);
    var none: Counts := [];
    assert forall l :: Count(none, l) == 0;
    AddAll(AddAll(none, e), m)
  }

  /** The largest count in a table, 0 for an empty one: an independent
      statement of the count `sorted_labels[0]` carries. */
  function MaxCount(d: Counts): (m: nat)
    ensures forall x :: x in d ==> x.1 <= m
    ensures |d| > 0 ==> exists x :: x in d && x.1 == m
  {
    if |d| == 0 then 0
    else
      var rest := MaxCount(d[1..]);
      assert forall x :: x in d ==> x == d[0] || x in d[1..];
      if d[0].1 >= rest then d[0].1 else rest
  }

  /** Some label is known for this file's extension or MIME type. */
  predicate HasHistory(s: Store, fo: FileObject) {
    ExtensionTable(s, fo) != [] || MimeTable(s, fo) != []
  }

  /** `suggest_labels(file_object, limit)`: the `limit` labels with the highest
      combined count, and a confidence boost of twice the highest count,
      capped at 20. */
  function SuggestLabels(s: Store, fo: FileObject, limit: int): (r: (seq<string>, real))
    requires Valid(s)
    ensures !HasHistory(s, fo) ==> r == ([], 0.0)
    ensures 1 <= limit && HasHistory(s, fo) ==> |r.0| > 0
    ensures r.1 == Boost(MaxCount(Candidates(s, fo)))
    ensures 0 <= limit ==> |r.0| <= limit
    ensures 0 <= limit ==> |r.0| == if limit < |Candidates(s, fo)| then limit else |Candidates(s, fo)|
    ensures Distinct(r.0)
    ensures forall l :: l in r.0 ==> l in Keys(ExtensionTable(s, fo)) || l in Keys(MimeTable(s, fo))
    ensures forall i, j :: 0 <= i < j < |r.0| ==> Combined(s, fo, r.0[i]) >= Combined(s, fo, r.0[j])
    ensures forall l, i ::
              (l in Keys(ExtensionTable(s, fo)) || l in Keys(MimeTable(s, fo))) && l !in r.0 && 0 <= i < |r.0|
              ==> Combined(s, fo, l) <= Combined(s, fo, r.0[i])
  {
    SuggestionShape(s, fo, limit);
    SuggestionOrder(s, fo, limit);
    SuggestionDominance(s, fo, limit);
    Suggestion(Candidates(s, fo), limit)
  }

  /** The confidence boost for a top count: twice the count, capped at 20. */
  function Boost(top: nat): (b: real)
    ensures 0.0 <= b <= 20.0
  {
    Min(20.0, 2.0 * top as real)
  }

  /** The body of `suggest_labels` once `candidates` is built. */
  function Suggestion(c: Counts, limit: int): (seq<string>, real) {
    if |c| == 0 then ([], 0.0)
    else (TopKeys(c, limit), Boost(Ranked(c)[0].1))
  }

  lemma SuggestionShape(s: Store, fo: FileObject, limit: int)
    requires Valid(s)
    ensures var r := Suggestion(Candidates(s, fo), limit);
      && (!HasHistory(s, fo) ==> r == ([], 0.0))
      && (1 <= limit && HasHistory(s, fo) ==> |r.0| > 0)
      && r.1 == Boost(MaxCount(Candidates(s, fo)))
  {
    var c := Candidates(s, fo);
    HistoryIsCandidates(s, fo);
    SuggestionBoost(c, limit);
    if 1 <= limit && |c| > 0 {
      SuggestionNonEmpty(c, limit);
    }
  }

  lemma SuggestionBoost(c: Counts, limit: int)
    ensures Suggestion(c, limit).1 == Boost(MaxCount(c))
  {
    if |c| > 0 {
      var h := Ranked(c)[0].1;
      assert Suggestion(c, limit).1 == Boost(h);
      RankedHeadIsMax(c);
    } else {
      assert MaxCount(c) == 0;
    }
  }

  lemma SuggestionNonEmpty(c: Counts, limit: int)
    requires 1 <= limit && |c| > 0
    ensures |Suggestion(c, limit).0| > 0
  {
    assert |TopKeys(c, limit)| == |Top(c, limit)|;
  }

  lemma RankedHeadIsMax(c: Counts)
    requires |c| > 0
    ensures Ranked(c)[0].1 == MaxCount(c)
  {
    RankedIsSorted(c);
    var x :| x in c && x.1 == MaxCount(c);
    assert x.1 <= Ranked(c)[0].1;
    assert Ranked(c)[0].1 <= MaxCount(c);
  }

  lemma HistoryIsCandidates(s: Store, fo: FileObject)
    requires Valid(s)
    ensures HasHistory(s, fo) <==> |Candidates(s, fo)| > 0
  {
    var c := Candidates(s, fo);
    if ExtensionTable(s, fo) != [] { assert ExtensionTable(s, fo)[0].0 in Keys(c); }
    if MimeTable(s, fo) != [] { assert MimeTable(s, fo)[0].0 in Keys(c); }
    if |c| > 0 { assert Keys(c)[0] in Keys(c); }
  }

  lemma SuggestionOrder(s: Store, fo: FileObject, limit: int)
    requires Valid(s)
    ensures var r := Suggestion(Candidates(s, fo), limit);
      && (0 <= limit ==> |r.0| <= limit)
      && (0 <= limit ==> |r.0| == if limit < |Candidates(s, fo)| then limit else |Candidates(s, fo)|)
      && Distinct(r.0)
      && (forall l :: l in r.0 ==> l in Keys(ExtensionTable(s, fo)) || l in Keys(MimeTable(s, fo)))
      && (forall i, j :: 0 <= i < j < |r.0| ==> Combined(s, fo, r.0[i]) >= Combined(s, fo, r.0[j]))
  {
    TopKeysAreTopK(Candidates(s, fo), limit);
  }

  lemma SuggestionDominance(s: Store, fo: FileObject, limit: int)
    requires Valid(s)
    ensures var r := Suggestion(Candidates(s, fo), limit);
      forall l, i ::
        (l in Keys(ExtensionTable(s, fo)) || l in Keys(MimeTable(s, fo))) && l !in r.0 && 0 <= i < |r.0|
        ==> Combined(s, fo, l) <= Combined(s, fo, r.0[i])
  {
    TopKeysAreTopK(Candidates(s, fo), limit);
  }

  /** `m.setdefault(key, {}); m[key][l] = m[key].get(l, 0) + 1` */
  function Bump(m: map<string, Counts>, key: string, l: string): (r: map<string, Counts>)
    ensures Bumped(m, r, key, l)
    ensures (key in m ==> DistinctKeys(m[key])) ==> DistinctKeys(r[key])
  {
    m[key := Add(Table(m, key), l, 1)]
  }

  /** `m'` is `m` with one more occurrence of `l` under `key`, and nothing
      else changed. */
  ghost predicate Bumped(m: map<string, Counts>, m': map<string, Counts>, key: string, l: string) {
    && m'.Keys == m.Keys + {key}
    && Count(Table(m', key), l) == Count(Table(m, key), l) + 1
    && (forall l' :: l' != l ==> Count(Table(m', key), l') == Count(Table(m, key), l'))
    && (forall l' :: l' in Keys(Table(m', key)) <==> l' == l || l' in Keys(Table(m, key)))
    && (forall k :: k in m && k != key ==> m'[k] == m[k])
  }

  /** `LearningStore.update`: a file without labels teaches nothing; otherwise
      its lower-cased primary label is counted once under its extension and
      once under its MIME type. */
  function Update(s: Store, fo: FileObject): (r: Store)
    ensures fo.labels == [] ==> r == s
    ensures fo.labels != [] ==>
      && Bumped(s.extensionLabels, r.extensionLabels, Extension(fo.path), Lower(fo.labels[0]))
      && Bumped(s.mimeLabels, r.mimeLabels, fo.mimeType, Lower(fo.labels[0]))
    ensures Valid(s) ==> Valid(r)
  {
    if fo.labels == [] then s
    else
      var l := Lower(fo.labels[0]);
      Store(Bump(s.extensionLabels, Extension(fo.path), l), Bump(s.mimeLabels, fo.mimeType, l))
  }

  /** Recording a file raises its primary label's combined count for files of
      the same extension and MIME type by two, and no other label's. */
  lemma UpdateCombined(s: Store, fo: FileObject)
    requires fo.labels != []
    ensures Combined(Update(s, fo), fo, Lower(fo.labels[0])) == Combined(s, fo, Lower(fo.labels[0])) + 2
    ensures forall l :: l != Lower(fo.labels[0]) ==> Combined(Update(s, fo), fo, l) == Combined(s, fo, l)
  {
  }

  /** Once a labelled file is recorded, the same kind of file gets at least
      one suggestion and a boost of at least 4 (its label's combined count is
      at least 2). */
  lemma UpdateTeaches(s: Store, fo: FileObject, limit: int)
    requires Valid(s) && fo.labels != [] && 1 <= limit
    ensures |SuggestLabels(Update(s, fo), fo, limit).0| > 0
    ensures SuggestLabels(Update(s, fo), fo, limit).1 >= 4.0
  {
    UpdateLeavesHistory(s, fo);
    HistorySuggests(Update(s, fo), fo, limit);
  }

  /** A file with history gets suggestions, and a boost of twice the top
      count up to 20. */
  lemma HistorySuggests(s: Store, fo: FileObject, limit: int)
    requires Valid(s) && HasHistory(s, fo) && 1 <= limit
    ensures |SuggestLabels(s, fo, limit).0| > 0
    ensures MaxCount(Candidates(s, fo)) >= 2 ==> SuggestLabels(s, fo, limit).1 >= 4.0
  {
  }

  lemma UpdateLeavesHistory(s: Store, fo: FileObject)
    requires Valid(s) && fo.labels != []
    ensures HasHistory(Update(s, fo), fo)
    ensures MaxCount(Candidates(Update(s, fo), fo)) >= 2
  {
    var s' := Update(s, fo);
    var l := Lower(fo.labels[0]);
    UpdateCombined(s, fo);
    var c := Candidates(s', fo);
    CountAtMostMax(c, l);
    assert l in Keys(ExtensionTable(s', fo)) || l in Keys(MimeTable(s', fo));
  }

  /** A positive count belongs to a key, and no count exceeds the maximum. */
  lemma CountAtMostMax(c: Counts, l: string)
    ensures Count(c, l) <= MaxCount(c)
    ensures Count(c, l) > 0 ==> l in Keys(c)
  {
    if Get(c, l).Some? {
      GetIsItem(c, l);
    }
  }

  /** A known label that `limit` other known labels each outrank is not
      suggested. */
  lemma OutrankedNotSuggested(s: Store, fo: FileObject, limit: int, above: seq<string>, l: string)
    requires Valid(s) && |above| == limit && Distinct(above)
    requires forall a :: a in above ==> a in Keys(ExtensionTable(s, fo)) || a in Keys(MimeTable(s, fo))
    requires forall a :: a in above ==> Combined(s, fo, a) > Combined(s, fo, l)
    ensures l !in SuggestLabels(s, fo, limit).0
  {
    var c := Candidates(s, fo);
    assert SuggestLabels(s, fo, limit).0 == Suggestion(c, limit).0;
    if |c| > 0 {
      OutrankedNotInTop(c, limit, above, l);
    }
  }

  /** Recording a label does not make it a suggestion: a file's primary
      label that `limit` other known labels each lead by more than two stays
      out of the top `limit` after the file is recorded. */
  lemma RecordedLabelCanBeOutranked(s: Store, fo: FileObject, above: seq<string>)
    requires Valid(s) && fo.labels != [] && Distinct(above)
    requires forall a :: a in above ==> a in Keys(ExtensionTable(s, fo))
    requires forall a :: a in above ==> Combined(s, fo, a) > Combined(s, fo, Lower(fo.labels[0])) + 2
    ensures Lower(fo.labels[0]) !in SuggestLabels(Update(s, fo), fo, |above|).0
  {
    var l := Lower(fo.labels[0]);
    var s' := Update(s, fo);
    UpdateCombined(s, fo);
    OutrankedNotSuggested(s', fo, |above|, above, l);
  }

  /** Suggestions depend on a file only through its extension and MIME
      type. */
  lemma SuggestionsDependOnKind(s: Store, fo: FileObject, fo': FileObject, limit: int)
    requires Valid(s)
    requires Extension(fo.path) == Extension(fo'.path) && fo.mimeType == fo'.mimeType
    ensures SuggestLabels(s, fo, limit) == SuggestLabels(s, fo', limit)
  {
    assert Candidates(s, fo) == Candidates(s, fo');
  }
}

=== FILE: metadata_processor.dfy ===
/** The metadata processor: MIME detection, metadata extraction, filename
    validation, label generation and the per-file pipeline step that
    combines them with the learning store's suggestions. Detection and
    extraction are external and come in as their outcomes. */
module MetadataProcessor {
  import opened Wrappers
  import opened Text
  import opened Dicts
  import opened Ranking
  import opened Paths
  import opened Models
  import Sorting
  import Learning

  // ---------------------------------------------------------------------
  // Filename validation

  /** `validate_filename`: a file without a (non-empty) title is consistent;
      otherwise its stem must equal the title once both are lower-cased and
      stripped of surrounding whitespace. */
  function ValidateFilename(path: Path, metadata: Dict<string, string>): (ok: bool)
    ensures Get(metadata, "title").None? ==> ok
    ensures Get(metadata, "title") == Some("") ==> ok
  {
    match Get(metadata, "title")
    case None => true
    case Some(title) =>
      title == "" || Strip(Lower(Stem(path))) == Strip(Lower(title))
  }

  /** A title that spells the stem, in any letter case, is consistent. */
  lemma TitleMatchingStemIsConsistent(path: Path, metadata: Dict<string, string>)
    requires Get(metadata, "title").Some?
    requires Lower(Get(metadata, "title").value) == Lower(Stem(path))
    ensures ValidateFilename(path, metadata)
  {
  }

  /** Upper-casing the title never changes the verdict. */
  lemma ValidationIgnoresCase(path: Path, metadata: Dict<string, string>, title: string)
    ensures ValidateFilename(path, Put(metadata, "title", Upper(title)))
         == ValidateFilename(path, Put(metadata, "title", title))
  {
    PutGet(metadata, "title", Upper(title));
    PutGet(metadata, "title", title);
    LowerOfUpper(title);
    if title == "" {
      assert Upper(title) == "";
    } else {
      assert Upper(title) != "";
    }
  }

  /** For a non-empty title and a stem that carry no surrounding whitespace,
      the file is consistent exactly when the two are equal up to letter
      case: any other title is reported as a mismatch. */
  lemma MismatchIsInconsistent(path: Path, metadata: Dict<string, string>, title: string)
    requires Get(metadata, "title") == Some(title) && title != ""
    requires Unpadded(title) && Unpadded(Stem(path))
    ensures ValidateFilename(path, metadata) <==> Lower(title) == Lower(Stem(path))
  {
    LowerUnpadded(title);
    LowerUnpadded(Stem(path));
    StripUnpadded(Lower(title));
    StripUnpadded(Lower(Stem(path)));
  }

  /** Whitespace around a non-empty title never changes the verdict. */
  lemma ValidationIgnoresPadding(path: Path, metadata: Dict<string, string>, title: string)
    ensures title != "" ==>
      ValidateFilename(path, Put(metadata, "title", " " + title + " "))
        == ValidateFilename(path, Put(metadata, "title", title))
  {
    if title != "" {
      var padded := " " + title + " ";
      assert padded != "";
      NonEmptyTitleVerdict(path, metadata, padded);
      NonEmptyTitleVerdict(path, metadata, title);
      LowerPadded(title);
      StripPadded(Lower(title));
    }
  }

  lemma NonEmptyTitleVerdict(path: Path, metadata: Dict<string, string>, title: string)
    requires title != ""
    ensures ValidateFilename(path, Put(metadata, "title", title))
         == (Strip(Lower(Stem(path))) == Strip(Lower(title)))
  {
    PutGet(metadata, "title", title);
  }

  // ---------------------------------------------------------------------
  // Label generation

  /** `ESSENTIAL_METADATA_KEYS` */
  const EssentialKeys: seq<string> := ["title", "author", "created"]

  /** An item that yields a metadata label: an essential key with a
      non-empty value. */
  predicate Labelling(item: (string, string)) {
    item.0 in EssentialKeys && item.1 != ""
  }

  /** `[value.lower() for key, value in metadata.items() if key in
      ESSENTIAL_METADATA_KEYS and value]` */
  function MetadataLabels(metadata: Dict<string, string>): (ls: seq<string>)
    ensures |ls| <= |metadata|
  {
    if |metadata| == 0 then []
    else if Labelling(metadata[0]) then [Lower(metadata[0].1)] + MetadataLabels(metadata[1..])
    else MetadataLabels(metadata[1..])
  }

  /** The metadata labels are exactly the lower-cased values of the
      labelling items. */
  lemma {:induction false} MetadataLabelsSpec(metadata: Dict<string, string>)
    ensures forall x :: x in MetadataLabels(metadata) <==>
              exists item :: item in metadata && Labelling(item) && x == Lower(item.1)
  {
    if |metadata| > 0 {
      MetadataLabelsSpec(metadata[1..]);
      assert forall item :: item in metadata <==> item == metadata[0] || item in metadata[1..];
    }
  }

  /** Labels are collected item by item, in the metadata's order. */
  lemma {:induction false} MetadataLabelsAppend(a: Dict<string, string>, b: Dict<string, string>)
    ensures MetadataLabels(a + b) == MetadataLabels(a) + MetadataLabels(b)
    decreases |a|
  {
    if |a| == 0 {
      assert a + b == b;
    } else {
      assert (a + b)[0] == a[0] && (a + b)[1..] == a[1..] + b;
      MetadataLabelsAppend(a[1..], b);
    }
  }

  /** One item contributes its lower-cased value when it is a labelling
      item, and nothing otherwise. */
  lemma MetadataLabelsOfItem(item: (string, string))
    ensures Labelling(item) ==> MetadataLabels([item]) == [Lower(item.1)]
    ensures !Labelling(item) ==> MetadataLabels([item]) == []
  {
    assert [item][1..] == [];
  }

  /** The characters `word.strip(".,!?:;()[]{}")` removes. */
  predicate IsPunctuation(c: char) {
    || c == '.' || c == ',' || c == '!' || c == '?' || c == ':' || c == ';'
    || c == '(' || c == ')' || c == '[' || c == ']' || c == '{' || c == '}'
  }

  /** `word.strip(".,!?:;()[]{}").lower()` */
  function CleanWord(w: string): string {
    Lower(StripWith(w, IsPunctuation))
  }

  /** The cleaned words longer than three characters, in order. */
  function KeptWords(ws: seq<string>): (r: seq<string>)
    ensures forall i :: 0 <= i < |r| ==> |r[i]| > 3
  {
    if |ws| == 0 then []
    else
      var rest := KeptWords(ws[1..]);
      var w := CleanWord(ws[0]);
      if |w| > 3 then [w] + rest else rest
  }

  /** The kept words are exactly the cleaned words longer than three
      characters. */
  lemma KeptWordsSpec(ws: seq<string>)
    ensures forall x :: x in KeptWords(ws) <==> exists w :: w in ws && x == CleanWord(w) && |x| > 3
  {
    forall x ensures x in KeptWords(ws) <==> exists w :: w in ws && x == CleanWord(w) && |x| > 3 {
      KeptWord(ws, x);
    }
  }

  /** One word at a time: `x` is kept exactly when some word cleans to it. */
  lemma {:induction false} KeptWord(ws: seq<string>, x: string)
    ensures x in KeptWords(ws) <==> exists w :: w in ws && x == CleanWord(w) && |x| > 3
  {
    if |ws| > 0 {
      var rest := ws[1..];
      KeptWord(rest, x);
      if x in KeptWords(ws) && !(|CleanWord(ws[0])| > 3 && x == CleanWord(ws[0])) {
        var w :| w in rest && x == CleanWord(w) && |x| > 3;
        assert w in ws;
      }
      if exists w :: w in ws && x == CleanWord(w) && |x| > 3 {
        var w :| w in ws && x == CleanWord(w) && |x| > 3;
        if w != ws[0] {
          assert w in rest;
        }
      }
    }
  }

  /** `" ".join(content.split())[:2000]` */
  function SampleText(content: string): string {
    Prefix(Text.Join(" ", Words(content)), 2000)
  }

  /** The words the frequency count runs over. */
  function SampleWords(content: string): seq<string> {
    KeptWords(Words(SampleText(content)))
  }

  /** The frequency fallback: the five most frequent sample words, each word's
      frequency its number of occurrences. */
  function FrequencyLabels(content: string): seq<string> {
    TopKeys(Tally(SampleWords(content)), 5)
  }

  /** `generate_labels(content, metadata)`: the lower-cased essential
      metadata values with confidence 90 when there are any; otherwise the
      most frequent words of the content, with confidence 50 plus 10 per
      label (no labels, no confidence). The TF-IDF branch is not modelled. */
  function GenerateLabels(content: string, metadata: Dict<string, string>): (r: (seq<string>, real))
    ensures |r.0| <= 5
    ensures 0.0 <= r.1 <= 100.0
    ensures r.0 == [] <==> r.1 == 0.0
    ensures MetadataLabels(metadata) != [] ==> r == (Prefix(MetadataLabels(metadata), 5), 90.0)
    ensures MetadataLabels(metadata) == [] ==> r.0 == FrequencyLabels(content)
    ensures MetadataLabels(metadata) == [] && r.0 != [] ==> r.1 == 50.0 + 10.0 * |r.0| as real
  {
    var fromMetadata := MetadataLabels(metadata);
    if fromMetadata != [] then (Prefix(fromMetadata, 5), 90.0)
    else if SampleText(content) == "" then
      assert FrequencyLabels(content) == [] by { SampleOfNothing(content); }
      ([], 0.0)
    else
      var labels := FrequencyLabels(content);
      assert |labels| <= 5 by { TopKeysAreTopK(Tally(SampleWords(content)), 5); }
      (labels, if labels != [] then Min(100.0, 50.0 + |labels| as real * 10.0) else 0.0)
  }

  lemma SampleOfNothing(content: string)
    requires SampleText(content) == ""
    ensures FrequencyLabels(content) == []
  {
    assert Words("") == [];
    assert Tally(SampleWords(content)) == [];
  }

  /** The frequency labels are distinct sample words, listed from the most to
      the least frequent, and no sample word left out occurs more often than
      any word chosen; there are five of them unless the sample has fewer
      distinct words. */
  lemma FrequencyLabelsAreTopWords(content: string)
    ensures var ws := SampleWords(content); var ls := FrequencyLabels(content);
      && Distinct(ls)
      && |ls| == (if |Dedup(ws)| < 5 then |Dedup(ws)| else 5)
      && (forall l :: l in ls ==> l in ws)
      && (forall i, j :: 0 <= i < j < |ls| ==> multiset(ws)[ls[i]] >= multiset(ws)[ls[j]])
      && (forall w, i :: w in ws && w !in ls && 0 <= i < |ls| ==> multiset(ws)[w] <= multiset(ws)[ls[i]])
  {
    var ws := SampleWords(content);
    var d := Tally(ws);
    TallyKeys(ws);
    TallyCounts(ws);
    TopKeysAreTopK(d, 5);
  }

  /** Ties between equally frequent words go to the word that occurs first in
      the sample: of two labels with equal counts the one met first is listed
      first, and a sample word left out with the same count as a label is met
      after that label. */
  lemma FrequencyLabelsTieBreak(content: string)
    ensures var ws := SampleWords(content); var ls := FrequencyLabels(content);
      && (forall i, j :: 0 <= i < j < |ls| && multiset(ws)[ls[i]] == multiset(ws)[ls[j]]
            ==> ls[i] in ws && ls[j] in ws && Sorting.IndexOf(ws, ls[i]) < Sorting.IndexOf(ws, ls[j]))
      && (forall w, i :: w in ws && w !in ls && 0 <= i < |ls| && multiset(ws)[w] == multiset(ws)[ls[i]]
            ==> ls[i] in ws && Sorting.IndexOf(ws, ls[i]) < Sorting.IndexOf(ws, w))
  {
    var ws := SampleWords(content);
    var ls := FrequencyLabels(content);
    var d := Tally(ws);
    TallyKeys(ws);
    TallyCounts(ws);
    TopKeysTieBreak(d, 5);
    forall i, j | 0 <= i < j < |ls| && multiset(ws)[ls[i]] == multiset(ws)[ls[j]]
      ensures ls[i] in ws && ls[j] in ws && Sorting.IndexOf(ws, ls[i]) < Sorting.IndexOf(ws, ls[j])
    {
      assert Count(d, ls[i]) == Count(d, ls[j]);
      DedupOrder(ws, ls[i], ls[j]);
    }
    forall w, i | w in ws && w !in ls && 0 <= i < |ls| && multiset(ws)[w] == multiset(ws)[ls[i]]
      ensures ls[i] in ws && Sorting.IndexOf(ws, ls[i]) < Sorting.IndexOf(ws, w)
    {
      assert w in Keys(d) && Count(d, w) == Count(d, ls[i]);
      DedupOrder(ws, ls[i], w);
    }
  }

  // ---------------------------------------------------------------------
  // Processing one file

  /** What the extraction strategy returns: the metadata and the text. */
  datatype Extracted = Extracted(metadata: Dict<string, string>, content: string)

  const ImageExtensions: set<string> := {".jpg", ".jpeg", ".png", ".gif", ".bmp", ".webp"}

  /** An image by MIME type or by extension. */
  predicate IsImage(path: Path, mimeType: string) {
    StartsWith(mimeType, "image/") || Extension(path) in ImageExtensions
  }

  /** The labels that mark a file as labelled by its media type alone, and
      which learned suggestions replace. */
  predicate IsPlaceholder(labels: seq<string>) {
    labels == [] || labels == ["photo"] || labels == ["video"] || labels == ["audio"]
  }

  /** The media-type defaults applied after label generation: an image gets
      the label "photo" if it has none and a confidence of at least 85; an
      unlabelled video or audio file gets "video" or "audio" with confidence
      85. */
  function MediaDefaults(path: Path, mimeType: string, labels: seq<string>, confidence: real)
    : (r: (seq<string>, real))
    requires 0.0 <= confidence <= 100.0
    ensures 0.0 <= r.1 <= 100.0
    ensures labels != [] ==> r.0 == labels
    ensures IsImage(path, mimeType) ==> r.0 != [] && r.1 >= 85.0 && r.1 >= confidence
    ensures IsImage(path, mimeType) && labels == [] ==> r.0 == ["photo"]
    ensures !IsImage(path, mimeType) && labels != [] ==> r.1 == confidence
    ensures !IsImage(path, mimeType) && labels == [] && StartsWith(mimeType, "video/") ==> r == (["video"], 85.0)
    ensures (!IsImage(path, mimeType) && labels == [] && !StartsWith(mimeType, "video/")
             && StartsWith(mimeType, "audio/")) ==> r == (["audio"], 85.0)
    ensures (labels == [] && !IsImage(path, mimeType) && !StartsWith(mimeType, "video/")
             && !StartsWith(mimeType, "audio/")) ==> r == ([], confidence)
  {
    var (l1, c1) := if IsImage(path, mimeType) then (if labels == [] then ["photo"] else labels, Max(confidence, 85.0))
                    else (labels, confidence);
    var (l2, c2) := if l1 == [] && StartsWith(mimeType, "video/") then (["video"], 85.0) else (l1, c1);
    if l2 == [] && StartsWith(mimeType, "audio/") then (["audio"], 85.0) else (l2, c2)
  }

  /** The learning step: when the store has suggestions for the file, they
      replace missing or placeholder labels, and the boost is added to the
      confidence, capped at 100. */
  function WithSuggestions(labels: seq<string>, confidence: real, suggested: seq<string>, boost: real)
    : (r: (seq<string>, real))
    requires 0.0 <= confidence <= 100.0 && 0.0 <= boost
    ensures 0.0 <= r.1 <= 100.0
    ensures suggested == [] ==> r == (labels, confidence)
    ensures suggested != [] ==> r.0 == (if IsPlaceholder(labels) then suggested else labels)
    ensures suggested != [] ==> r.1 == Min(100.0, confidence + boost) && r.1 >= confidence
  {
    if suggested == [] then (labels, confidence)
    else (if IsPlaceholder(labels) then suggested else labels, Min(100.0, confidence + boost))
  }

  /** `process_file(path)`, given the MIME detector's outcome, the extraction
      strategy's outcome and the optional learning store. A detection failure
      is not caught; an extraction failure is recorded in `errors` and leaves
      every other field at its default. */
  function ProcessFile(path: Path, detected: Result<string>, extracted: Result<Extracted>,
                       store: Option<Learning.Store>): (r: Result<FileObject>)
    requires store.Some? ==> Learning.Valid(store.value)
    ensures r.Failure? <==> detected.Failure?
    ensures r.Failure? ==> r.error == detected.error
    ensures r.Success? ==> r.value.path == path && r.value.mimeType == detected.value
    ensures r.Success? ==> r.value.targetPath == None
    ensures r.Success? ==> 0.0 <= r.value.confidence <= 100.0
    ensures r.Success? && extracted.Failure? ==>
              r.value == NewFileObject(path, detected.value).(errors := [extracted.error])
    ensures r.Success? && extracted.Success? ==>
              && r.value.errors == []
              && r.value.metadata == extracted.value.metadata
              && r.value.isConsistent == ValidateFilename(path, extracted.value.metadata)
    ensures r.Success? && extracted.Success? && IsImage(path, detected.value) ==>
              r.value.labels != [] && r.value.confidence >= 85.0
    ensures r.Success? && extracted.Success? ==>
              (r.value.labels, r.value.confidence) == Labelled(NewFileObject(path, detected.value), extracted.value, store)
  {
    match detected
    case Failure(e) => Failure(e)
    case Success(mimeType) =>
      var fo := NewFileObject(path, mimeType);
      match extracted
      case Failure(e) => Success(fo.(errors := fo.errors + [e]))
      case Success(ex) =>
        var (labels, confidence) := Labelled(fo, ex, store);
        Success(fo.(metadata := ex.metadata, isConsistent := ValidateFilename(path, ex.metadata),
                    labels := labels, confidence := confidence))
  }

  /** The labels and confidence `process_file` settles on for an extracted
      file: generated from the metadata and the first 500 characters of the
      text, completed by the media-type defaults, then by the store. */
  function Labelled(fo: FileObject, ex: Extracted, store: Option<Learning.Store>): (r: (seq<string>, real))
    requires store.Some? ==> Learning.Valid(store.value)
    ensures 0.0 <= r.1 <= 100.0
    ensures IsImage(fo.path, fo.mimeType) ==> r.0 != [] && r.1 >= 85.0
    ensures store.None? ==> r == MediaDefaults(fo.path, fo.mimeType, GenerateLabels(Prefix(ex.content, 500), ex.metadata).0,
                                               GenerateLabels(Prefix(ex.content, 500), ex.metadata).1)
  {
    var m := Defaulted(fo, ex);
    if store.None? then m
    else
      var sg := Learning.SuggestLabels(store.value, fo, 3);
      WithSuggestions(m.0, m.1, sg.0, sg.1)
  }

  /** The generated labels completed by the media-type defaults. */
  function Defaulted(fo: FileObject, ex: Extracted): (m: (seq<string>, real))
    ensures 0.0 <= m.1 <= 100.0
    ensures IsImage(fo.path, fo.mimeType) ==> m.0 != [] && m.1 >= 85.0
    ensures m == MediaDefaults(fo.path, fo.mimeType, GenerateLabels(Prefix(ex.content, 500), ex.metadata).0,
                               GenerateLabels(Prefix(ex.content, 500), ex.metadata).1)
  {
    var g := GenerateLabels(Prefix(ex.content, 500), ex.metadata);
    MediaDefaults(fo.path, fo.mimeType, g.0, g.1)
  }

  /** With a store, the media-type defaults are completed by the store's
      top three suggestions for the file and their boost. */
  lemma LabelledWithStore(fo: FileObject, ex: Extracted, s: Learning.Store)
    requires Learning.Valid(s)
    ensures var g := GenerateLabels(Prefix(ex.content, 500), ex.metadata);
      var m := MediaDefaults(fo.path, fo.mimeType, g.0, g.1);
      var sg := Learning.SuggestLabels(s, fo, 3);
      Labelled(fo, ex, Some(s)) == WithSuggestions(m.0, m.1, sg.0, sg.1)
  {
  }

  /** Consulting the store never lowers the confidence. */
  lemma LearningNeverLowersConfidence(fo: FileObject, ex: Extracted, s: Learning.Store)
    requires Learning.Valid(s)
    ensures Labelled(fo, ex, Some(s)).1 >= Labelled(fo, ex, None).1
  {
  }

  /** Self-healing: once a labelled file has been recorded, any file of the
      same extension and MIME type is labelled, even when its metadata and
      text yield nothing. */
  lemma RecordedKindIsLabelled(s: Learning.Store, prior: FileObject, fo: FileObject, ex: Extracted)
    requires Learning.Valid(s) && prior.labels != []
    requires Extension(prior.path) == Extension(fo.path) && prior.mimeType == fo.mimeType
    ensures Labelled(fo, ex, Some(Learning.Update(s, prior))).0 != []
  {
    var s' := Learning.Update(s, prior);
    Learning.UpdateTeaches(s, prior, 3);
    Learning.SuggestionsDependOnKind(s', prior, fo, 3);
    SuggestedIsLabelled(fo, ex, s');
  }

  /** A file the store has suggestions for ends up labelled. */
  lemma SuggestedIsLabelled(fo: FileObject, ex: Extracted, s: Learning.Store)
    requires Learning.Valid(s) && Learning.SuggestLabels(s, fo, 3).0 != []
    ensures Labelled(fo, ex, Some(s)).0 != []
  {
  }
}

=== FILE: models.dfy ===
/** The per-file record that flows through the pipeline. */
module Models {
  import opened Wrappers
  import opened Text
  import opened Paths
  import opened Dicts

  /** `FileObject`: a file undergoing processing. The confidence is a real
      number (Python float); `targetPath` is set only after a successful move. */
  datatype FileObject = FileObject(
    path: Path,
    mimeType: string,
    metadata: Dict<string, string>,
    labels: seq<string>,
    confidence: real,
    isConsistent: bool,
    targetPath: Option<Path>,
    errors: seq<string>)

  /** `FileObject(path=path, mime_type=mime_type)`: every other field takes
      its declared default. */
  function NewFileObject(path: Path, mimeType: string): FileObject {
    FileObject(path, mimeType, [], [], 0.0, true, None, [])
  }

  /** `path.suffix.lower()`, the key of the extension table and of the
      image-extension and code-extension tests. */
  function Extension(path: Path): string {
    Lower(Suffix(path))
  }

  function Min(a: real, b: real): real {
    if a <= b then a else b
  }

  function Max(a: real, b: real): real {
    if a >= b then a else b
  }
}

=== FILE: organization_engine.dfy ===
/** The organization engine: chooses each file's category directory and
    moves it there, or to the staging directory when it had errors or too
    little confidence. Whether a move succeeds is external and comes in as
    an oracle. */
module OrganizationEngine {
  import opened Wrappers
  import opened Text
  import opened Paths
  import opened FileSystems
  import opened Models

  const CodeExtensions: set<string> := {".py", ".js", ".ts", ".java", ".go", ".rb"}

  /** A MIME type the Media directories take. */
  predicate MediaMime(mimeType: string) {
    StartsWith(mimeType, "image/") || StartsWith(mimeType, "video/") || StartsWith(mimeType, "audio/")
  }

  /** No rule before the label fallback applies. */
  predicate Unrouted(fo: FileObject) {
    && !MediaMime(fo.mimeType) && fo.mimeType != "application/pdf"
    && Extension(fo.path) !in CodeExtensions && !StartsWith(fo.mimeType, "text/")
  }

  /** `determine_category`: a relative directory chosen by MIME type, then by
      extension, then by the title-cased primary label. Each rule applies only
      when none before it does. */
  function DetermineCategory(fo: FileObject): (r: Path)
    ensures StartsWith(fo.mimeType, "image/") ==> r == ["Media", "Photos"]
    ensures !StartsWith(fo.mimeType, "image/") && StartsWith(fo.mimeType, "video/") ==> r == ["Media", "Videos"]
    ensures (!StartsWith(fo.mimeType, "image/") && !StartsWith(fo.mimeType, "video/")
             && StartsWith(fo.mimeType, "audio/")) ==> r == ["Media", "Audio"]
    ensures !MediaMime(fo.mimeType) && fo.mimeType == "application/pdf" ==> r == ["Documents", "PDFs"]
    ensures (!MediaMime(fo.mimeType) && fo.mimeType != "application/pdf"
             && Extension(fo.path) in CodeExtensions) ==> r == ["Code", "Scripts"]
    ensures (!MediaMime(fo.mimeType) && fo.mimeType != "application/pdf"
             && Extension(fo.path) !in CodeExtensions && StartsWith(fo.mimeType, "text/"))
            ==> r == ["Documents", "Text"]
    ensures Unrouted(fo) && fo.labels != [] ==> r == JoinStr(["Documents"], Title(fo.labels[0]))
    ensures Unrouted(fo) && fo.labels == [] ==> r == ["Documents", "Uncategorized"]
    ensures !Unrouted(fo) ==> |r| == 2 && r[0] in {"Media", "Documents", "Code"}
  {
    var l := if fo.labels != [] then fo.labels[0] else "uncategorized";
    var extension := Extension(fo.path);
    if StartsWith(fo.mimeType, "image/") then ["Media", "Photos"]
    else if StartsWith(fo.mimeType, "video/") then ["Media", "Videos"]
    else if StartsWith(fo.mimeType, "audio/") then ["Media", "Audio"]
    else if fo.mimeType == "application/pdf" then ["Documents", "PDFs"]
    else if extension in CodeExtensions then ["Code", "Scripts"]
    else if StartsWith(fo.mimeType, "text/") then ["Documents", "Text"]
    else
      assert fo.labels == [] ==> JoinStr(["Documents"], Title(l)) == ["Documents", "Uncategorized"] by {
        if fo.labels == [] {
          UncategorizedCategory(l);
        }
      }
      JoinStr(["Documents"], Title(l))
  }

  lemma UncategorizedCategory(u: string)
    requires u == "uncategorized"
    ensures JoinStr(["Documents"], Title(u)) == ["Documents", "Uncategorized"]
  {
    assert u[0] == 'u' && u[1..] == "ncategorized";
    LowerWordTitle(u[1..]);
    var t := Title(u);
    assert t == [UpperChar('u')] + u[1..];
    forall i | 0 <= i < |t| ensures t[i] != '/' {
      assert IsLetter(u[i]);
    }
    assert UpperChar('u') == 'U';
    assert t == "Uncategorized";
    JoinName(["Documents"], t);
  }

  /** A run of lower-case letters continuing a word is left as it is. */
  lemma {:induction false} LowerWordTitle(s: string)
    requires forall i :: 0 <= i < |s| ==> IsLower(s[i])
    ensures TitleFrom(s, true) == s
    decreases |s|
  {
    if |s| > 0 {
      LowerWordTitle(s[1..]);
      assert LowerChar(s[0]) == s[0];
      assert s == [s[0]] + s[1..];
    }
  }

  /** A label that names one directory (no "/", not "" or ".") gives exactly
      one directory under Documents, its title-cased form. */
  lemma PlainLabelCategory(fo: FileObject)
    requires Unrouted(fo) && fo.labels != []
    requires fo.labels[0] != "" && fo.labels[0] != "." && '/' !in fo.labels[0]
    ensures DetermineCategory(fo) == ["Documents", Title(fo.labels[0])]
  {
    var l := fo.labels[0];
    var t := Title(l);
    forall i | 0 <= i < |t| ensures t[i] != '/' {
      assert l[i] != '/';
    }
    assert t != "." by {
      if |t| == 1 {
        assert l[0] != '.';
      }
    }
    JoinName(["Documents"], t);
  }

  /** The routing decision: a file with errors or below the threshold is
      staged for review. */
  predicate Staged(fo: FileObject, threshold: real) {
    fo.errors != [] || fo.confidence < threshold
  }

  /** The directory a file is sent to. */
  function DestinationDir(root: Path, stagingRoot: Path, threshold: real, fo: FileObject): Path {
    if Staged(fo, threshold) then stagingRoot else Paths.Join(root, DetermineCategory(fo))
  }

  /** `destination_dir / file_object.path.name` */
  function Destination(root: Path, stagingRoot: Path, threshold: real, fo: FileObject): Path {
    JoinStr(DestinationDir(root, stagingRoot, threshold, fo), Name(fo.path))
  }

  datatype Summary = Summary(moved: nat, staged: nat)

  /** Files the routing decision stages: an independent count. */
  function CountStaged(files: seq<FileObject>, threshold: real): (n: nat)
    ensures n <= |files|
  {
    if |files| == 0 then 0
    else (if Staged(files[0], threshold) then 1 else 0) + CountStaged(files[1..], threshold)
  }

  /** The run's outcome: the tree after the moves, the file objects with their
      target paths, and the summary counts. */
  datatype Outcome = Outcome(fs: FileSystem, files: seq<FileObject>, summary: Summary)

  /** `moveOk(src, dst)`: whether `shutil.move(src, dst)` succeeds. */
  type MoveOracle = (Path, Path) -> bool

  /** The move is attempted, the file not being in place already, and it
      succeeds. */
  predicate Moves(root: Path, stagingRoot: Path, threshold: real, fo: FileObject, moveOk: MoveOracle) {
    var dst := Destination(root, stagingRoot, threshold, fo);
    dst != fo.path && moveOk(fo.path, dst)
  }

  /** The file's target path after its turn: its destination when it moved,
      and unchanged otherwise. */
  function MovedTo(root: Path, stagingRoot: Path, threshold: real, fo: FileObject, moveOk: MoveOracle): Option<Path> {
    if Moves(root, stagingRoot, threshold, fo, moveOk) then Some(Destination(root, stagingRoot, threshold, fo))
    else fo.targetPath
  }

  /** One file: create its destination directory (a failure here is not
      caught), then move it unless it is already in place. */
  function OrganizeOne(fs: FileSystem, root: Path, stagingRoot: Path, threshold: real,
                       fo: FileObject, moveOk: MoveOracle): (r: Result<(FileSystem, FileObject)>)
    ensures r.Success? <==> Prefixes(DestinationDir(root, stagingRoot, threshold, fo)) !! Files(fs)
    ensures r.Success? ==> r.value.1 == fo.(targetPath := r.value.1.targetPath)
    ensures r.Success? ==> r.value.1.targetPath == MovedTo(root, stagingRoot, threshold, fo, moveOk)
  {
    var dir := DestinationDir(root, stagingRoot, threshold, fo);
    match MakeDirs(fs, dir)
    case Failure(e) => Failure(e)
    case Success(fs1) =>
      var dst := JoinStr(dir, Name(fo.path));
      if dst == fo.path then Success((fs1, fo))
      else if moveOk(fo.path, dst) then Success((Move(fs1, fo.path, dst), fo.(targetPath := Some(dst))))
      else Success((fs1, fo))
  }

  /** One file's effect on the tree: a successful move takes the file from
      its path to its destination, replacing what was there; otherwise the
      files stay as they were. Directories are only added, except one
      replaced at the destination. */
  lemma OrganizeOneTree(fs: FileSystem, root: Path, stagingRoot: Path, threshold: real,
                        fo: FileObject, moveOk: MoveOracle)
    requires OrganizeOne(fs, root, stagingRoot, threshold, fo, moveOk).Success?
    ensures var fs' := OrganizeOne(fs, root, stagingRoot, threshold, fo, moveOk).value.0;
      var dst := Destination(root, stagingRoot, threshold, fo);
      && (Moves(root, stagingRoot, threshold, fo, moveOk) ==> Files(fs') == Files(fs) - {fo.path, dst} + {dst})
      && (!Moves(root, stagingRoot, threshold, fo, moveOk) ==> Files(fs') == Files(fs))
      && Dirs(fs) - {fo.path, dst} <= Dirs(fs')
      && Prefixes(DestinationDir(root, stagingRoot, threshold, fo)) - {fo.path, dst} <= Dirs(fs')
  {
  }

  /** The loop of `organize_files` over the remaining files. */
  function OrganizeFrom(fs: FileSystem, root: Path, stagingRoot: Path, threshold: real,
                        files: seq<FileObject>, moveOk: MoveOracle): (r: Result<Outcome>)
    ensures r.Success? ==> |r.value.files| == |files|
    ensures r.Success? ==> r.value.summary.staged == CountStaged(files, threshold)
    ensures r.Success? ==> r.value.summary.moved + r.value.summary.staged == |files|
    decreases |files|
  {
    if |files| == 0 then Success(Outcome(fs, [], Summary(0, 0)))
    else
      match OrganizeOne(fs, root, stagingRoot, threshold, files[0], moveOk)
      case Failure(e) => Failure(e)
      case Success((fs1, fo)) =>
        match OrganizeFrom(fs1, root, stagingRoot, threshold, files[1..], moveOk)
        case Failure(e) => Failure(e)
        case Success(rest) =>
          var staged := Staged(files[0], threshold);
          Success(Outcome(rest.fs, [fo] + rest.files,
            Summary(rest.summary.moved + (if staged then 0 else 1),
                    rest.summary.staged + (if staged then 1 else 0))))
  }

  /** `organize_files(root, files)`: makes the staging directory, then routes
      every file. */
  function OrganizeFiles(fs: FileSystem, root: Path, stagingName: string, threshold: real,
                         files: seq<FileObject>, moveOk: MoveOracle): (r: Result<Outcome>)
    ensures MakeDirs(fs, JoinStr(root, stagingName)).Failure? ==> r.Failure?
    ensures r.Success? ==> |r.value.files| == |files|
    ensures r.Success? ==> r.value.summary.staged == CountStaged(files, threshold)
    ensures r.Success? ==> r.value.summary.moved == |files| - CountStaged(files, threshold)
  {
    var stagingRoot := JoinStr(root, stagingName);
    match MakeDirs(fs, stagingRoot)
    case Failure(e) => Failure(e)
    case Success(fs1) => OrganizeFrom(fs1, root, stagingRoot, threshold, files, moveOk)
  }

  /** Each file object comes back unchanged but for its target path, which is
      its destination exactly when its move was attempted and succeeded. */
  lemma {:induction false} OrganizedObjects(fs: FileSystem, root: Path, stagingRoot: Path, threshold: real,
                                            files: seq<FileObject>, moveOk: MoveOracle)
    requires OrganizeFrom(fs, root, stagingRoot, threshold, files, moveOk).Success?
    ensures var out := OrganizeFrom(fs, root, stagingRoot, threshold, files, moveOk).value.files;
      forall i :: 0 <= i < |files| ==>
        out[i] == files[i].(targetPath := MovedTo(root, stagingRoot, threshold, files[i], moveOk))
    decreases |files|
  {
    if |files| > 0 {
      var one := OrganizeOne(fs, root, stagingRoot, threshold, files[0], moveOk);
      var fs1 := one.value.0;
      OrganizedObjects(fs1, root, stagingRoot, threshold, files[1..], moveOk);
      var out := OrganizeFrom(fs, root, stagingRoot, threshold, files, moveOk).value.files;
      var rest := OrganizeFrom(fs1, root, stagingRoot, threshold, files[1..], moveOk).value.files;
      assert out == [one.value.1] + rest;
      forall i | 1 <= i < |files|
        ensures out[i] == files[i].(targetPath := MovedTo(root, stagingRoot, threshold, files[i], moveOk))
      {
        assert out[i] == rest[i - 1] && files[i] == files[1..][i - 1];
      }
    }
  }

  /** A directory made before the loop survives it, unless some file was at
      that path or sent to it. */
  lemma {:induction false} OrganizeFromKeepsDir(fs: FileSystem, root: Path, stagingRoot: Path, threshold: real,
                                                files: seq<FileObject>, moveOk: MoveOracle, d: Path)
    requires OrganizeFrom(fs, root, stagingRoot, threshold, files, moveOk).Success?
    requires d in Dirs(fs)
    requires forall i :: 0 <= i < |files| ==>
      files[i].path != d && Destination(root, stagingRoot, threshold, files[i]) != d
    ensures d in Dirs(OrganizeFrom(fs, root, stagingRoot, threshold, files, moveOk).value.fs)
    decreases |files|
  {
    if |files| > 0 {
      OrganizeOneTree(fs, root, stagingRoot, threshold, files[0], moveOk);
      var fs1 := OrganizeOne(fs, root, stagingRoot, threshold, files[0], moveOk).value.0;
      OrganizeFromKeepsDir(fs1, root, stagingRoot, threshold, files[1..], moveOk, d);
    }
  }

  /** The staging directory exists after `organize_files`, even when no file
      was staged, unless some file was at that path or sent to it. */
  lemma StagingExists(fs: FileSystem, root: Path, stagingName: string, threshold: real,
                      files: seq<FileObject>, moveOk: MoveOracle)
    requires OrganizeFiles(fs, root, stagingName, threshold, files, moveOk).Success?
    requires |JoinStr(root, stagingName)| > 0
    requires forall i :: 0 <= i < |files| ==>
      var stagingRoot := JoinStr(root, stagingName);
      files[i].path != stagingRoot && Destination(root, stagingRoot, threshold, files[i]) != stagingRoot
    ensures JoinStr(root, stagingName) in Dirs(OrganizeFiles(fs, root, stagingName, threshold, files, moveOk).value.fs)
  {
    var stagingRoot := JoinStr(root, stagingName);
    var fs1 := MakeDirs(fs, stagingRoot).value;
    assert stagingRoot[..|stagingRoot|] == stagingRoot;
    OrganizeFromKeepsDir(fs1, root, stagingRoot, threshold, files, moveOk, stagingRoot);
  }
}

=== FILE: paths.dfy ===
/** Pure paths as pathlib sees them on POSIX: a path is its tuple of `parts`,
    and an absolute path starts with the part "/". */
module Paths {
  import opened Text

  type Path = seq<string>

  const Anchor: string := "/"

  predicate IsAbsolute(p: Path) {
    |p| > 0 && p[0] == Anchor
  }

  /** `p.name`: the final part; empty for the empty path and for "/". */
  function Name(p: Path): string {
    if |p| == 0 || (|p| == 1 && IsAbsolute(p)) then "" else p[|p| - 1]
  }

  /** Index of the dot that starts `p.suffix`, when there is one: the last dot
      of the name, provided it is neither the first nor the last character. */
  function SuffixDot(name: string): (i: int)
    ensures i == -1 || 0 < i < |name| - 1
    ensures 0 < i ==> name[i] == '.' && '.' !in name[i + 1..]
    ensures i == -1 ==> forall k :: 0 < k < |name| - 1 && name[k] == '.' ==> '.' in name[k + 1..]
  {
    var i := LastIndexOf(name, '.');
    if 0 < i < |name| - 1 then i else -1
  }

  /** `p.suffix`: the name from its last dot on, when that dot is neither the
      name's first nor its last character, and "" otherwise. */
  function Suffix(p: Path): (r: string)
    ensures r == "" || (|r| >= 2 && r[0] == '.' && '.' !in r[1..])
    ensures r != "" ==> |r| < |Name(p)| && r == Name(p)[|Name(p)| - |r|..]
    ensures forall k :: 0 < k < |Name(p)| - 1 && Name(p)[k] == '.' && '.' !in Name(p)[k + 1..]
              ==> r == Name(p)[k..]
  {
    var n := Name(p);
    var i := SuffixDot(n);
    if i == -1 then "" else n[i..]
  }

  /** `p.stem` */
  function Stem(p: Path): (r: string)
    ensures r + Suffix(p) == Name(p)
  {
    var n := Name(p);
    var i := SuffixDot(n);
    if i == -1 then n else n[..i]
  }

  /** A final part built from a stem, a dot and a dot-free extension splits
      back into them: `PurePath("d/a.b.txt")` has suffix ".txt" and stem
      "a.b". */
  lemma SuffixOfDottedName(dir: Path, stem: string, ext: string)
    requires stem != "" && ext != "" && '.' !in ext
    ensures Suffix(dir + [stem + "." + ext]) == "." + ext
    ensures Stem(dir + [stem + "." + ext]) == stem
  {
    var n := stem + "." + ext;
    var p := dir + [n];
    assert n[|stem|] == '.';
    assert Name(p) == n;
    assert n[|stem| + 1..] == ext;
    assert n[|stem|..] == "." + ext;
  }

  /** A name ending in a dot has no suffix, whatever dots come before:
      `PurePath("a.b.").suffix` is "". */
  lemma TrailingDotNoSuffix(dir: Path, name: string)
    requires name != "" && name[|name| - 1] == '.'
    ensures Suffix(dir + [name]) == ""
    ensures Stem(dir + [name]) == name
  {
    assert name != Anchor;
    assert Name(dir + [name]) == name;
    assert LastIndexOf(name, '.') == |name| - 1;
  }

  /** The parts that the string `s` contributes to a path: split on "/",
      dropping empty and "." segments. */
  function Components(s: string): seq<string> {
    Segments(SplitOn(s, '/'))
  }

  function Segments(fields: seq<string>): (r: seq<string>)
    ensures forall k :: 0 <= k < |r| ==> r[k] in fields && r[k] != "" && r[k] != "."
  {
    if |fields| == 0 then []
    else if fields[0] == "" || fields[0] == "." then Segments(fields[1..])
    else [fields[0]] + Segments(fields[1..])
  }

  /** `PurePath(s)` */
  function Parse(s: string): Path {
    (if StartsWith(s, "/") then [Anchor] else []) + Components(s)
  }

  /** `a / b`: an absolute right operand replaces the left one. */
  function Join(a: Path, b: Path): Path {
    if IsAbsolute(b) then b else a + b
  }

  /** `a / s` for a string `s`. */
  function JoinStr(a: Path, s: string): Path {
    Join(a, Parse(s))
  }

  /** Joining a plain name (no "/", not "" or ".") appends exactly one part. */
  lemma JoinName(a: Path, s: string)
    requires s != "" && s != "." && '/' !in s
    ensures JoinStr(a, s) == a + [s]
  {
    assert CountChar(s, '/') == 0 by { CountCharAbsent(s, '/'); }
    var f := SplitOn(s, '/');
    assert |f| == 1;
    SplitOnWithout(s, '/');
    assert Segments(f) == [s] by { assert Segments(f[1..]) == []; }
    assert !StartsWith(s, "/") by { if |s| > 0 { assert s[0] != '/'; } }
  }

  lemma CountCharAbsent(s: string, c: char)
    requires c !in s
    ensures CountChar(s, c) == 0
  {
    if |s| > 0 {
      assert s[1..] <= s[1..];
      assert forall k :: 0 <= k < |s[1..]| ==> s[1..][k] == s[k + 1];
      CountCharAbsent(s[1..], c);
    }
  }

  lemma {:induction false} SplitOnWithout(s: string, c: char)
    requires c !in s
    ensures SplitOn(s, c) == [s]
  {
    if |s| > 0 {
      assert c !in s[1..] by {
        forall k | 0 <= k < |s[1..]| ensures s[1..][k] != c { assert s[1..][k] == s[k + 1]; }
      }
      SplitOnWithout(s[1..], c);
      assert [s[0]] + s[1..] == s;
    }
  }

  /** `d` is a proper ancestor of `p`. */
  predicate StrictlyBelow(d: Path, p: Path) {
    |d| < |p| && p[..|d|] == d
  }

  /** `p` is an entry of directory `d`. */
  predicate IsChild(d: Path, p: Path) {
    |p| == |d| + 1 && p[..|d|] == d
  }

  /** `p.parent` for a path with at least one part beyond its anchor. */
  function Parent(p: Path): Path
    requires |p| > 0
  {
    p[..|p| - 1]
  }

  /** The length of the shortest entry of `p.parents`: the anchor is a parent
      of an absolute path, and "." (no parts) a parent of a relative one. */
  function ParentsFrom(p: Path): nat {
    if IsAbsolute(p) then 1 else 0
  }
}

=== FILE: pipeline.dfy ===
/** The command-line pipeline: set up the log, load the learning state,
    remove empty directories, scan, process every scanned file, organize the
    results, learn from the files routed to a category, and save the learning
    state once. */
module Pipeline {
  import opened Wrappers
  import opened Text
  import opened Paths
  import opened FileSystems
  import opened Models
  import opened Dicts
  import opened Learning
  import MetadataProcessor
  import CleanupEngine
  import FileScanner
  import OrganizationEngine

  const ConfidenceThreshold: real := 70.0
  const StagingDirName := "_UNKNOWN_NEEDS_REVIEW"

  /** The command line: the root and the optional flags. */
  datatype Args = Args(root: Path, threshold: Option<real>, stagingName: Option<string>,
                       logDir: Option<Path>, statePath: Option<Path>)

  datatype Settings = Settings(root: Path, threshold: real, stagingName: string, logDir: Path, statePath: Path)

  /** `main()`: the root is resolved; the log goes to the root and the
      learning state to a file in the root unless given elsewhere. */
  function Configure(args: Args, resolve: FileScanner.Resolver): (s: Settings)
    ensures s.root == resolve(args.root)
    ensures args.threshold.None? ==> s.threshold == ConfidenceThreshold
    ensures args.stagingName.None? ==> s.stagingName == StagingDirName
    ensures args.logDir.None? ==> s.logDir == s.root
    ensures args.statePath.None? ==> s.statePath == JoinStr(s.root, FileScanner.LearningStateName)
  {
    var root := resolve(args.root);
    Settings(root, args.threshold.GetOr(ConfidenceThreshold), args.stagingName.GetOr(StagingDirName),
             args.logDir.GetOr(root), args.statePath.GetOr(JoinStr(root, FileScanner.LearningStateName)))
  }

  /** What the pipeline cannot see: the clock, the content of the learning
      state file, path resolution, refused directories, the MIME detector and
      extraction backend, and whether each move succeeds. */
  datatype Environment = Environment(
    timestamp: string,
    stateContent: Snapshot,
    resolve: FileScanner.Resolver,
    locked: set<Path>,
    detect: Path -> Result<string>,
    extract: Path -> Result<MetadataProcessor.Extracted>,
    moveOk: OrganizationEngine.MoveOracle)

  /** `log_dir / f"cleanup_report_{timestamp}.log"` */
  function LogFile(logDir: Path, timestamp: string): Path {
    JoinStr(logDir, FileScanner.ReportPrefix + timestamp + ".log")
  }

  /** `setup_logger(log_dir)`: makes the log directory and opens the log file. */
  function SetupLogger(fs: FileSystem, logDir: Path, timestamp: string): (r: Result<FileSystem>)
    ensures MakeDirs(fs, logDir).Failure? ==> r.Failure?
    ensures r.Success? ==> LogFile(logDir, timestamp) in Files(r.value) && Files(fs) <= Files(r.value)
  {
    match MakeDirs(fs, logDir)
    case Failure(e) => Failure(e)
    case Success(fs1) => WriteText(fs1, LogFile(logDir, timestamp))
  }

  /** Setting up the log keeps every path on one entry. */
  lemma SetupLoggerUnique(fs: FileSystem, logDir: Path, timestamp: string)
    requires UniquePaths(fs) && SetupLogger(fs, logDir, timestamp).Success?
    ensures UniquePaths(SetupLogger(fs, logDir, timestamp).value)
  {
    MakeDirsUnique(fs, logDir);
    WriteTextUnique(MakeDirs(fs, logDir).value, LogFile(logDir, timestamp));
  }

  /** `LearningStore.load(path)` on the tree: a missing file gives the empty
      store; reading a directory raises. */
  function LoadState(fs: FileSystem, statePath: Path, content: Snapshot): (r: Result<Store>)
    ensures r.Failure? <==> statePath in Dirs(fs)
    ensures statePath !in Dirs(fs) && statePath !in Files(fs) ==> r == Success(EmptyStore)
    ensures statePath in Files(fs) && statePath !in Dirs(fs) ==> r == Success(Load(Some(content)))
  {
    if statePath in Dirs(fs) then Failure("Is a directory")
    else if statePath in Files(fs) then Success(Load(Some(content)))
    else Success(Load(None))
  }

  /** `path.parent`, with the empty path its own parent. */
  function ParentDir(p: Path): Path {
    if |p| == 0 then [] else Parent(p)
  }

  /** `LearningStore.save(path)`: makes the parent directory, then writes. */
  function SaveState(fs: FileSystem, statePath: Path): (r: Result<FileSystem>)
    ensures r.Success? ==> statePath in Files(r.value) && Files(fs) <= Files(r.value)
  {
    match MakeDirs(fs, ParentDir(statePath))
    case Failure(e) => Failure(e)
    case Success(fs1) => WriteText(fs1, statePath)
  }

  /** `process_file` on one path, with the environment's detector and
      extraction backend and the loaded store. */
  function ProcessOne(p: Path, env: Environment, store: Store): (r: Result<FileObject>)
    requires Valid(store)
    ensures r.Failure? <==> env.detect(p).Failure?
    ensures r.Success? ==> r.value.path == p
  {
    MetadataProcessor.ProcessFile(p, env.detect(p), env.extract(p), Some(store))
  }

  /** A run of a per-path step that ends at the first failure. */
  function MapUntilFailure(paths: seq<Path>, step: Path -> Result<FileObject>): (r: Result<seq<FileObject>>)
    ensures r.Failure? <==> exists i :: 0 <= i < |paths| && step(paths[i]).Failure?
    ensures r.Success? ==> |r.value| == |paths|
    ensures r.Success? ==> forall i :: 0 <= i < |paths| ==> Success(r.value[i]) == step(paths[i])
    decreases |paths|
  {
    if |paths| == 0 then Success([])
    else
      match step(paths[0])
      case Failure(e) => Failure(e)
      case Success(fo) =>
        match MapUntilFailure(paths[1..], step)
        case Failure(e) =>
          assert exists i :: 0 <= i < |paths[1..]| && step(paths[1..][i]).Failure?;
          Failure(e)
        case Success(rest) =>
          assert forall i :: 1 <= i < |paths| ==> paths[i] == paths[1..][i - 1];
          Success([fo] + rest)
  }

  /** `ProcessCommand`: one record per scanned file, in scan order; a
      detection failure ends the run. */
  function ProcessAll(paths: seq<Path>, env: Environment, store: Store): (r: Result<seq<FileObject>>)
    requires Valid(store)
    ensures r.Failure? <==> exists i :: 0 <= i < |paths| && env.detect(paths[i]).Failure?
    ensures r.Success? ==> |r.value| == |paths|
    ensures r.Success? ==> forall i :: 0 <= i < |paths| ==> Success(r.value[i]) == ProcessOne(paths[i], env, store)
  {
    MapUntilFailure(paths, p => ProcessOne(p, env, store))
  }

  /** One record's turn in the loop after `organize_files`: a record
      teaches the store exactly when routing sends it to a category, whether
      or not its move succeeded. */
  function Teach(s: Store, fo: FileObject, threshold: real): (r: Store)
    ensures OrganizationEngine.Staged(fo, threshold) ==> r == s
    ensures Valid(s) ==> Valid(r)
  {
    if OrganizationEngine.Staged(fo, threshold) then s else Update(s, fo)
  }

  /** The whole loop, in the order of the organized records. */
  function Learn(s: Store, files: seq<FileObject>, threshold: real): (r: Store)
    ensures Valid(s) ==> Valid(r)
    decreases |files|
  {
    if |files| == 0 then s else Learn(Teach(s, files[0], threshold), files[1..], threshold)
  }

  /** Whether record `fo` teaches label `l` under key `k`, `key` choosing the
      table: routed to a category, labelled, with key `k` and lower-cased
      primary label `l`. */
  function Vote(fo: FileObject, threshold: real, key: FileObject -> string, k: string, l: string): nat {
    if !OrganizationEngine.Staged(fo, threshold) && fo.labels != [] && key(fo) == k && Lower(fo.labels[0]) == l
    then 1 else 0
  }

  function Votes(files: seq<FileObject>, threshold: real, key: FileObject -> string, k: string, l: string): nat
    decreases |files|
  {
    if |files| == 0 then 0 else Vote(files[0], threshold, key, k, l) + Votes(files[1..], threshold, key, k, l)
  }

  function ExtensionKey(fo: FileObject): string {
    Extension(fo.path)
  }

  function MimeKey(fo: FileObject): string {
    fo.mimeType
  }

  /** One count of a bumped table: up by one for the bumped key and label,
      unchanged for every other. */
  lemma BumpedCount(m: map<string, Counts>, m': map<string, Counts>, key: string, l: string, k: string, l': string)
    requires Bumped(m, m', key, l)
    ensures Count(Table(m', k), l') == Count(Table(m, k), l') + (if k == key && l' == l then 1 else 0)
  {
    if k != key {
      assert k in m' <==> k in m;
    }
  }

  /** A table either bumped once under `key` and `lab` or left alone. */
  lemma VoteCount(m: map<string, Counts>, m': map<string, Counts>, key: string, lab: string, voted: bool,
                  k: string, l: string)
    requires voted ==> Bumped(m, m', key, lab)
    requires !voted ==> m' == m
    ensures Count(Table(m', k), l) == Count(Table(m, k), l) + (if voted && k == key && l == lab then 1 else 0)
  {
    if voted {
      BumpedCount(m, m', key, lab, k, l);
    }
  }

  /** One record's turn adds its vote to each count and nothing else. */
  lemma TeachCounts(s: Store, fo: FileObject, threshold: real, k: string, l: string)
    ensures Count(Table(Teach(s, fo, threshold).extensionLabels, k), l)
         == Count(Table(s.extensionLabels, k), l) + Vote(fo, threshold, ExtensionKey, k, l)
    ensures Count(Table(Teach(s, fo, threshold).mimeLabels, k), l)
         == Count(Table(s.mimeLabels, k), l) + Vote(fo, threshold, MimeKey, k, l)
  {
    TeachExtensionCount(s, fo, threshold, k, l);
    TeachMimeCount(s, fo, threshold, k, l);
  }

  lemma TeachExtensionCount(s: Store, fo: FileObject, threshold: real, k: string, l: string)
    ensures Count(Table(Teach(s, fo, threshold).extensionLabels, k), l)
         == Count(Table(s.extensionLabels, k), l) + Vote(fo, threshold, ExtensionKey, k, l)
  {
    var voted := !OrganizationEngine.Staged(fo, threshold) && fo.labels != [];
    var lab := if fo.labels != [] then Lower(fo.labels[0]) else "";
    var key := Extension(fo.path);
    assert Vote(fo, threshold, ExtensionKey, k, l) == if voted && k == key && l == lab then 1 else 0;
    VoteCount(s.extensionLabels, Teach(s, fo, threshold).extensionLabels, key, lab, voted, k, l);
  }

  lemma TeachMimeCount(s: Store, fo: FileObject, threshold: real, k: string, l: string)
    ensures Count(Table(Teach(s, fo, threshold).mimeLabels, k), l)
         == Count(Table(s.mimeLabels, k), l) + Vote(fo, threshold, MimeKey, k, l)
  {
    var voted := !OrganizationEngine.Staged(fo, threshold) && fo.labels != [];
    var lab := if fo.labels != [] then Lower(fo.labels[0]) else "";
    assert Vote(fo, threshold, MimeKey, k, l) == if voted && k == fo.mimeType && l == lab then 1 else 0;
    VoteCount(s.mimeLabels, Teach(s, fo, threshold).mimeLabels, fo.mimeType, lab, voted, k, l);
  }

  /** After the learning loop, every count is the loaded count plus the
      number of routed records that voted for it: staged records teach
      nothing, and each routed labelled record adds one under its extension
      and one under its MIME type. */
  lemma {:induction false} LearnCounts(s: Store, files: seq<FileObject>, threshold: real, k: string, l: string)
    ensures Count(Table(Learn(s, files, threshold).extensionLabels, k), l)
         == Count(Table(s.extensionLabels, k), l) + Votes(files, threshold, ExtensionKey, k, l)
    ensures Count(Table(Learn(s, files, threshold).mimeLabels, k), l)
         == Count(Table(s.mimeLabels, k), l) + Votes(files, threshold, MimeKey, k, l)
    decreases |files|
  {
    if |files| > 0 {
      TeachCounts(s, files[0], threshold, k, l);
      LearnCounts(Teach(s, files[0], threshold), files[1..], threshold, k, l);
    }
  }

  /** A run in which every record is staged leaves the store as loaded. */
  lemma {:induction false} StagedTeachNothing(s: Store, files: seq<FileObject>, threshold: real)
    requires forall i :: 0 <= i < |files| ==> OrganizationEngine.Staged(files[i], threshold)
    ensures Learn(s, files, threshold) == s
    decreases |files|
  {
    if |files| > 0 {
      StagedTeachNothing(s, files[1..], threshold);
    }
  }

  /** What a completed run leaves behind, stage by stage. */
  datatype Run = Run(
    logged: FileSystem,
    cleaned: FileSystem,
    removed: nat,
    loaded: Store,
    scanned: seq<Path>,
    processed: seq<FileObject>,
    files: seq<FileObject>,
    summary: OrganizationEngine.Summary,
    organized: FileSystem,
    learned: Store,
    fs: FileSystem,
    saved: Snapshot)

  function StagingPath(settings: Settings): Path {
    JoinStr(settings.root, settings.stagingName)
  }

  /** The scan stage: the cleaned tree is scanned with the staging
      directory excluded. */
  ghost predicate ScanStage(settings: Settings, env: Environment, run: Run) {
    run.scanned == FileScanner.Scan(run.cleaned, settings.root, [StagingPath(settings)], env.resolve)
  }

  /** The process stage: every scanned path is processed with the loaded
      store. */
  ghost predicate ProcessStage(env: Environment, run: Run) {
    && Valid(run.loaded)
    && ProcessAll(run.scanned, env, run.loaded) == Success(run.processed)
  }

  /** The organize stage: the records are organized in the cleaned tree. */
  ghost predicate OrganizeStage(settings: Settings, env: Environment, run: Run) {
    OrganizationEngine.OrganizeFiles(run.cleaned, settings.root, settings.stagingName, settings.threshold,
                                     run.processed, env.moveOk)
    == Success(OrganizationEngine.Outcome(run.organized, run.files, run.summary))
  }

  /** The learning and saving stages. */
  ghost predicate SaveStage(settings: Settings, run: Run) {
    && Valid(run.loaded)
    && run.learned == Learn(run.loaded, run.files, settings.threshold)
    && SaveState(run.organized, settings.statePath) == Success(run.fs)
    && run.saved == Save(run.learned)
  }

  /** Nothing scanned lies outside the root or in the staging directory, and
      nothing scanned is one of the tool's own outputs. */
  ghost predicate ScanPromised(settings: Settings, env: Environment, run: Run) {
    forall p :: p in run.scanned ==>
      && p in Files(run.cleaned) && StrictlyBelow(settings.root, p) && !FileScanner.OwnOutput(p)
      && !FileScanner.InExcluded(p, {env.resolve(StagingPath(settings))}, env.resolve)
  }

  /** One record per scanned file, in scan order, each counted as moved or
      as staged. */
  ghost predicate OrganizePromised(settings: Settings, run: Run) {
    && |run.files| == |run.scanned|
    && (forall i :: 0 <= i < |run.scanned| ==> run.files[i].path == run.scanned[i])
    && run.summary.moved + run.summary.staged == |run.scanned|
    && run.summary.staged == OrganizationEngine.CountStaged(run.files, settings.threshold)
  }

  /** Every learned count is the loaded count plus the routed records'
      votes, and the saved state is on disk and loads back as the learned
      store. */
  ghost predicate SavePromised(settings: Settings, run: Run) {
    && (forall k, l ::
         && Count(Table(run.learned.extensionLabels, k), l)
            == Count(Table(run.loaded.extensionLabels, k), l) + Votes(run.files, settings.threshold, ExtensionKey, k, l)
         && Count(Table(run.learned.mimeLabels, k), l)
            == Count(Table(run.loaded.mimeLabels, k), l) + Votes(run.files, settings.threshold, MimeKey, k, l))
    && Valid(run.learned)
    && Load(Some(run.saved)) == run.learned
    && settings.statePath in Files(run.fs)
  }

  lemma ScanKept(settings: Settings, env: Environment, run: Run)
    requires ScanStage(settings, env, run)
    ensures ScanPromised(settings, env, run)
  {
    ScanFacts(run.cleaned, settings.root, StagingPath(settings), env.resolve);
  }

  lemma ProcessKept(env: Environment, run: Run)
    requires ProcessStage(env, run)
    ensures |run.processed| == |run.scanned|
    ensures forall i :: 0 <= i < |run.scanned| ==> run.processed[i].path == run.scanned[i]
  {
    forall i | 0 <= i < |run.scanned| ensures run.processed[i].path == run.scanned[i] {
      assert Success(run.processed[i]) == ProcessOne(run.scanned[i], env, run.loaded);
    }
  }

  lemma OrganizeKept(settings: Settings, env: Environment, run: Run)
    requires |run.processed| == |run.scanned|
    requires forall i :: 0 <= i < |run.scanned| ==> run.processed[i].path == run.scanned[i]
    requires OrganizeStage(settings, env, run)
    ensures OrganizePromised(settings, run)
  {
    OrganizedPaths(run.cleaned, settings.root, settings.stagingName, settings.threshold, run.processed, env.moveOk);
    OrganizedStaged(run.cleaned, settings.root, settings.stagingName, settings.threshold, run.processed, env.moveOk);
  }

  lemma SaveKept(settings: Settings, run: Run)
    requires SaveStage(settings, run)
    ensures SavePromised(settings, run)
  {
    forall k, l
      ensures Count(Table(run.learned.extensionLabels, k), l)
           == Count(Table(run.loaded.extensionLabels, k), l) + Votes(run.files, settings.threshold, ExtensionKey, k, l)
      ensures Count(Table(run.learned.mimeLabels, k), l)
           == Count(Table(run.loaded.mimeLabels, k), l) + Votes(run.files, settings.threshold, MimeKey, k, l)
    {
      LearnCounts(run.loaded, run.files, settings.threshold, k, l);
    }
    LoadSave(run.learned);
  }

  /** The run stops at a failure `run_pipeline` does not catch: setting up the
      log, loading the state, detecting a scanned file's type, making the
      staging or a category directory, or saving the state. `cleaned` is the
      tree the cleanup stage left. */
  ghost predicate RunFails(fs: FileSystem, settings: Settings, env: Environment, cleaned: FileSystem) {
    var logged := SetupLogger(fs, settings.logDir, env.timestamp);
    || logged.Failure?
    || var loading := LoadState(logged.value, settings.statePath, env.stateContent);
       || loading.Failure?
       || (&& Valid(loading.value)
           && var scanned := FileScanner.Scan(cleaned, settings.root, [StagingPath(settings)], env.resolve);
              var processed := ProcessAll(scanned, env, loading.value);
              || processed.Failure?
              || var organized := OrganizationEngine.OrganizeFiles(cleaned, settings.root, settings.stagingName,
                                                                  settings.threshold, processed.value, env.moveOk);
                 || organized.Failure?
                 || SaveState(organized.value.fs, settings.statePath).Failure?)
  }

  /** `run_pipeline`: set up the log, load the learning state, then clean
      up, scan, process, organize, learn and save; each failure the code
      does not catch ends the run. `cleaned` is the tree after the cleanup
      stage, or the tree as it was when the run stopped before it. */
  method RunPipeline(fs: FileSystem, settings: Settings, env: Environment) returns (r: Result<Run>, cleaned: FileSystem)
    requires UniquePaths(fs)
    requires Valid(Load(Some(env.stateContent)))
    ensures r.Failure? <==> RunFails(fs, settings, env, cleaned)
    ensures var logged := SetupLogger(fs, settings.logDir, env.timestamp);
      logged.Success? && LoadState(logged.value, settings.statePath, env.stateContent).Success? ==>
        CleanupEngine.Cleaned(logged.value, settings.root, env.locked, cleaned,
                              |Dirs(logged.value) - Dirs(cleaned)|)
    ensures r.Success? ==> r.value.cleaned == cleaned
    ensures r.Success? ==> SetupLogger(fs, settings.logDir, env.timestamp) == Success(r.value.logged)
    ensures r.Success? ==> LoadState(r.value.logged, settings.statePath, env.stateContent) == Success(r.value.loaded)
    ensures r.Success? ==> && ScanStage(settings, env, r.value) && ProcessStage(env, r.value)
                           && OrganizeStage(settings, env, r.value) && SaveStage(settings, r.value)
    ensures MakeDirs(fs, settings.logDir).Failure? ==> r.Failure?
    ensures r.Success? ==> LogFile(settings.logDir, env.timestamp) in Files(r.value.logged)
    ensures r.Success? ==> CleanupEngine.Cleaned(r.value.logged, settings.root, env.locked, r.value.cleaned, r.value.removed)
    ensures r.Success? ==> ScanPromised(settings, env, r.value)
    ensures r.Success? ==> OrganizePromised(settings, r.value)
    ensures r.Success? ==> SavePromised(settings, r.value)
  {
    cleaned := fs;
    var logged := SetupLogger(fs, settings.logDir, env.timestamp);
    if logged.Failure? {
      return Failure(logged.error), cleaned;
    }
    var fs1 := logged.value;
    cleaned := fs1;
    SetupLoggerUnique(fs, settings.logDir, env.timestamp);
    var loading := LoadState(fs1, settings.statePath, env.stateContent);
    if loading.Failure? {
      return Failure(loading.error), cleaned;
    }
    var store := loading.value;
    // CleanupCommand
    var fs2, removed := CleanupEngine.RemoveEmptyDirectories(fs1, settings.root, env.locked);
    cleaned := fs2;
    // ScanCommand
    var scanned := FileScanner.Scan(fs2, settings.root, [StagingPath(settings)], env.resolve);
    // ProcessCommand
    var processed := ProcessAll(scanned, env, store);
    if processed.Failure? {
      return Failure(processed.error), cleaned;
    }
    // OrganizeCommand: organize, learn from the routed records, save once
    var organized := OrganizationEngine.OrganizeFiles(fs2, settings.root, settings.stagingName,
                                                     settings.threshold, processed.value, env.moveOk);
    if organized.Failure? {
      return Failure(organized.error), cleaned;
    }
    var outcome := organized.value;
    var learned := Learn(store, outcome.files, settings.threshold);
    var saving := SaveState(outcome.fs, settings.statePath);
    if saving.Failure? {
      return Failure(saving.error), cleaned;
    }
    var run := Run(fs1, fs2, removed, store, scanned, processed.value, outcome.files, outcome.summary, outcome.fs,
                   learned, saving.value, Save(learned));
    ScanKept(settings, env, run);
    ProcessKept(env, run);
    OrganizeKept(settings, env, run);
    SaveKept(settings, run);
    r := Success(run);
  }

  /** The report log is one of the tool's own outputs, whatever the
      timestamp (short of a "/" in it): its name starts with the report
      prefix and its last dot is that of ".log". */
  lemma LogFileIsOwnOutput(logDir: Path, timestamp: string)
    requires '/' !in timestamp
    ensures FileScanner.OwnOutput(LogFile(logDir, timestamp))
  {
    var name := FileScanner.ReportPrefix + timestamp + ".log";
    assert '/' !in name by {
      forall i | 0 <= i < |name| ensures name[i] != '/' {
        if i < |FileScanner.ReportPrefix| {
          assert name[i] == FileScanner.ReportPrefix[i];
        } else if i < |FileScanner.ReportPrefix| + |timestamp| {
          assert name[i] == timestamp[i - |FileScanner.ReportPrefix|];
        }
      }
    }
    JoinName(logDir, name);
    assert Name(LogFile(logDir, timestamp)) == name;
    assert StartsWith(name, FileScanner.ReportPrefix) by {
      assert name[..|FileScanner.ReportPrefix|] == FileScanner.ReportPrefix;
    }
    var dot := LastIndexOf(name, '.');
    assert name[|name| - 4] == '.';
    assert dot == |name| - 4;
    assert name[|name| - 4..] == ".log";
  }

  /** The learning state under its default name is one of the tool's own
      outputs. */
  lemma StateFileIsOwnOutput(root: Path)
    ensures FileScanner.OwnOutput(JoinStr(root, FileScanner.LearningStateName))
  {
    JoinName(root, FileScanner.LearningStateName);
  }

  /** The run never processes its own report log, nor the learning state
      when it is kept under its default name. */
  lemma OwnOutputsNotScanned(settings: Settings, env: Environment, run: Run)
    requires ScanPromised(settings, env, run)
    requires '/' !in env.timestamp
    ensures LogFile(settings.logDir, env.timestamp) !in run.scanned
    ensures JoinStr(settings.root, FileScanner.LearningStateName) !in run.scanned
  {
    LogFileIsOwnOutput(settings.logDir, env.timestamp);
    StateFileIsOwnOutput(settings.root);
  }

  /** The scan's guarantees, for the single excluded staging directory. */
  lemma ScanFacts(fs: FileSystem, root: Path, stagingDir: Path, resolve: FileScanner.Resolver)
    ensures forall p :: p in FileScanner.Scan(fs, root, [stagingDir], resolve) ==>
      && p in Files(fs) && StrictlyBelow(root, p) && !FileScanner.OwnOutput(p)
      && !FileScanner.InExcluded(p, {resolve(stagingDir)}, resolve)
  {
    FileScanner.ScanIsClean(fs, root, [stagingDir], resolve);
    forall p | p in FileScanner.Scan(fs, root, [stagingDir], resolve)
      ensures !FileScanner.InExcluded(p, {resolve(stagingDir)}, resolve)
    {
      assert stagingDir in [stagingDir];
    }
  }

  /** Organizing counts as staged exactly the records routing stages. */
  lemma OrganizedStaged(fs: FileSystem, root: Path, stagingName: string, threshold: real,
                        files: seq<FileObject>, moveOk: OrganizationEngine.MoveOracle)
    requires OrganizationEngine.OrganizeFiles(fs, root, stagingName, threshold, files, moveOk).Success?
    ensures var out := OrganizationEngine.OrganizeFiles(fs, root, stagingName, threshold, files, moveOk).value;
      out.summary.staged == OrganizationEngine.CountStaged(out.files, threshold)
  {
    var stagingRoot := JoinStr(root, stagingName);
    var fs1 := MakeDirs(fs, stagingRoot).value;
    var out := OrganizationEngine.OrganizeFiles(fs, root, stagingName, threshold, files, moveOk).value;
    OrganizationEngine.OrganizedObjects(fs1, root, stagingRoot, threshold, files, moveOk);
    StagedIgnoresTarget(files, out.files, threshold);
  }

  /** Routing does not look at the target path. */
  lemma {:induction false} StagedIgnoresTarget(a: seq<FileObject>, b: seq<FileObject>, threshold: real)
    requires |a| == |b|
    requires forall i :: 0 <= i < |a| ==> b[i] == a[i].(targetPath := b[i].targetPath)
    ensures OrganizationEngine.CountStaged(a, threshold) == OrganizationEngine.CountStaged(b, threshold)
    decreases |a|
  {
    if |a| > 0 {
      StagedIgnoresTarget(a[1..], b[1..], threshold);
    }
  }

  /** Organizing keeps each record's path. */
  lemma OrganizedPaths(fs: FileSystem, root: Path, stagingName: string, threshold: real,
                       files: seq<FileObject>, moveOk: OrganizationEngine.MoveOracle)
    requires OrganizationEngine.OrganizeFiles(fs, root, stagingName, threshold, files, moveOk).Success?
    ensures var out := OrganizationEngine.OrganizeFiles(fs, root, stagingName, threshold, files, moveOk).value.files;
      |out| == |files| && forall i :: 0 <= i < |files| ==> out[i].path == files[i].path
  {
    var stagingRoot := JoinStr(root, stagingName);
    var fs1 := MakeDirs(fs, stagingRoot).value;
    OrganizationEngine.OrganizedObjects(fs1, root, stagingRoot, threshold, files, moveOk);
  }
}

=== FILE: ranking.dfy ===
/** `sorted(d, key=d.get, reverse=True)[:limit]` over a table of counts: the
    ranking both the learning store and the word-frequency labeller use. */
module Ranking {
  import opened Dicts
  import opened Sorting
  import opened Text

  /** The sort key: larger counts first. */
  function ByCountDesc<K>(item: (K, nat)): real {
    -(item.1 as real)
  }

  function First<K, V>(item: (K, V)): K {
    item.0
  }

  /** All items, most frequent first; ties keep dictionary order. */
  function Ranked<K>(d: Dict<K, nat>): seq<(K, nat)> {
    StableSort(d, ByCountDesc)
  }

  /** The first `limit` ranked items (Python slice semantics). */
  function Top<K>(d: Dict<K, nat>, limit: int): seq<(K, nat)> {
    Prefix(Ranked(d), limit)
  }

  lemma DistinctKeysInjective<K, V>(d: Dict<K, V>)
    ensures DistinctKeys(d) <==> Injective(d, First)
  {
    assert forall i :: 0 <= i < |d| ==> Keys(d)[i] == First(d[i]);
  }

  /** The ranking is a permutation of the items, non-increasing in count,
      whose first item carries the largest count. */
  lemma RankedIsSorted<K>(d: Dict<K, nat>)
    ensures multiset(Ranked(d)) == multiset(d)
    ensures forall i, j :: 0 <= i < j < |Ranked(d)| ==> Ranked(d)[i].1 >= Ranked(d)[j].1
    ensures |d| > 0 ==> Ranked(d)[0] in d && forall x :: x in d ==> x.1 <= Ranked(d)[0].1
  {
    var r := Ranked(d);
    SortSorts(d, ByCountDesc);
    assert forall i, j :: 0 <= i < j < |r| ==> ByCountDesc(r[i]) <= ByCountDesc(r[j]);
    if |d| > 0 {
      assert r[0] in multiset(d);
      forall x | x in d ensures x.1 <= r[0].1 {
        assert x in multiset(r);
        var j :| 0 <= j < |r| && r[j] == x;
        if j > 0 {
          assert ByCountDesc(r[0]) <= ByCountDesc(r[j]);
        }
      }
    }
  }

  /** `Top(d, limit)` is a top-`limit` selection: distinct items of `d`, in
      non-increasing count, as many as `limit` allows, none outranked by an
      item left out, and each tie class in dictionary order. */
  lemma TopIsTopK<K>(d: Dict<K, nat>, limit: int)
    requires DistinctKeys(d)
    ensures DistinctKeys(Top(d, limit))
    ensures forall x :: x in Top(d, limit) ==> x in d
    ensures forall i, j :: 0 <= i < j < |Top(d, limit)| ==> Top(d, limit)[i].1 >= Top(d, limit)[j].1
    ensures 0 <= limit ==> |Top(d, limit)| == if limit < |d| then limit else |d|
    ensures forall x, i :: x in d && x !in Top(d, limit) && 0 <= i < |Top(d, limit)|
              ==> x.1 <= Top(d, limit)[i].1
    ensures forall k :: KeyFilter(Top(d, limit), ByCountDesc, k) <= KeyFilter(d, ByCountDesc, k)
  {
    TopOrdered(d, limit);
    TopDistinct(d, limit);
    TopDominates(d, limit);
    forall k ensures KeyFilter(Top(d, limit), ByCountDesc, k) <= KeyFilter(d, ByCountDesc, k) {
      TopTies(d, limit, k);
    }
  }

  lemma TopOrdered<K>(d: Dict<K, nat>, limit: int)
    ensures forall i, j :: 0 <= i < j < |Top(d, limit)| ==> Top(d, limit)[i].1 >= Top(d, limit)[j].1
  {
    var r := Ranked(d);
    var t := Top(d, limit);
    RankedIsSorted(d);
    assert t == r[..|t|];
    forall i, j | 0 <= i < j < |t| ensures t[i].1 >= t[j].1 {
      assert t[i] == r[i] && t[j] == r[j];
    }
  }

  lemma TopDistinct<K>(d: Dict<K, nat>, limit: int)
    requires DistinctKeys(d)
    ensures DistinctKeys(Top(d, limit))
  {
    var r := Ranked(d);
    var t := Top(d, limit);
    DistinctKeysInjective(d);
    SortKeepsInjective(d, ByCountDesc, First);
    assert Injective(t, First);
    DistinctKeysInjective(t);
  }

  lemma TopDominates<K>(d: Dict<K, nat>, limit: int)
    ensures forall x :: x in Top(d, limit) ==> x in d
    ensures forall x, i :: x in d && x !in Top(d, limit) && 0 <= i < |Top(d, limit)|
              ==> x.1 <= Top(d, limit)[i].1
  {
    var r := Ranked(d);
    var t := Top(d, limit);
    RankedIsSorted(d);
    forall x | x in t ensures x in d {
      assert x in multiset(r);
    }
    forall x, i | x in d && x !in t && 0 <= i < |t| ensures x.1 <= t[i].1 {
      assert x in multiset(r);
      var j :| 0 <= j < |r| && r[j] == x;
      assert r[i] == t[i];
    }
  }

  lemma TopTies<K>(d: Dict<K, nat>, limit: int, k: real)
    ensures KeyFilter(Top(d, limit), ByCountDesc, k) <= KeyFilter(d, ByCountDesc, k)
  {
    var r := Ranked(d);
    var t := Top(d, limit);
    assert r == t + r[|t|..];
    KeyFilterAppend(t, r[|t|..], ByCountDesc, k);
    SortIsStable(d, ByCountDesc, k);
  }

  /** `sorted(d, key=d.get, reverse=True)[:limit]` */
  function TopKeys<K>(d: Dict<K, nat>, limit: int): seq<K> {
    Keys(Top(d, limit))
  }

  /** The top-`limit` property restated over keys and `d.get`. */
  lemma TopKeysAreTopK<K>(d: Dict<K, nat>, limit: int)
    requires DistinctKeys(d)
    ensures Distinct(TopKeys(d, limit))
    ensures 0 <= limit ==> |TopKeys(d, limit)| == if limit < |d| then limit else |d|
    ensures forall l :: l in TopKeys(d, limit) ==> l in Keys(d)
    ensures forall i, j :: 0 <= i < j < |TopKeys(d, limit)|
              ==> Count(d, TopKeys(d, limit)[i]) >= Count(d, TopKeys(d, limit)[j])
    ensures forall l, i :: l in Keys(d) && l !in TopKeys(d, limit) && 0 <= i < |TopKeys(d, limit)|
              ==> Count(d, l) <= Count(d, TopKeys(d, limit)[i])
  {
    TopIsTopK(d, limit);
    TopKeysCounts(d, limit);
    TopKeysDominate(d, limit);
  }

  /** The i-th top key's count is the count carried by the i-th top item. */
  lemma TopKeysCounts<K>(d: Dict<K, nat>, limit: int)
    requires DistinctKeys(d)
    ensures forall i :: 0 <= i < |TopKeys(d, limit)|
              ==> Count(d, TopKeys(d, limit)[i]) == Top(d, limit)[i].1 && TopKeys(d, limit)[i] in Keys(d)
  {
    var top := Top(d, limit);
    var t := TopKeys(d, limit);
    TopIsTopK(d, limit);
    forall i | 0 <= i < |t| ensures Count(d, t[i]) == top[i].1 && t[i] in Keys(d) {
      assert top[i] in d;
      ItemGet(d, top[i].0, top[i].1);
    }
  }

  lemma TopKeysDominate<K>(d: Dict<K, nat>, limit: int)
    requires DistinctKeys(d)
    ensures forall l, i :: l in Keys(d) && l !in TopKeys(d, limit) && 0 <= i < |TopKeys(d, limit)|
              ==> Count(d, l) <= Count(d, TopKeys(d, limit)[i])
  {
    forall l, i | l in Keys(d) && l !in TopKeys(d, limit) && 0 <= i < |TopKeys(d, limit)|
      ensures Count(d, l) <= Count(d, TopKeys(d, limit)[i])
    {
      KeyOutsideTop(d, limit, l, i);
    }
  }

  lemma KeyOutsideTop<K>(d: Dict<K, nat>, limit: int, l: K, i: nat)
    requires DistinctKeys(d) && l in Keys(d) && l !in TopKeys(d, limit) && i < |TopKeys(d, limit)|
    ensures Count(d, l) <= Count(d, TopKeys(d, limit)[i])
  {
    var top := Top(d, limit);
    var t := TopKeys(d, limit);
    var j :| 0 <= j < |d| && Keys(d)[j] == l;
    GetItem(d, j);
    ItemOfAbsentKey(top, d[j]);
    TopDominates(d, limit);
    assert d[j].1 <= top[i].1;
    ItemGet(d, top[i].0, top[i].1);
  }

  /** A key that `limit` other keys each outrank is not among the top
      `limit`. */
  lemma OutrankedNotInTop<K>(d: Dict<K, nat>, limit: int, above: seq<K>, l: K)
    requires DistinctKeys(d) && |above| == limit && Distinct(above)
    requires forall a :: a in above ==> a in Keys(d) && Count(d, a) > Count(d, l)
    ensures l !in TopKeys(d, limit)
  {
    var t := TopKeys(d, limit);
    if l in t {
      var i :| 0 <= i < |t| && t[i] == l;
      forall a | a in above ensures a in t {
        if a !in t {
          KeyOutsideTop(d, limit, a, i);
        }
      }
      TopBounded(d, limit);
      CountingArgument(above, t, l, limit);
    }
  }

  lemma TopBounded<K>(d: Dict<K, nat>, limit: int)
    ensures |TopKeys(d, limit)| <= limit || limit < 0
  {
  }

  /** An item whose key is not among a dictionary's keys is not one of its
      items. */
  lemma ItemOfAbsentKey<K, V>(d: Dict<K, V>, x: (K, V))
    requires x.0 !in Keys(d)
    ensures x !in d
  {
    forall m | 0 <= m < |d| ensures d[m] != x {
      assert Keys(d)[m] != x.0;
    }
  }

  /** `limit` distinct keys and one more cannot all fit among at most
      `limit` keys. */
  lemma CountingArgument<K>(above: seq<K>, t: seq<K>, l: K, limit: int)
    requires |above| == limit && Distinct(above) && l !in above && l in t
    requires forall a :: a in above ==> a in t
    ensures |t| > limit
  {
    var sa := set a | a in above;
    var st := set a | a in t;
    SeqSetSize(above);
    SeqSetSize(t);
    assert |sa + {l}| == limit + 1;
    SubsetSize(sa + {l}, st);
  }

  /** Ties are broken by dictionary order: of two chosen keys with equal
      counts the one listed first in `d` is ranked first, and a key left out
      with the same count as a chosen one is listed after it. */
  lemma TopKeysTieBreak<K>(d: Dict<K, nat>, limit: int)
    requires DistinctKeys(d)
    ensures forall i, j :: 0 <= i < j < |TopKeys(d, limit)|
              && Count(d, TopKeys(d, limit)[i]) == Count(d, TopKeys(d, limit)[j])
              ==> && TopKeys(d, limit)[i] in Keys(d) && TopKeys(d, limit)[j] in Keys(d)
                  && IndexOf(Keys(d), TopKeys(d, limit)[i]) < IndexOf(Keys(d), TopKeys(d, limit)[j])
    ensures forall l, i :: l in Keys(d) && l !in TopKeys(d, limit) && 0 <= i < |TopKeys(d, limit)|
              && Count(d, l) == Count(d, TopKeys(d, limit)[i])
              ==> && TopKeys(d, limit)[i] in Keys(d)
                  && IndexOf(Keys(d), TopKeys(d, limit)[i]) < IndexOf(Keys(d), l)
  {
    var tk := TopKeys(d, limit);
    forall i, j | 0 <= i < j < |tk| && Count(d, tk[i]) == Count(d, tk[j])
      ensures tk[i] in Keys(d) && tk[j] in Keys(d) && IndexOf(Keys(d), tk[i]) < IndexOf(Keys(d), tk[j])
    {
      TiedTopKeys(d, limit, i, j);
    }
    forall l, i | l in Keys(d) && l !in tk && 0 <= i < |tk| && Count(d, l) == Count(d, tk[i])
      ensures tk[i] in Keys(d) && IndexOf(Keys(d), tk[i]) < IndexOf(Keys(d), l)
    {
      TiedLeftOut(d, limit, l, i);
    }
  }

  /** Items with distinct keys are distinct. */
  lemma ItemsInjective<K>(d: Dict<K, nat>)
    requires DistinctKeys(d)
    ensures Injective(d, Id)
  {
    DistinctKeysInjective(d);
    forall i, j | 0 <= i < j < |d| ensures Id(d[i]) != Id(d[j]) {
      assert First(d[i]) != First(d[j]);
    }
  }

  /** An item's key is listed where the item is. */
  lemma KeyIndex<K>(d: Dict<K, nat>, x: (K, nat))
    requires DistinctKeys(d) && x in d
    ensures x.0 in Keys(d) && IndexOf(Keys(d), x.0) == IndexOf(d, x)
  {
    var i := IndexOf(d, x);
    assert Keys(d)[i] == x.0;
    forall m | 0 <= m < i ensures Keys(d)[m] != x.0 {
      assert Keys(d)[m] != Keys(d)[i];
    }
  }

  lemma TiedTopKeys<K>(d: Dict<K, nat>, limit: int, i: nat, j: nat)
    requires DistinctKeys(d)
    requires i < j < |TopKeys(d, limit)| && Count(d, TopKeys(d, limit)[i]) == Count(d, TopKeys(d, limit)[j])
    ensures TopKeys(d, limit)[i] in Keys(d) && TopKeys(d, limit)[j] in Keys(d)
    ensures IndexOf(Keys(d), TopKeys(d, limit)[i]) < IndexOf(Keys(d), TopKeys(d, limit)[j])
  {
    var r := Ranked(d);
    var t := Top(d, limit);
    TopKeysCounts(d, limit);
    assert t[i] == r[i] && t[j] == r[j];
    assert ByCountDesc(r[i]) == ByCountDesc(r[j]);
    ItemsInjective(d);
    StableSortTies(d, ByCountDesc, i, j);
    KeyIndex(d, r[i]);
    KeyIndex(d, r[j]);
  }

  lemma TiedLeftOut<K>(d: Dict<K, nat>, limit: int, l: K, i: nat)
    requires DistinctKeys(d)
    requires l in Keys(d) && l !in TopKeys(d, limit) && i < |TopKeys(d, limit)|
    requires Count(d, l) == Count(d, TopKeys(d, limit)[i])
    ensures TopKeys(d, limit)[i] in Keys(d)
    ensures IndexOf(Keys(d), TopKeys(d, limit)[i]) < IndexOf(Keys(d), l)
  {
    var r := Ranked(d);
    var t := Top(d, limit);
    var tk := TopKeys(d, limit);
    TopKeysCounts(d, limit);
    var m :| 0 <= m < |d| && Keys(d)[m] == l;
    GetItem(d, m);
    var x := d[m];
    SortSorts(d, ByCountDesc);
    assert x in multiset(r);
    var j :| 0 <= j < |r| && r[j] == x;
    forall n | 0 <= n < |t| ensures r[n] != x {
      assert r[n] == t[n] && tk[n] == t[n].0;
    }
    assert t[i] == r[i];
    assert ByCountDesc(r[i]) == ByCountDesc(r[j]);
    ItemsInjective(d);
    StableSortTies(d, ByCountDesc, i, j);
    KeyIndex(d, r[i]);
    KeyIndex(d, x);
  }
}

=== FILE: sorting.dfy ===
/** Python's `sorted(s, key=...)`: a stable sort. The model is an insertion
    sort by a numeric key; a descending sort (`reverse=True`, which Python
    also keeps stable) is the ascending sort by the negated key. */
module Sorting {

  /** Non-decreasing by `key`. */
  predicate SortedBy<T>(s: seq<T>, key: T -> real) {
    forall i, j :: 0 <= i < j < |s| ==> key(s[i]) <= key(s[j])
  }

  /** Elements whose key is `k`, in their order in `s`. Stability of a sort
      means it leaves this subsequence unchanged for every `k`. */
  function KeyFilter<T>(s: seq<T>, key: T -> real, k: real): seq<T> {
    if |s| == 0 then []
    else (if key(s[0]) == k then [s[0]] else []) + KeyFilter(s[1..], key, k)
  }

  predicate Injective<T, K(==)>(s: seq<T>, f: T -> K) {
    forall i, j :: 0 <= i < j < |s| ==> f(s[i]) != f(s[j])
  }

  /** Places `x` in front of the first element whose key is at least `key(x)`,
      so that `x` stays ahead of the elements it ties with. */
  function Insert<T>(x: T, s: seq<T>, key: T -> real): (r: seq<T>)
    ensures |r| == |s| + 1
    ensures multiset(r) == multiset(s) + multiset{x}
  {
    if |s| == 0 || key(x) <= key(s[0]) then [x] + s
    else
      assert s == [s[0]] + s[1..];
      [s[0]] + Insert(x, s[1..], key)
  }

  lemma {:induction false} InsertSorted<T>(x: T, s: seq<T>, key: T -> real)
    requires SortedBy(s, key)
    ensures SortedBy(Insert(x, s, key), key)
  {
    if |s| > 0 && key(x) > key(s[0]) {
      var rest := Insert(x, s[1..], key);
      InsertSorted(x, s[1..], key);
      forall j | 0 <= j < |rest| ensures key(s[0]) <= key(rest[j]) {
        assert rest[j] in multiset(rest);
        if rest[j] != x {
          assert rest[j] in multiset(s[1..]);
          var m :| 0 <= m < |s[1..]| && s[1..][m] == rest[j];
          assert key(s[0]) <= key(s[m + 1]);
        }
      }
      assert Insert(x, s, key) == [s[0]] + rest;
    }
  }

  /** `sorted(s, key=key)` */
  function StableSort<T>(s: seq<T>, key: T -> real): (r: seq<T>)
    ensures |r| == |s|
  {
    if |s| == 0 then [] else Insert(s[0], StableSort(s[1..], key), key)
  }

  /** The sort returns a permutation of its input, in key order. */
  lemma {:induction false} SortSorts<T>(s: seq<T>, key: T -> real)
    ensures multiset(StableSort(s, key)) == multiset(s)
    ensures SortedBy(StableSort(s, key), key)
  {
    if |s| > 0 {
      assert s == [s[0]] + s[1..];
      SortSorts(s[1..], key);
      InsertSorted(s[0], StableSort(s[1..], key), key);
    }
  }

  /** Every element `x` passes has a key below `key(x)`, so `x` lands after
      all elements it ties with. */
  lemma {:induction false} InsertKeyFilter<T>(x: T, s: seq<T>, key: T -> real, k: real)
    ensures KeyFilter(Insert(x, s, key), key, k)
         == (if key(x) == k then [x] else []) + KeyFilter(s, key, k)
  {
    if |s| == 0 || key(x) <= key(s[0]) {
      assert ([x] + s)[1..] == s;
    } else {
      var rest := Insert(x, s[1..], key);
      var r := [s[0]] + rest;
      assert r[0] == s[0] && r[1..] == rest;
      InsertKeyFilter(x, s[1..], key, k);
      var h := if key(s[0]) == k then [s[0]] else [];
      var hx := if key(x) == k then [x] else [];
      assert KeyFilter(r, key, k) == h + KeyFilter(rest, key, k);
      assert KeyFilter(s, key, k) == h + KeyFilter(s[1..], key, k);
      assert h + hx == hx + h;
      calc {
        KeyFilter(r, key, k);
        h + (hx + KeyFilter(s[1..], key, k));
        (h + hx) + KeyFilter(s[1..], key, k);
        (hx + h) + KeyFilter(s[1..], key, k);
        hx + KeyFilter(s, key, k);
      }
    }
  }

  /** Stability: a tie class comes out in the order it went in. */
  lemma {:induction false} SortIsStable<T>(s: seq<T>, key: T -> real, k: real)
    ensures KeyFilter(StableSort(s, key), key, k) == KeyFilter(s, key, k)
  {
    if |s| > 0 {
      SortIsStable(s[1..], key, k);
      InsertKeyFilter(s[0], StableSort(s[1..], key), key, k);
    }
  }

  lemma {:induction false} KeyFilterAppend<T>(a: seq<T>, b: seq<T>, key: T -> real, k: real)
    ensures KeyFilter(a + b, key, k) == KeyFilter(a, key, k) + KeyFilter(b, key, k)
  {
    if |a| > 0 {
      assert (a + b)[1..] == a[1..] + b;
      KeyFilterAppend(a[1..], b, key, k);
    } else {
      assert a + b == b;
    }
  }

  /** A sort cannot make two elements agree on `f` if no two did before. */
  lemma {:induction false} SortKeepsInjective<T, K>(s: seq<T>, key: T -> real, f: T -> K)
    requires Injective(s, f)
    ensures Injective(StableSort(s, key), f)
  {
    if |s| > 0 {
      var rest := StableSort(s[1..], key);
      SortSorts(s[1..], key);
      SortKeepsInjective(s[1..], key, f);
      forall y | y in rest ensures f(y) != f(s[0]) {
        assert y in multiset(s[1..]);
        var m :| 0 <= m < |s[1..]| && s[1..][m] == y;
        assert f(s[0]) != f(s[m + 1]);
      }
      InsertKeepsInjective(s[0], rest, key, f);
    }
  }

  lemma {:induction false} InsertKeepsInjective<T, K>(x: T, s: seq<T>, key: T -> real, f: T -> K)
    requires Injective(s, f)
    requires forall y :: y in s ==> f(y) != f(x)
    ensures Injective(Insert(x, s, key), f)
  {
    if |s| > 0 && key(x) > key(s[0]) {
      var rest := Insert(x, s[1..], key);
      InsertKeepsInjective(x, s[1..], key, f);
      forall j | 0 <= j < |rest| ensures f(s[0]) != f(rest[j]) {
        assert rest[j] in multiset(rest);
        if rest[j] != x {
          assert rest[j] in multiset(s[1..]);
          var m :| 0 <= m < |s[1..]| && s[1..][m] == rest[j];
          assert f(s[0]) != f(s[m + 1]);
        }
      }
      assert Insert(x, s, key) == [s[0]] + rest;
    }
  }

  function Id<T>(x: T): T {
    x
  }

  /** `s.index(x)`: the position of the first occurrence of `x`. */
  function IndexOf<T(==)>(s: seq<T>, x: T): (i: nat)
    requires x in s
    ensures i < |s| && s[i] == x
    ensures forall m :: 0 <= m < i ==> s[m] != x
  {
    if s[0] == x then 0 else 1 + IndexOf(s[1..], x)
  }

  /** In a sequence without repeats an element's first occurrence is its
      only one. */
  lemma IndexOfDistinct<T>(s: seq<T>, i: nat)
    requires i < |s| && Injective(s, Id)
    ensures IndexOf(s, s[i]) == i
  {
    forall m | 0 <= m < i ensures s[m] != s[i] {
      assert Id(s[m]) != Id(s[i]);
    }
  }

  /** The elements `KeyFilter` keeps are exactly those with key `k`. */
  lemma {:induction false} KeyFilterMembers<T>(s: seq<T>, key: T -> real, k: real)
    ensures forall x :: x in KeyFilter(s, key, k) <==> x in s && key(x) == k
    decreases |s|
  {
    if |s| > 0 {
      KeyFilterMembers(s[1..], key, k);
      assert forall x :: x in s <==> x == s[0] || x in s[1..];
    }
  }

  /** `KeyFilter` is a subsequence: two elements of a tie class occur first
      in the same order before and after filtering. */
  lemma {:induction false} KeyFilterOrder<T>(s: seq<T>, key: T -> real, k: real, a: T, b: T)
    requires a in s && b in s && a != b && key(a) == k && key(b) == k
    ensures a in KeyFilter(s, key, k) && b in KeyFilter(s, key, k)
    ensures IndexOf(KeyFilter(s, key, k), a) < IndexOf(KeyFilter(s, key, k), b)
        <==> IndexOf(s, a) < IndexOf(s, b)
    decreases |s|
  {
    KeyFilterMembers(s, key, k);
    var f := KeyFilter(s, key, k);
    var rest := KeyFilter(s[1..], key, k);
    if s[0] == a {
      assert f[0] == a;
    } else if s[0] == b {
      assert f[0] == b;
    } else {
      KeyFilterOrder(s[1..], key, k, a, b);
      if key(s[0]) == k {
        assert f == [s[0]] + rest;
        assert f[1..] == rest;
      } else {
        assert f == rest;
      }
    }
  }

  /** Stability by position: two tied elements come out of the sort in the
      order of their first occurrences in the input. */
  lemma StableSortTies<T>(s: seq<T>, key: T -> real, i: nat, j: nat)
    requires Injective(s, Id)
    requires i < j < |s| && key(StableSort(s, key)[i]) == key(StableSort(s, key)[j])
    ensures StableSort(s, key)[i] in s && StableSort(s, key)[j] in s
    ensures IndexOf(s, StableSort(s, key)[i]) < IndexOf(s, StableSort(s, key)[j])
  {
    var r := StableSort(s, key);
    var k := key(r[i]);
    SortSorts(s, key);
    SortKeepsInjective(s, key, Id);
    assert r[i] in multiset(s) && r[j] in multiset(s);
    assert Id(r[i]) != Id(r[j]);
    IndexOfDistinct(r, i);
    IndexOfDistinct(r, j);
    KeyFilterOrder(r, key, k, r[i], r[j]);
    SortIsStable(s, key, k);
    KeyFilterOrder(s, key, k, r[i], r[j]);
  }

  lemma IndexOfPrefix<T>(p: seq<T>, q: seq<T>, x: T)
    requires x in p
    ensures x in p + q && IndexOf(p + q, x) == IndexOf(p, x)
  {
    var i := IndexOf(p, x);
    assert (p + q)[i] == x;
    forall m | 0 <= m < i ensures (p + q)[m] != x {
      assert (p + q)[m] == p[m];
    }
  }

  lemma IndexOfLast<T>(p: seq<T>, x: T)
    requires x !in p
    ensures IndexOf(p + [x], x) == |p|
  {
    forall m | 0 <= m < |p| ensures (p + [x])[m] != x {
      assert (p + [x])[m] == p[m];
    }
  }
}

=== FILE: text.dfy ===
/** ASCII-level model of the Python `str` operations the modelled code uses:
    `lower`, `upper`, `title`, `strip`, `split`, `join`, `startswith`, `in`,
    `rfind` and slicing. Characters outside ASCII are never case-mapped and
    are never whitespace. */
module Text {

  predicate IsUpper(c: char) { 'A' <= c <= 'Z' }
  predicate IsLower(c: char) { 'a' <= c <= 'z' }
  predicate IsLetter(c: char) { IsUpper(c) || IsLower(c) }
  predicate IsDigit(c: char) { '0' <= c <= '9' }

  /** Python's `str.isspace` restricted to ASCII: space, \t \n \v \f \r and the
      four separator controls 0x1C-0x1F. */
  predicate IsSpace(c: char) {
    c == ' ' || 9 <= c as int <= 13 || 28 <= c as int <= 31
  }

  function LowerChar(c: char): char {
    if IsUpper(c) then (c as int + 32) as char else c
  }

  function UpperChar(c: char): char {
    if IsLower(c) then (c as int - 32) as char else c
  }

  /** `str.lower()` */
  function Lower(s: string): string {
    seq(|s|, i requires 0 <= i < |s| => LowerChar(s[i]))
  }

  /** `str.upper()` */
  function Upper(s: string): string {
    seq(|s|, i requires 0 <= i < |s| => UpperChar(s[i]))
  }

  lemma LowerIdempotent(s: string)
    ensures Lower(Lower(s)) == Lower(s)
  {
  }

  lemma LowerOfUpper(s: string)
    ensures Lower(Upper(s)) == Lower(s)
  {
  }

  lemma LowerAppend(a: string, b: string)
    ensures Lower(a + b) == Lower(a) + Lower(b)
  {
  }

  /** `str.title()`: a letter is upper-cased when it starts a run of letters
      and lower-cased otherwise; every other character resets the run. */
  function Title(s: string): string {
    TitleFrom(s, false)
  }

  function TitleFrom(s: string, inWord: bool): (r: string)
    ensures |r| == |s|
    ensures forall i :: 0 <= i < |s| ==> (IsLetter(r[i]) <==> IsLetter(s[i]))
    ensures forall i :: 0 <= i < |s| && !IsLetter(s[i]) ==> r[i] == s[i]
    ensures forall i :: 0 <= i < |s| && IsLetter(s[i]) ==> LowerChar(r[i]) == LowerChar(s[i])
    decreases |s|
  {
    if |s| == 0 then ""
    else if IsLetter(s[0]) then
      [if inWord then LowerChar(s[0]) else UpperChar(s[0])] + TitleFrom(s[1..], true)
    else
      [s[0]] + TitleFrom(s[1..], false)
  }

  /** `s[:n]` with Python's slice semantics, including a negative `n`. */
  function Prefix<T>(s: seq<T>, n: int): (r: seq<T>)
    ensures |r| <= |s|
    ensures r == s[..|r|]
    ensures 0 <= n ==> |r| == if n < |s| then n else |s|
  {
    if n >= 0 then (if n < |s| then s[..n] else s)
    else if |s| + n > 0 then s[..|s| + n]
    else []
  }

  /** `s.startswith(prefix)` */
  predicate StartsWith(s: string, prefix: string) {
    |prefix| <= |s| && s[..|prefix|] == prefix
  }

  /** `sub in s` */
  predicate Contains(s: string, sub: string)
    decreases |s|
  {
    StartsWith(s, sub) || (|s| > 0 && Contains(s[1..], sub))
  }

  /** `s.rfind(c)`: the last index of `c`, or -1. */
  function LastIndexOf(s: string, c: char): (i: int)
    ensures -1 <= i < |s|
    ensures 0 <= i ==> s[i] == c
    ensures forall j :: i < j < |s| ==> s[j] != c
  {
    if |s| == 0 then -1
    else if s[|s| - 1] == c then |s| - 1
    else LastIndexOf(s[..|s| - 1], c)
  }

  function CountChar(s: string, c: char): nat {
    if |s| == 0 then 0
    else (if s[0] == c then 1 else 0) + CountChar(s[1..], c)
  }

  /** `s.split(c)` for a one-character separator: empty fields are kept, so
      there is always one more field than separators. */
  function SplitOn(s: string, c: char): (r: seq<string>)
    ensures |r| == CountChar(s, c) + 1
    ensures forall k :: 0 <= k < |r| ==> c !in r[k]
  {
    if |s| == 0 then [""]
    else if s[0] == c then [""] + SplitOn(s[1..], c)
    else
      var rest := SplitOn(s[1..], c);
      [[s[0]] + rest[0]] + rest[1..]
  }

  /** Leading and trailing characters satisfying `drop` removed; `str.strip()`
      and `str.strip(chars)` are both instances. */
  function StripWith(s: string, drop: char -> bool): (r: string)
    ensures |r| <= |s|
    ensures |r| > 0 ==> !drop(r[0]) && !drop(r[|r| - 1])
  {
    StripRight(StripLeft(s, drop), drop)
  }

  function StripLeft(s: string, drop: char -> bool): (r: string)
    ensures |r| <= |s|
    ensures r == s[|s| - |r|..]
    ensures |r| > 0 ==> !drop(r[0])
  {
    if |s| > 0 && drop(s[0]) then StripLeft(s[1..], drop) else s
  }

  function StripRight(s: string, drop: char -> bool): (r: string)
    ensures |r| <= |s|
    ensures r == s[..|r|]
    ensures |r| > 0 ==> !drop(r[|r| - 1])
    ensures |s| > 0 && !drop(s[0]) ==> |r| > 0 && r[0] == s[0]
  {
    if |s| > 0 && drop(s[|s| - 1]) then StripRight(s[..|s| - 1], drop) else s
  }

  /** `str.strip()` */
  function Strip(s: string): string {
    StripWith(s, IsSpace)
  }

  /** Neither starts nor ends with whitespace. */
  predicate Unpadded(s: string) {
    |s| == 0 || (!IsSpace(s[0]) && !IsSpace(s[|s| - 1]))
  }

  /** `strip` leaves an unpadded string alone. */
  lemma StripUnpadded(s: string)
    requires Unpadded(s)
    ensures Strip(s) == s
  {
  }

  /** Lower-casing never turns whitespace into anything else, or back. */
  lemma LowerUnpadded(s: string)
    requires Unpadded(s)
    ensures Unpadded(Lower(s))
  {
  }

  lemma LowerPadded(s: string)
    ensures Lower(" " + s + " ") == " " + Lower(s) + " "
  {
    LowerAppend(" " + s, " ");
    LowerAppend(" ", s);
  }

  /** Surrounding spaces do not survive `strip`. */
  lemma StripPadded(s: string)
    ensures Strip(" " + s + " ") == Strip(s)
  {
    assert (" " + s + " ")[1..] == s + " ";
    StripLeftThenSpace(s);
    StripRightSpace(StripLeft(s, IsSpace));
  }

  lemma {:induction false} StripLeftThenSpace(s: string)
    ensures StripLeft(s + " ", IsSpace)
         == if StripLeft(s, IsSpace) == "" then "" else StripLeft(s, IsSpace) + " "
    decreases |s|
  {
    if |s| == 0 {
      assert StripLeft(" ", IsSpace) == StripLeft("", IsSpace);
    } else if IsSpace(s[0]) {
      assert (s + " ")[1..] == s[1..] + " ";
      StripLeftThenSpace(s[1..]);
    }
  }

  lemma StripRightSpace(s: string)
    ensures StripRight(s + " ", IsSpace) == StripRight(s, IsSpace)
  {
    assert (s + " ")[..|s|] == s;
  }

  /** The maximal run of non-whitespace characters that starts `s`. */
  function TakeWord(s: string): (w: string)
    ensures |w| <= |s| && w == s[..|w|]
    ensures forall k :: 0 <= k < |w| ==> !IsSpace(w[k])
    ensures |w| < |s| ==> IsSpace(s[|w|])
    ensures |s| > 0 && !IsSpace(s[0]) ==> |w| > 0
  {
    if |s| == 0 || IsSpace(s[0]) then "" else [s[0]] + TakeWord(s[1..])
  }

  /** `str.split()` with no argument: the maximal runs of non-whitespace. */
  function Words(s: string): (ws: seq<string>)
    ensures forall k :: 0 <= k < |ws| ==> |ws[k]| > 0
    ensures forall k, j :: 0 <= k < |ws| && 0 <= j < |ws[k]| ==> !IsSpace(ws[k][j])
    decreases |s|
  {
    if |s| == 0 then []
    else if IsSpace(s[0]) then Words(s[1..])
    else
      var w := TakeWord(s);
      [w] + Words(s[|w|..])
  }

  /** `sep.join(ws)` */
  function Join(sep: string, ws: seq<string>): string {
    if |ws| == 0 then ""
    else if |ws| == 1 then ws[0]
    else ws[0] + sep + Join(sep, ws[1..])
  }

  /** A sequence has at least as many positions as distinct elements. */
  lemma {:induction false} SeqSetSize<T>(s: seq<T>)
    ensures |set x | x in s| <= |s|
    ensures (forall i, j :: 0 <= i < j < |s| ==> s[i] != s[j]) ==> |set x | x in s| == |s|
  {
    if |s| > 0 {
      SeqSetSize(s[1..]);
      assert (set x | x in s) == {s[0]} + set x | x in s[1..];
      if forall i, j :: 0 <= i < j < |s| ==> s[i] != s[j] {
        assert s[0] !in s[1..];
      }
    }
  }

  lemma SubsetSize<T>(a: set<T>, b: set<T>)
    requires a <= b
    ensures |a| <= |b|
  {
    assert b == a + (b - a);
  }
}

=== FILE: triage.dfy ===
/** The deterministic parts of the security-alert triage agent: the keyword
    classifier that reads a priority out of the analyst model's answer, the
    mock threat-intelligence lookup that recognises IP-shaped indicators, and
    the alert-detail lines of the triage prompt with their "N/A" defaults. */
module Triage {
  import opened Wrappers
  import opened Text
  import opened Dicts

  /** The four priorities, most severe first. */
  const Priorities: seq<string> := ["critical", "high", "medium", "low"]

  /** How severe a priority is; an unknown word ranks with "low". */
  function Severity(p: string): nat {
    if p == "critical" then 3 else if p == "high" then 2 else if p == "medium" then 1 else 0
  }

  /** The answer mentions the priority's word, in any letter case. */
  predicate Mentions(response: string, p: string) {
    Contains(Lower(response), p)
  }

  /** `_extract_priority(response)` */
  function ExtractPriority(response: string): (p: string)
    ensures p in Priorities
  {
    var text := Lower(response);
    if Contains(text, "critical") then "critical"
    else if Contains(text, "high") then "high"
    else if Contains(text, "medium") then "medium"
    else "low"
  }

  /** The extracted priority is the most severe of the three keywords the
      answer mentions, and "low" exactly when it mentions none of them. */
  lemma PriorityIsMostSevereMention(response: string)
    ensures var p := ExtractPriority(response);
      && (p != "low" ==> Mentions(response, p))
      && (forall q :: q in Priorities[..3] && Mentions(response, q) ==> Severity(q) <= Severity(p))
      && (p == "low" <==> forall q :: q in Priorities[..3] ==> !Mentions(response, q))
  {
    assert Priorities[..3] == ["critical", "high", "medium"];
  }

  /** "critical" anywhere wins, whatever else the answer says. */
  lemma CriticalWins(before: string, after: string)
    ensures ExtractPriority(before + "critical" + after) == "critical"
  {
    LowerAppend(before + "critical", after);
    LowerAppend(before, "critical");
    assert Lower("critical") == "critical";
    ContainsAppended(Lower(before), "critical", Lower(after));
  }

  /** A word placed in the middle of a text is contained in it. */
  lemma {:induction false} ContainsAppended(a: string, w: string, b: string)
    ensures Contains(a + w + b, w)
    decreases |a|
  {
    if |a| == 0 {
      assert a + w + b == w + b;
      assert (w + b)[..|w|] == w;
    } else {
      assert (a + w + b)[1..] == a[1..] + w + b;
      ContainsAppended(a[1..], w, b);
    }
  }

  /** The classification ignores letter case. */
  lemma PriorityIgnoresCase(response: string)
    ensures ExtractPriority(Upper(response)) == ExtractPriority(response)
  {
    LowerOfUpper(response);
  }

  /** The mock intelligence record for one indicator. */
  datatype ThreatIntel = ThreatIntel(indicator: string, reputation: string, categories: seq<string>,
                                     lastSeen: Option<string>, threatScore: nat)

  /** The shape test of `_lookup_threat_intel`: a dot, and four dot-separated
      fields. */
  predicate LooksLikeIp(indicator: string) {
    '.' in indicator && |SplitOn(indicator, '.')| == 4
  }

  /** `_lookup_threat_intel(indicator)`, before its JSON encoding. */
  function LookupThreatIntel(indicator: string): (t: ThreatIntel)
    ensures t.indicator == indicator
    ensures t.reputation in {"suspicious", "unknown"}
    ensures t.reputation == "suspicious" <==> LooksLikeIp(indicator)
  {
    if LooksLikeIp(indicator) then
      ThreatIntel(indicator, "suspicious", ["scanning", "brute-force"], Some("2 hours ago"), 65)
    else
      ThreatIntel(indicator, "unknown", [], None, 0)
  }

  /** A character occurs exactly when its count is positive. */
  lemma {:induction false} CountCharFound(s: string, c: char)
    ensures c in s <==> CountChar(s, c) > 0
  {
    if |s| > 0 {
      CountCharFound(s[1..], c);
      assert s == [s[0]] + s[1..];
    }
  }

  /** An indicator is treated as an IP exactly when it has three dots, so
      the "contains a dot" half of the test never decides anything; the
      fields need not be numbers. */
  lemma IpShapeIsThreeDots(indicator: string)
    ensures LooksLikeIp(indicator) <==> CountChar(indicator, '.') == 3
    ensures LookupThreatIntel(indicator).threatScore == 65 <==> CountChar(indicator, '.') == 3
    ensures LookupThreatIntel(indicator).threatScore == 0 <==> CountChar(indicator, '.') != 3
  {
    CountCharFound(indicator, '.');
  }

  /** The alert keys the prompt reads, in the order of its detail lines. */
  const AlertKeys: seq<string> :=
    ["id", "type", "severity", "source", "description", "source_ip", "destination_ip", "user", "timestamp"]

  /** The captions of the detail lines. */
  const AlertCaptions: seq<string> :=
    ["Alert ID", "Type", "Severity", "Source", "Description", "Source IP", "Destination IP", "User", "Timestamp"]

  const Missing := "N/A"

  /** The detail lines `_create_triage_prompt` fills in; each alert value is
      given as the text `str.format` renders for it. */
  function AlertDetails(alert: Dict<string, string>): (lines: seq<string>)
    ensures |lines| == |AlertKeys|
  {
    seq(|AlertKeys|, i requires 0 <= i < |AlertKeys| =>
      "- " + AlertCaptions[i] + ": " + Get(alert, AlertKeys[i]).GetOr(Missing))
  }

  /** Every detail line shows the alert's value under its key, and "N/A"
      when the key is missing. */
  lemma DetailsShowValueOrDefault(alert: Dict<string, string>, i: nat)
    requires i < |AlertKeys|
    ensures AlertKeys[i] !in Keys(alert) ==> AlertDetails(alert)[i] == "- " + AlertCaptions[i] + ": N/A"
    ensures forall v :: (AlertKeys[i], v) in alert && DistinctKeys(alert) ==>
      AlertDetails(alert)[i] == "- " + AlertCaptions[i] + ": " + v
  {
    forall v | (AlertKeys[i], v) in alert && DistinctKeys(alert)
      ensures AlertDetails(alert)[i] == "- " + AlertCaptions[i] + ": " + v
    {
      ItemGet(alert, AlertKeys[i], v);
    }
  }
}

=== FILE: wrappers.dfy ===
/** Optional values and failure-carrying results, used wherever the modelled
    code returns `None` or raises an exception that its caller does not catch. */
module Wrappers {

  datatype Option<+T> = None | Some(value: T) {
    function GetOr(default: T): T {
      match this
      case Some(v) => v
      case None => default
    }
  }

  /** `Failure` carries the text of an exception that propagates to the caller. */
  datatype Result<+T> = Success(value: T) | Failure(error: string)
}
